=== FILE: README.md ===
# PixThief, modelled in Dafny

PixThief is a command-line image scraper. Given a page URL it downloads every
image the page refers to. With `--domain` it crawls the pages of the same host
breadth first and downloads their images too. This project models the rules
behind that work. Each rule is stated so that it holds for every behaviour of
the server, the HTML engine and the image codec:

- **Pacing.** The humanized delay before a request (`GetRandomizedDelay`) and
  the progressive backoff after an HTTP 429 response (RFC 6585, section 4).
  The backoff uses the `_consecutiveErrors` and `_currentBackoffMultiplier`
  counters of `FetchHtmlAsync`.
- **URL rules.** The two image predicates and the same-host test, resolution
  of a reference against its page, and the normalisation of links.
- **Srcset.** The simplified `srcset` splitter.
- **Candidates.** The seven candidate heuristics of a page, their union and
  the final validity filter.
- **Files.** File naming for downloads: the name derived from the URL, the
  conversion rename, and the `_k` suffix that avoids collisions. The fallback
  name of the output folder also belongs here.
- **Conversion.** The fallback decision of `ConvertAndSaveImageAsync`.
- **The scraper object.** Its counters, visited-page set, downloaded-image
  set, output folder and image total are fields that its methods update.
  The domain crawl loop is one of those methods.
- **The command line.** The parser `ParseArguments` and the `ScraperOptions`
  record with its defaults.

Modules, one per file:

| module | file | content |
|---|---|---|
| `Common` | common.dfy | Option, 32-bit wrap-around, ASCII case folding, `Split`, `Trim`, `Replace`, insertion-ordered sets, decimal formatting |
| `Platform` | platform.dfy | the collaborators as function-valued fields: `Runtime` (System.Uri, `int.TryParse`, character classes) and `Web` (responses, parsed documents, regular-expression matches, image bytes, codec, Gaussian samples) |
| `Options` | options.dfy | `ScraperOptions`, its defaults, and the invariant the parser establishes |
| `Pacing` | pacing.dfy | randomized delay and backoff multiplier |
| `UrlRules` | urlrules.dfy | image predicates, same-host test, URL resolution, link normalisation |
| `SrcSet` | srcset.dfy | `ParseSrcSet` |
| `Extraction` | extraction.dfy | candidate heuristics, page images, anchor links |
| `Files` | files.dfy | `System.IO.Path` on Unix, file names, `GetUniqueFilePath`, output-folder names |
| `Cli` | cli.dfy | `ParseArguments` and its helpers, as written and as a specification |
| `Fetching` | fetching.dfy | one fetch and its effect on the rate-limit counters |
| `Conversion` | conversion.dfy | the encoder choice and the fallback to the original bytes |
| `Crawl` | crawl.dfy | the domain crawl as a function of the site |
| `Scraper` | scraper.dfy | the `ImageScraper` class |

The outside world becomes state of the class or parameters:

- the file system is a map from path to bytes (`files`);
- every `Task.Delay` is appended to `waits`;
- every requested image URL is appended to `imageRequests`;
- the n-th Gaussian sample is `web.jitter(n)`, and `draws` counts the samples taken.

The variance `(int)(baseDelayMs * 0.4)` is computed in doubles. The model uses
`2 * b / 5` with truncation toward zero instead. For a 32-bit base `b` the
double product is within rounding of `2b/5`, and the fractional part of `2b/5`
is a multiple of 0.2, so the truncation picks the same integer.

## Model

| member | source | states |
|---|---|---|
| Common.Wrap32 | getpics/ImageScraper.cs:517 | the result is a 32-bit integer congruent to the input modulo 2^32, and equal to it when the input already fits |
| Common.Split | getpics/ImageScraper.cs:776 | at least one piece, and no piece holds the separator |
| Common.SplitJoin | getpics/ImageScraper.cs:776 | joining the pieces of a split with the separator gives back the text, so splitting loses nothing |
| Common.Before | getpics/ImageScraper.cs:653 | the text before the first `?`: a prefix without `?`, all of the text when there is none, otherwise followed by the `?` |
| Common.Lower | getpics/Program.cs:73 | same length, each character folded on its own |
| Common.LowerEqualIffIgnoreCase | getpics/Program.cs:73 | two arguments lower-case alike exactly when they are equal ignoring case, in both directions |
| Common.Dedup | getpics/ImageScraper.cs:221-247 | what adding to a set adds: no repeats, and exactly the elements not already present |
| Common.NatToStringInjective | getpics/ImageScraper.cs:719 | distinct counters print as distinct suffixes |
| Pacing.Variance | getpics/ImageScraper.cs:91 | the variance is non-negative and is forty percent of the base, rounded down |
| Pacing.RandomizedDelay | getpics/ImageScraper.cs:75-112 | the fixed base without randomization; with it at least 200 ms; `max(200, base + sample)` for a sample within the variance whose sum fits in 32 bits; for a larger or smaller sample the clamp to base plus or minus the variance, floored at 200 ms; and exactly 200 ms whenever base plus the clamped sample passes the 32-bit maximum, since the sum wraps negative |
| Pacing.WrapsNegative | getpics/ImageScraper.cs:104-107 | a 32-bit sum just past the maximum wraps to itself minus 2^32, a negative value |
| Pacing.BackoffMultiplier | getpics/ImageScraper.cs:515 | after a signal the multiplier is twice the error count for one to four errors and 8 from four errors on |
| Pacing.BackoffWait | getpics/ImageScraper.cs:517 | the wait is the 32-bit product, and the exact product when that fits |
| Pacing.BackoffWaitExact | getpics/ImageScraper.cs:512-520 | for every delay up to 268435455 ms the wait is the exact product, between 2 and 8 times the delay |
| Pacing.BackoffWaitWrapsForHugeDelay | getpics/ImageScraper.cs:517 | a configured delay of 300000000 ms gives a negative backoff wait |
| Pacing.RandomizedDelayOverflowFloors | getpics/ImageScraper.cs:104-107 | with the largest base and sample the sum wraps and the delay falls to 200 ms |
| Fetching.Signal | getpics/ImageScraper.cs:514-515 | one more error, a multiplier in {2, 4, 6, 8}, and counters in step |
| Fetching.Settle | getpics/ImageScraper.cs:524-544 | no wait; text exactly on a 2xx reply, with the reply body and both counters reset; otherwise no text, and the counters signal exactly when the status is 429 or the reason phrase or the request error names it |
| Fetching.ReasonPhraseSignals | getpics/ImageScraper.cs:524-540 | a first reply of 503 "Too Many Requests" fails the fetch, signals the rate limit and waits nothing: the message check reads the reason phrase, not only the status |
| Fetching.FetchKeepsConsistent | getpics/ImageScraper.cs:505-545 | every fetch keeps the multiplier in step with the error count |
| Fetching.FetchSucceeds | getpics/ImageScraper.cs:505-545 | a fetch yields text exactly when the first answer, or the single retry after a 429, is a 2xx reply; success resets both counters |
| Fetching.FetchWaitsOnlyAfter429 | getpics/ImageScraper.cs:512-524 | at most one wait and so one retry; a wait exactly when the first answer is 429, of RequestDelayMs times the new multiplier |
| Fetching.FetchFailureCounts | getpics/ImageScraper.cs:512-544 | a failed fetch raises the error count by 0, 1 or 2, and by 2 exactly when a 429 is followed by a retry that signals again |
| Fetching.TimeoutLeavesCounters | getpics/ImageScraper.cs:505-545 | a timeout on the first request fails the fetch and leaves the counters and waits untouched |
| Fetching.BackoffWaitNeverInfinite | getpics/ImageScraper.cs:517-519 | the backoff wait is never -1, the value Task.Delay reads as "wait forever" |
| UrlRules.ConvertToAbsoluteUrl | getpics/ImageScraper.cs:660-678 | "" for an empty reference; an absolute reference unchanged; a relative reference becomes the rendered URL it resolves to against the page URL, or "" when the page URL does not parse or resolution fails |
| UrlRules.ConvertToAbsoluteUrlIdempotent | getpics/ImageScraper.cs:660-678 | resolving a resolved URL against the same page gives it back |
| UrlRules.NormalizeLink | getpics/ImageScraper.cs:488-490 | exactly scheme, "://", host and path followed by the query: it starts with the first four, ends with the query and is as long as all five together |
| UrlRules.NormalizeLinkIgnoresFragmentPortUserInfo | getpics/ImageScraper.cs:484-492 | URIs differing only in fragment, port, user information or local path give the same link |
| UrlRules.LinkTarget | getpics/ImageScraper.cs:478-492 | a link exactly when the href is not empty and its resolution against the page is an absolute http(s) URI, and then the normalised form of that URI; an absolute http(s) href gives its own normalised form; an empty href gives none |
| UrlRules.EmptyIsNotAnImage | getpics/ImageScraper.cs:624-658 | both image predicates reject the empty string |
| UrlRules.GifsOnlyWhenEnabled | getpics/ImageScraper.cs:648-658 | enabling GIFs only adds URLs, and only those ending in ".gif" before the query |
| UrlRules.GifRejectedUnlessEnabled | getpics/ImageScraper.cs:648-658 | a URL ending in ".gif" before the query is rejected by the pre-filter without GIFs and accepted with them |
| UrlRules.ValidGifsOnlyWhenEnabled | getpics/ImageScraper.cs:624-646 | every URL valid without GIFs is valid with them, and the only URLs added are those whose checked path ends in ".gif" in any case |
| UrlRules.ValidGifRejectedUnlessEnabled | getpics/ImageScraper.cs:624-646 | a URL whose checked path ends in ".gif" is never valid without GIFs; with them it is valid exactly when it is not empty and is an absolute http(s) URI or a relative reference |
| UrlRules.LikelyIgnoresQuery | getpics/ImageScraper.cs:653 | everything from the first `?` on does not change the pre-filter's answer |
| UrlRules.LikelyIgnoresCase | getpics/ImageScraper.cs:653 | lower-casing a URL does not change the pre-filter's answer |
| SrcSet.EntryUrl | getpics/ImageScraper.cs:780 | the URL part of an entry holds no space |
| SrcSet.EntryUrlIsPrefix | getpics/ImageScraper.cs:780 | the URL part is a prefix of the trimmed entry |
| SrcSet.EntryUrlWithoutComma | getpics/ImageScraper.cs:776-780 | an entry without a comma gives a URL part without a comma |
| SrcSet.EntryUrls | getpics/ImageScraper.cs:778-785 | no more URLs than entries, each non-empty and without a space |
| SrcSet.EntryUrlsWithoutComma | getpics/ImageScraper.cs:776-785 | entries produced by splitting on ',' give URLs without commas |
| SrcSet.EntryUrlsCount | getpics/ImageScraper.cs:778-785 | when every entry has a URL part there is one URL per entry, in input order |
| SrcSet.EntryUrlsSnoc | getpics/ImageScraper.cs:778-785 | one more entry adds its URL part at the end exactly when that part is not empty |
| SrcSet.CollectEntryUrls | getpics/ImageScraper.cs:778-785 | the foreach over the entries returns exactly the URL parts of the entries that are not empty, in order |
| SrcSet.ParseSrcSet | getpics/ImageScraper.cs:770-788 | the loop returns the URL parts of the comma-separated entries in input order, each non-empty and free of ',' and ' ' |
| Extraction.WithTag | getpics/ImageScraper.cs:267 | the selection holds exactly the elements of the document with that tag |
| Extraction.FirstWithTag | getpics/ImageScraper.cs:320 | the first element with the tag, and None only when there is none |
| Extraction.Flatten | getpics/ImageScraper.cs:221-241 | the union holds exactly what some heuristic added |
| Extraction.ResolveAll | getpics/ImageScraper.cs:415-425 | one resolved URL per reference, position by position |
| Extraction.ResolveLikely | getpics/ImageScraper.cs:358-365 | exactly the resolutions of the references that pass the pre-filter |
| Extraction.ValidOnly | getpics/ImageScraper.cs:244-247 | exactly the valid elements, and no repeats when the input had none |
| Extraction.PageImages | getpics/ImageScraper.cs:221-250 | every image downloaded is a valid image URL, none twice, and a candidate is dropped only when it is not valid |
| Extraction.AnchorLinks | getpics/ImageScraper.cs:474-494 | at most one link per anchor, each an http:// or https:// URL; a text is a link exactly when some anchor's href gives it as its link target |
| Extraction.AnchorLinksAppend | getpics/ImageScraper.cs:474-494 | the links of two runs of anchors are the links of the first followed by those of the second, so order is kept |
| Extraction.AnchorLinksSingle | getpics/ImageScraper.cs:478-492 | one anchor gives its link target when it has one and nothing otherwise |
| Extraction.PosterKeptIffValid | getpics/ImageScraper.cs:371-380 | a video poster is added unfiltered, so it is downloaded exactly when its resolved URL is valid |
| Extraction.JsonMatchKeptIffValid | getpics/ImageScraper.cs:420-427 | a JSON key/value match is added unfiltered, so it is downloaded exactly when its resolved URL is valid |
| Extraction.LazySrcNeedsSelectorAttribute | getpics/ImageScraper.cs:351-367 | data-lazy-src contributes only on elements carrying one of the five selector attributes, and there it is added when it looks like an image |
| Files.LastIndexOf | getpics/ImageScraper.cs:713-714 | None exactly when the character is absent; otherwise its last position |
| Files.FileName | getpics/ImageScraper.cs:685 | the text after the last '/': a suffix of the path without '/', preceded by '/' whenever it is not the whole path |
| Files.FileNameWithoutExtension | getpics/ImageScraper.cs:571 | the file name cut at its last '.': all of it when it has no '.', otherwise the prefix before a '.' that has no '.' after it; no '/' |
| Files.NameStem | getpics/ImageScraper.cs:571 | a prefix of the name: all of it when it has no '.', otherwise cut just before its last '.' |
| Files.CombineInjective | getpics/ImageScraper.cs:720 | joining a directory with different relative names gives different paths |
| Files.SanitizeFileName | getpics/Program.cs:251-256 | same length; each invalid character becomes '_' and every other character is kept in place, so no invalid character and no '/' remain and a name without invalid characters is unchanged |
| Files.SanitizeKeepsExtension | getpics/ImageScraper.cs:691-697 | replacing invalid characters keeps the extension and whether there is one |
| Files.ExtractFileNameFromUrl | getpics/ImageScraper.cs:680-705 | "image.jpg" when the URL is not absolute; otherwise the last segment of its local path: sanitised when it has an extension (unchanged when it holds no invalid character), sanitised with ".jpg" appended when it has none, "image.jpg" when empty; always a non-empty name with an extension and no invalid character |
| Files.DefaultFileNameIsValid | getpics/ImageScraper.cs:703 | the fallback name has an extension and no invalid character |
| Files.FileNameFromLocalPath | getpics/ImageScraper.cs:685-699 | the last segment of the local path: sanitised when it has an extension (unchanged when it holds no invalid character), sanitised with ".jpg" appended when it has none, "image.jpg" when empty; always non-empty with an extension and no invalid character |
| Files.OrImage | getpics/ImageScraper.cs:687-688 | an empty name becomes "image", any other is kept |
| Files.WithExtension | getpics/ImageScraper.cs:690-692 | a name without extension gets ".jpg" appended, a name with one is kept |
| Files.EmptySegmentName | getpics/ImageScraper.cs:687-697 | an empty segment ends as "image.jpg" |
| Files.WithJpgExtension | getpics/ImageScraper.cs:691-692 | appending ".jpg" gives a name that has an extension |
| Files.ConvertedFileNameExtension | getpics/ImageScraper.cs:569-575 | the renamed file keeps the stem and carries exactly the target format as extension |
| Files.CombineFileName | getpics/ImageScraper.cs:577 | joining a directory with a plain name gives that name as file name, with one separator between them |
| Files.CombineConverted | getpics/ImageScraper.cs:569-577 | a converted name joined to a directory keeps its stem and has "." and the format as extension |
| Files.SameFileName | getpics/ImageScraper.cs:569-571 | paths with the same file name have the same stem and extension |
| Files.AlternativeInjective | getpics/ImageScraper.cs:716-725 | different counters give different alternative paths |
| Files.GetUniqueFilePath | getpics/ImageScraper.cs:707-727 | the path itself when free; otherwise `stem_k.ext` for the smallest k >= 1 that is free; never an existing file |
| Files.OutputFolderFallback | getpics/ImageScraper.cs:759-767 | the host with every "www." removed, then '_', then the path slug, or "_images" when the slug is empty; no '/' when the host has none |
| Files.PathSlug | getpics/ImageScraper.cs:762 | the path with its leading and trailing '/' removed and each inner '/' turned into '_' (SlugAt states this position by position) |
| Files.WwwRemovedAnywhere | getpics/ImageScraper.cs:761 | every "www." is removed, not only a leading one |
| Files.WwwCanSurvive | getpics/ImageScraper.cs:761 | removal is a single pass: "wwww.ww.x" becomes "www.x" |
| Files.CollapseWhiteSpace | getpics/ImageScraper.cs:747 | no white space remains, and text without white space is unchanged |
| Files.CollapseRun | getpics/ImageScraper.cs:747 | a maximal run of white space between two other characters becomes exactly one '_' and the text around it is collapsed on its own |
| Files.KeepTitleChars | getpics/ImageScraper.cs:746 | only word characters, white space, '-' and '_' are kept, every such character of the title survives, and a title made only of them is unchanged; KeepTitleCharsAppend and KeepTitleCharsSingle fix order and multiplicity |
| Files.KeepTitleCharsAppend | getpics/ImageScraper.cs:746 | filtering a concatenation is the concatenation of the filtered parts, so order and repetitions are kept |
| Files.KeepTitleCharsSingle | getpics/ImageScraper.cs:746 | one character is kept exactly when it is a word character, white space, '-' or '_' |
| Files.FolderFromTitle | getpics/ImageScraper.cs:744-750 | a name exactly for titles longer than 2 whose sanitised form is longer than 3, and then that sanitised form; it holds only word characters, '-' and '_' and no white space |
| Conversion.EncoderFor | getpics/ImageScraper.cs:808-835 | an encoder exactly for jpg, jpeg, png and gif in any case: JPEG with the configured quality for jpg and jpeg, PNG for png, GIF for gif |
| Conversion.Saved | getpics/ImageScraper.cs:832-858 | the original bytes when conversion fails; for a decodable image and a known format, the encoder's output when encoding succeeds and the original bytes otherwise |
| Conversion.ConvertedOnlyWhen | getpics/ImageScraper.cs:796-860 | a conversion succeeds exactly when the bytes decode, the format is known and encoding succeeds |
| Conversion.ParsedFormatsHaveEncoder | getpics/Program.cs:129-146 | every format the parser stores has an encoder, so the unknown-format branch never runs after parsing |
| Crawl.Enqueued | getpics/ImageScraper.cs:195-199 | a link is enqueued exactly when it is not visited and on the start host |
| Crawl.ImagesOf | getpics/ImageScraper.cs:216-247 | the images of a page are distinct valid image URLs, none when the page is missing or empty |
| Crawl.FrontierUnfold | getpics/ImageScraper.cs:166-200 | one pass of the loop: a visited page is skipped uncounted, another is processed and its fresh same-host links are enqueued |
| Crawl.FrontierDone | getpics/ImageScraper.cs:166 | an empty queue or spent budget ends the crawl with no further pages or images |
| Crawl.FrontierNoRepeats | getpics/ImageScraper.cs:166-174 | no page is processed twice, and no page visited before is processed |
| Crawl.FrontierWithinBudget | getpics/ImageScraper.cs:166-174 | at most MaxPages minus the pages counted so far are processed |
| Crawl.FrontierStaysOnHost | getpics/ImageScraper.cs:195-199 | every page processed was queued already or is on the start host |
| Crawl.CrawlProperties | getpics/ImageScraper.cs:158-206 | at most MaxPages pages, none twice, the start page first, every other page on the start host |
| Crawl.FailedPageCounts | getpics/ImageScraper.cs:170-206 | a page whose fetch fails still counts and adds no links |
| Cli.NormalizeFormat | getpics/Program.cs:129-146 | accepted exactly when the lower-cased value is jpg, jpeg, png or gif; jpg and jpeg give "jpg", png and gif give themselves lower-cased |
| Cli.ClassifyNames | getpics/Program.cs:73-176 | the case labels are exactly the four flags, the five options with a value and the three help tokens |
| Cli.ApplyFlag | getpics/Program.cs:75-87 | each flag turns on its own field (`--stealth` both stealth mode and randomization) and leaves every other field as it was; well-formedness is kept |
| Cli.ApplyValue | getpics/Program.cs:88-162 | accepted exactly when the value is valid for its option (a positive integer for `--delay` and `--max-pages`, 1..100 for `--jpeg-quality`, a supported format for `--convert-to`, anything for `--out`); then only that option's fields change, to the parsed, normalised or sanitised value, with `--delay` also turning stealth on and randomization off |
| Cli.ParseOption | getpics/Program.cs:69-176 | a flag continues with the flag applied at the next index; an option with a value continues exactly when a next argument exists and is accepted, with that value applied, two indices on; any other argument stops the parse |
| Cli.TryReadValueOption | getpics/Program.cs:188-199 | succeeds exactly when a next argument exists, reads it and advances the index by one; otherwise "" and the index unchanged |
| Cli.TryReadIntOption | getpics/Program.cs:201-215 | succeeds exactly when a next argument exists and parses as an integer; the value is 0 on failure |
| Cli.ApplyOption | getpics/Program.cs:73-176 | one switch arm gives the same outcome as the specification step |
| Cli.ParseArguments | getpics/Program.cs:40-180 | the index-walking parser returns the result of the parser specification, about which ParseSucceeds, ParseAcceptsEveryValue and ParseStoresLastValues state what is stored |
| Cli.LastValue | getpics/Program.cs:88-161 | the value of the last read of an option, and None exactly when the option was never read |
| Cli.ParseAcceptsEveryValue | getpics/Program.cs:88-176 | a successful parse read only known flags and options whose values were accepted: a rejected value fails the whole parse |
| Cli.ParseStoresLastValues | getpics/Program.cs:75-177 | a successful parse stores, for each option with a value, its last value read (parsed, normalised or sanitised) or the default when never given, and turns on each flag given |
| Cli.AppliedNumbers | getpics/Program.cs:88-161 | one accepted option sets the number it names to its parsed value and leaves the other numbers |
| Cli.AppliedTexts | getpics/Program.cs:120-146 | one accepted option sets the format or folder it names, normalised or sanitised, and leaves the other |
| Cli.AppliedFlags | getpics/Program.cs:75-87 | one option turns on the flag it names and leaves the other flags |
| Cli.DefaultsWellFormed | getpics/ScraperOptions.cs:3-24 | the defaults are well formed and have no URL, output folder or format |
| Cli.HelpIgnoresCase | getpics/Program.cs:182-186 | help tokens are recognised in any letter case |
| Cli.OptionNameIgnoresCase | getpics/Program.cs:73 | changing only the letter case of an option name changes nothing |
| Cli.ParseFromKeeps | getpics/Program.cs:69-177 | the options stay well formed and the folder sanitised while parsing |
| Cli.ParseSucceeds | getpics/Program.cs:42-66 | a successful parse had a first argument that is an http(s) URL and not a help token, and records it as the URL |
| Cli.UrlKept | getpics/Program.cs:66-177 | the options never change the URL |
| Cli.UrlOnlyYieldsDefaults | getpics/ScraperOptions.cs:5-23 | a lone URL gives MaxPages 100, RequestDelayMs 1000, JpegQuality 90, every flag false and no folder or format |
| Cli.ParsedOptionsKnown | getpics/Program.cs:167-175 | a successful parse read no help token and no unknown option after the URL |
| Cli.RandomizedAfterNoPacing | getpics/Program.cs:75-176 | options other than `--stealth` and `--delay` leave randomization unchanged |
| Cli.RandomizedAfterLastWins | getpics/Program.cs:83-103 | the later of `--stealth` and `--delay` decides randomization |
| Cli.ParseOptionPacing | getpics/Program.cs:83-103 | `--stealth` turns randomization on and `--delay` off, and either turns stealth mode on |
| Cli.ParsePacing | getpics/Program.cs:83-103 | stealth mode is on exactly when `--stealth` or `--delay` was read, and randomization follows the last of them |
| Scraper.Stored | getpics/ImageScraper.cs:586-604 | without conversion the original bytes; with it, the converted bytes when conversion succeeds and the original bytes otherwise |
| Scraper.OutputFolderFor | getpics/ImageScraper.cs:729-768 | the configured folder when it is not empty; otherwise the title's folder when there is one; otherwise the host-and-path fallback of the absolute URL; no folder exactly in the remaining case |
| Scraper.OutputFolderNotEmpty | getpics/ImageScraper.cs:729-768 | the chosen folder is never the empty name |
| Scraper.ExtendNewRequests | getpics/ImageScraper.cs:547-553 | downloading more valid images keeps every request since a point distinct, valid and newly marked |
| Scraper.DedupAppend | getpics/ImageScraper.cs:254-257 | the new images of two lists are the new images of the first, then those of the second not among the first |
| Scraper.DistinctCount | getpics/ImageScraper.cs:166-174 | a list of distinct pages has as many pages as entries |
| Scraper.CollectLinks | getpics/ImageScraper.cs:476-493 | the foreach over the anchors returns exactly their link targets, in document order |
| Scraper.ImageScraper.constructor | getpics/ImageScraper.cs:17-48 | a new scraper has rested counters, no visited pages, no downloads, no waits and no folder |
| Scraper.ImageScraper.Pause | getpics/ImageScraper.cs:75-112 | one wait, the fixed base without randomization and at least 200 ms with it; one sample drawn when randomizing |
| Scraper.ImageScraper.FetchHtml | getpics/ImageScraper.cs:505-545 | the fields are updated as the fetch specification says, with the same text and waits, and the counters stay in step |
| Scraper.ImageScraper.ConvertAndSave | getpics/ImageScraper.cs:796-860 | success exactly when conversion succeeds; the target file holds the converted bytes or, on failure, the original bytes |
| Scraper.ImageScraper.StealthPause | getpics/ImageScraper.cs:558-563 | in stealth mode one pause of half the configured delay, else none |
| Scraper.TargetPathParts | getpics/ImageScraper.cs:565-577 | the target path is the folder or ".", one separator and the URL's file name, renamed to the format's extension with the same stem when converting |
| Scraper.ImageScraper.TargetFor | getpics/ImageScraper.cs:565-577 | the target is the output folder, or "." when there is none, one separator and a file name: the URL's file name without conversion; with it, that name's stem with "." and the format as extension |
| Scraper.ImageScraper.DownloadImage | getpics/ImageScraper.cs:547-614 | the URL is marked before any wait or request; a marked URL is skipped with nothing done; otherwise one request, and the bytes go to a free path so no existing file changes |
| Scraper.ImageScraper.SaveImage | getpics/ImageScraper.cs:577-604 | one request; nothing written when it fails, else the stored bytes at the target or its first free alternative |
| Scraper.ImageScraper.DownloadAll | getpics/ImageScraper.cs:254-257 | all the URLs are marked; exactly the URLs new to the set are requested, once each and in order; one pause and its samples per request; their images are stored at free paths, so no existing file changes |
| Scraper.ImageScraper.DownloadAllStep | getpics/ImageScraper.cs:254-257 | one more URL extends the loop invariant: a marked URL adds nothing, a new one one request, one pause and one stored image |
| Scraper.ImageScraper.StoresImagesAppend | getpics/ImageScraper.cs:254-257 | storing two runs of images one after the other stores their concatenation |
| Scraper.ImageScraper.StoresImagesKeeps | getpics/ImageScraper.cs:577-604 | storing images never changes or removes an existing file |
| Scraper.ImageScraper.CountAndDownload | getpics/ImageScraper.cs:250-257 | the total grows by the number of images found, the new ones are requested once each and stored, with one pause each |
| Scraper.ImageScraper.ExtractAndDownload | getpics/ImageScraper.cs:212-263 | the fetch of the specification; failure exactly when it yields no text, and then no image is requested; otherwise the total grows by the page's images, which are marked, the new ones requested once each and stored; the waits are the fetch's then one pause per new image |
| Scraper.ImageScraper.ExtractLinks | getpics/ImageScraper.cs:463-503 | the links and counters of the link specification, no links when the fetch fails |
| Scraper.ImageScraper.DetermineOutputFolder | getpics/ImageScraper.cs:729-768 | the configured folder without any request; otherwise one fetch, and the folder is the title's folder or the URL fallback of OutputFolderFor applied to that fetch's page; never the empty name |
| Scraper.ImageScraper.CrawlPage | getpics/ImageScraper.cs:177-200 | one page: the stealth pause, the page's images counted, marked, requested and stored, then the second fetch for links, whose fresh same-host links are enqueued; counters and waits follow the crawl specification |
| Scraper.ImageScraper.PausePage | getpics/ImageScraper.cs:181-186 | the stealth pause before a page after the first, and nothing otherwise |
| Scraper.ImageScraper.PageStep | getpics/ImageScraper.cs:181-189 | the waits and samples of a page are its pause, its fetch and one pause per new image, in that order |
| Scraper.ImageScraper.DownloadPage | getpics/ImageScraper.cs:181-189 | the page pause, then the page's images counted, marked, each new one requested once and stored; waits and samples in order |
| Scraper.ImageScraper.FollowLinks | getpics/ImageScraper.cs:192-200 | after a successful image fetch, the second fetch's fresh same-host links are enqueued in order; after a failed one nothing happens |
| Scraper.ImageScraper.EnqueueLinks | getpics/ImageScraper.cs:195-199 | the queue grows by the links not visited and on the start host, in order |
| Scraper.ImageScraper.CrawlStep | getpics/ImageScraper.cs:166-206 | one pass keeps the loop invariant: the pages counted plus those still to come are the crawl specification's pages, the images recorded plus those still to come are its images, and the visited set is the pages counted |
| Scraper.ImageScraper.CrawlAdvance | getpics/ImageScraper.cs:166-206 | the images of one more page extend the record of all the images downloaded so far |
| Scraper.ImageScraper.RecordedNothing | getpics/ImageScraper.cs:170-174 | skipping a visited page records nothing |
| Scraper.ImageScraper.CrawlDomain | getpics/ImageScraper.cs:158-206 | the pages processed are exactly those of the crawl specification and the page count is their number; the total grows by all their images, every distinct image is marked, requested once in order and stored, and no existing file changes |
| Scraper.ImageScraper.DownloadImagesForSinglePage | getpics/ImageScraper.cs:114-136 | success needs a URL and a non-empty folder, and the folder is the one DetermineOutputFolder chooses (configured, then title, then host fallback); then the page fetched after the folder is chosen has its images counted, marked, each new one requested once and stored; waits are the folder fetch, the page fetch and one pause per new image; on failure no image is requested |
| Scraper.ImageScraper.DownloadImagesForDomain | getpics/ImageScraper.cs:138-210 | on success the folder is the one DetermineOutputFolder chooses (configured, then title, then host fallback), the pages are those of the crawl from the URL (at most MaxPages, the start page among them, the rest on its host), and all their images are counted, marked, requested once each and stored; on failure no image is requested |

## Left out

- Console output, `PrintUsage`, `Program.Main` and its exit codes are left out because they are I/O.
- `AddStealthHeaders` is left out: its headers and its random User-Agent choice affect only the HTTP requests, which the `Web` collaborator stands for.
- The HttpClient timeout is left out. A request that times out is a `TimedOut` answer.
- `Directory.CreateDirectory` is left out: the file system is a map from path to bytes, and writes never fail.
- The Box–Muller computation of the Gaussian sample is floating point and is left out. Each scaled sample is an arbitrary integer, `web.jitter(n)`.
- Regular-expression semantics are left out. `ExtractUrlsFromCss`, the inline-style pass, the JSON pass and the bare-URL pass are opaque producers of match lists in `Web`.
- The AngleSharp DOM is left out. A document is its title and its elements in document order, and every selector is a filter over that list.
- ImageSharp decoding and encoding are left out. The codec is an oracle that succeeds or fails.
- `System.Uri` parsing, resolution (RFC 3986, section 5.2) and rendering are oracles in `Runtime`. So are `int.TryParse`, `Path.GetInvalidFileNameChars` and the `\w` and `\s` classes. The assumptions the proofs use are the predicate `Platform.Sound`.
- Case folding covers ASCII letters only. Culture-specific and non-ASCII case mappings are not modelled.
- `System.IO.Path` is modelled with Unix behaviour, where '/' is the only directory separator.
- A server's answer depends only on the URL and the attempt number (first request or retry). So the two fetches of a crawled page, for its images and then its links, get the same answers, and a server whose answers change over time is not modelled.
- Scraper.ImageScraper.ExtractAndDownload: `_totalImagesFound` is an unbounded integer; the 32-bit overflow after more than 2^31 images is not modelled.
- The message text of an `HttpRequestException` is not modelled as text. For a reply that `EnsureSuccessStatusCode` rejects, the check reads the status and the reason phrase (the message holds both); for a request that fails without a reply, the error's own mention of 429 or "Too Many Requests" is one boolean of the answer.
- UrlRules.IsLikelyImageUrl: compares the extension character by character; the source's culture-sensitive `EndsWith` also skips ignorable code points, so a URL such as ".jp\u00ADg" (with a soft hyphen) passes there and not here.
- Extraction.SrcCandidate: the "data:" prefix test is character by character; the source's culture-sensitive `StartsWith` would also skip ignorable code points before or inside the prefix.
- Scraper.ImageScraper.CrawlDomain: the waits and samples of a whole crawl are stated page by page (CrawlPage, DownloadPage), not as one sequence for the crawl.
- `VisitedUrls` and `DownloadedImages` are static sets shared by every scraper; the model makes them fields of the one scraper, since a run uses one.
- Enumeration order of the page's candidate `HashSet` is unspecified in .NET; the model fixes insertion order. This affects only the order of downloads, not which images are downloaded.
- Asynchrony is left out: every awaited call completes before the next statement, as in the sequential source.
- Scraper.ImageScraper.constructor: requires options the parser accepts (positive delay and page budget, quality in 1..100, a supported format), which every caller passes.
- Pacing.RandomizedDelay: requires a non-negative base when randomizing, because `Math.Clamp` would throw for a negative one; every caller passes the positive configured delay or half of it.
- Scraper.ImageScraper.DownloadImagesForSinglePage: a missing URL or a URL that is not absolute throws in the source; the model returns false instead.

=== FILE: cli.dfy ===
/**
 * The command-line parser (getpics/Program.cs): the first argument is the
 * page URL, every later argument is an option name matched ignoring case,
 * and the value-taking options read the argument after them. Any error,
 * and any help request, ends parsing with no options at all.
 */
module Cli {
  import opened Common
  import opened Platform
  import opened Options
  import Files

  /** The option names that take no value. */
  const FlagOptions: set<string> := {"--domain", "--include-gifs", "--stealth", "--verbose"}

  /** The option names that read the argument after them. */
  const ValueOptions: set<string> := {"--delay", "--max-pages", "--out", "--convert-to", "--jpeg-quality"}

  /** The help tokens, in lower case. */
  const HelpOptions: set<string> := {"--help", "-h", "/?"}

  /** IsHelpOption: the argument is a help token, ignoring case. */
  predicate IsHelpOption(arg: string) {
    Lower(arg) in HelpOptions
  }

  /** The first argument must parse as an absolute http or https URL. */
  predicate IsHttpUrl(rt: Runtime, url: string) {
    match rt.tryCreateAbsolute(url)
    case Some(u) => IsHttpScheme(u)
    case None => false
  }

  /** The --convert-to value: lower-cased, "jpeg" read as "jpg", and only a supported format accepted. */
  function NormalizeFormat(raw: string): (r: Option<string>)
    ensures r.Some? ==> r.value in ConvertFormats
    ensures r.Some? ==> r.value == Lower(raw) || (Lower(raw) == "jpeg" && r.value == "jpg")
    ensures r.Some? <==> Lower(raw) in {"jpg", "jpeg", "png", "gif"}
    ensures Lower(raw) in {"jpg", "jpeg"} ==> r == Some("jpg")
    ensures Lower(raw) in {"png", "gif"} ==> r == Some(Lower(raw))
  {
    var format := Lower(raw);
    var format := if format == "jpeg" then "jpg" else format;
    if format in ConvertFormats then Some(format) else None
  }

  // ---------------------------------------------------------------------
  // The parser as a specification
  // ---------------------------------------------------------------------

  /** The case labels of the switch over an option name. */
  datatype OptionName =
    | Domain | IncludeGifs | Stealth | Verbose                   // flags
    | Delay | MaxPages | Out | ConvertTo | JpegQuality          // options with a value
    | Help                                                      // "--help", "-h", "/?"
    | Unknown                                                   // the default label
  {
    predicate IsFlag() {
      Domain? || IncludeGifs? || Stealth? || Verbose?
    }

    predicate TakesValue() {
      Delay? || MaxPages? || Out? || ConvertTo? || JpegQuality?
    }
  }

  /** The case label a lower-cased argument selects. */
  function Classify(name: string): OptionName {
    if name == "--domain" then Domain
    else if name == "--include-gifs" then IncludeGifs
    else if name == "--stealth" then Stealth
    else if name == "--delay" then Delay
    else if name == "--max-pages" then MaxPages
    else if name == "--out" then Out
    else if name == "--convert-to" then ConvertTo
    else if name == "--jpeg-quality" then JpegQuality
    else if name == "--verbose" then Verbose
    else if name == "--help" || name == "-h" || name == "/?" then Help
    else Unknown
  }

  /** The labels agree with the name tables: flags, options with a value, and help tokens. */
  lemma ClassifyNames(name: string)
    ensures Classify(name).IsFlag() <==> name in FlagOptions
    ensures Classify(name).TakesValue() <==> name in ValueOptions
    ensures Classify(name).Help? <==> name in HelpOptions
  {
  }

  /** The outcome of one option: the updated options and the index of the next option, or a rejection. */
  datatype Step = Continue(options: ScraperOptions, next: nat) | Stop

  /** What a flag sets. */
  function ApplyFlag(k: OptionName, o: ScraperOptions): (r: ScraperOptions)
    requires k.IsFlag()
    ensures r.url == o.url && r.outputFolder == o.outputFolder
    ensures WellFormed(o) ==> WellFormed(r)
    ensures r.isDomainMode == (o.isDomainMode || k.Domain?)
    ensures r.includeAnimatedGifs == (o.includeAnimatedGifs || k.IncludeGifs?)
    ensures r.isVerbose == (o.isVerbose || k.Verbose?)
    ensures r.stealthMode == (o.stealthMode || k.Stealth?) && r.randomizeDelays == (o.randomizeDelays || k.Stealth?)
    ensures r.maxPages == o.maxPages && r.requestDelayMs == o.requestDelayMs
    ensures r.convertToFormat == o.convertToFormat && r.jpegQuality == o.jpegQuality
  {
    match k
    case Domain => o.(isDomainMode := true)
    case IncludeGifs => o.(includeAnimatedGifs := true)
    case Stealth => o.(stealthMode := true, randomizeDelays := true)
    case Verbose => o.(isVerbose := true)
  }

  /**
   * Whether an option accepts its value: --delay and --max-pages need a
   * positive integer, --jpeg-quality one in 1..100, --convert-to a
   * supported format; --out takes any text.
   */
  predicate ValueAccepted(rt: Runtime, k: OptionName, raw: string)
    requires k.TakesValue()
  {
    match k
    case Delay => rt.tryParseInt(raw).Some? && rt.tryParseInt(raw).value > 0
    case MaxPages => rt.tryParseInt(raw).Some? && rt.tryParseInt(raw).value > 0
    case JpegQuality => rt.tryParseInt(raw).Some? && 1 <= rt.tryParseInt(raw).value <= 100
    case ConvertTo => NormalizeFormat(raw).Some?
    case Out => true
  }

  /**
   * What an option sets from its value, or None when the value is rejected:
   * --delay and --max-pages need a positive integer, --jpeg-quality one in
   * 1..100, --convert-to a supported format; --out takes any text and
   * sanitises it as a file name.
   */
  function ApplyValue(rt: Runtime, k: OptionName, raw: string, o: ScraperOptions): (r: Option<ScraperOptions>)
    requires k.TakesValue()
    ensures r.Some? <==> ValueAccepted(rt, k, raw)
    ensures r.Some? && k.Delay? ==>
              r.value == o.(requestDelayMs := rt.tryParseInt(raw).value, stealthMode := true, randomizeDelays := false)
    ensures r.Some? && k.MaxPages? ==> r.value == o.(maxPages := rt.tryParseInt(raw).value)
    ensures r.Some? && k.JpegQuality? ==> r.value == o.(jpegQuality := rt.tryParseInt(raw).value)
    ensures r.Some? && k.ConvertTo? ==> r.value == o.(convertToFormat := NormalizeFormat(raw))
    ensures r.Some? && k.Out? ==> r.value == o.(outputFolder := Some(Files.SanitizeFileName(rt, raw)))
    ensures r.Some? && ParsesInt32(rt) && WellFormed(o) ==> WellFormed(r.value)
    ensures r.Some? && FileNameCharsSound(rt) && FolderSanitized(rt, o) ==> FolderSanitized(rt, r.value)
  {
    match k
    case Delay => SetDelay(rt, raw, o)
    case MaxPages => SetMaxPages(rt, raw, o)
    case Out => Some(o.(outputFolder := Some(Files.SanitizeFileName(rt, raw))))
    case ConvertTo => SetFormat(raw, o)
    case JpegQuality => SetQuality(rt, raw, o)
  }

  /** --delay: a positive integer becomes the delay and selects stealth mode with a fixed delay. */
  function SetDelay(rt: Runtime, raw: string, o: ScraperOptions): (r: Option<ScraperOptions>)
    ensures r.Some? <==> rt.tryParseInt(raw).Some? && rt.tryParseInt(raw).value > 0
    ensures r.Some? ==> r.value == o.(requestDelayMs := rt.tryParseInt(raw).value, stealthMode := true, randomizeDelays := false)
  {
    match rt.tryParseInt(raw)
    case None => None
    case Some(delay) =>
      if delay <= 0 then None
      else Some(o.(requestDelayMs := delay, stealthMode := true, randomizeDelays := false))
  }

  /** --max-pages: a positive integer becomes the page budget. */
  function SetMaxPages(rt: Runtime, raw: string, o: ScraperOptions): (r: Option<ScraperOptions>)
    ensures r.Some? <==> rt.tryParseInt(raw).Some? && rt.tryParseInt(raw).value > 0
    ensures r.Some? ==> r.value == o.(maxPages := rt.tryParseInt(raw).value)
  {
    match rt.tryParseInt(raw)
    case None => None
    case Some(maxPages) => if maxPages <= 0 then None else Some(o.(maxPages := maxPages))
  }

  /** --convert-to: a supported format, normalised, becomes the target format. */
  function SetFormat(raw: string, o: ScraperOptions): (r: Option<ScraperOptions>)
    ensures r.Some? <==> NormalizeFormat(raw).Some?
    ensures r.Some? ==> r.value == o.(convertToFormat := NormalizeFormat(raw))
  {
    match NormalizeFormat(raw)
    case None => None
    case Some(format) => Some(o.(convertToFormat := Some(format)))
  }

  /** --jpeg-quality: an integer in 1..100 becomes the JPEG quality. */
  function SetQuality(rt: Runtime, raw: string, o: ScraperOptions): (r: Option<ScraperOptions>)
    ensures r.Some? <==> rt.tryParseInt(raw).Some? && 1 <= rt.tryParseInt(raw).value <= 100
    ensures r.Some? ==> r.value == o.(jpegQuality := rt.tryParseInt(raw).value)
  {
    match rt.tryParseInt(raw)
    case None => None
    case Some(quality) => if quality < 1 || quality > 100 then None else Some(o.(jpegQuality := quality))
  }

  /**
   * One pass of the loop body at index i. A flag moves on by one argument
   * and an option with a value by two; a help token, an unknown name, a
   * missing value or a rejected one stops parsing.
   */
  function ParseOption(rt: Runtime, args: seq<string>, i: nat, o: ScraperOptions): (s: Step)
    requires i < |args|
    ensures s.Continue? ==> Classify(Lower(args[i])).IsFlag() || Classify(Lower(args[i])).TakesValue()
    ensures var k := Classify(Lower(args[i]));
            k.IsFlag() ==> s == Continue(ApplyFlag(k, o), i + 1)
    ensures var k := Classify(Lower(args[i]));
            k.TakesValue() ==>
              (s.Continue? <==> i + 1 < |args| && ValueAccepted(rt, k, args[i + 1])) &&
              (s.Continue? ==> s.options == ApplyValue(rt, k, args[i + 1], o).value)
    ensures var k := Classify(Lower(args[i]));
            !k.IsFlag() && !k.TakesValue() ==> s == Stop
    ensures s.Continue? ==> s.next == if Classify(Lower(args[i])).TakesValue() then i + 2 else i + 1
    ensures s.Continue? ==> s.next <= |args| && s.options.url == o.url
    ensures s.Continue? && ParsesInt32(rt) && FileNameCharsSound(rt) && WellFormed(o) && FolderSanitized(rt, o) ==>
              WellFormed(s.options) && FolderSanitized(rt, s.options)
  {
    var k := Classify(Lower(args[i]));
    if k.IsFlag() then Continue(ApplyFlag(k, o), i + 1)
    else if k.TakesValue() && i + 1 < |args| then
      match ApplyValue(rt, k, args[i + 1], o)
      case None => Stop
      case Some(o') => Continue(o', i + 2)
    else Stop
  }

  /** The options after processing every argument from index i on, or None when one is rejected. */
  function ParseFrom(rt: Runtime, args: seq<string>, i: nat, o: ScraperOptions): Option<ScraperOptions>
    decreases |args| - i
  {
    if i >= |args| then Some(o)
    else
      match ParseOption(rt, args, i, o)
      case Stop => None
      case Continue(o', j) => ParseFrom(rt, args, j, o')
  }

  /** ParseArguments as a function of the argument list. */
  function Parse(rt: Runtime, args: seq<string>): Option<ScraperOptions> {
    if |args| == 0 || IsHelpOption(args[0]) || !IsHttpUrl(rt, args[0]) then None
    else ParseFrom(rt, args, 1, Defaults().(url := Some(args[0])))
  }

  /** The case labels selected from index i on, in order, up to and including a rejected option. */
  function OptionLabels(rt: Runtime, args: seq<string>, i: nat, o: ScraperOptions): seq<OptionName>
    decreases |args| - i
  {
    if i >= |args| then []
    else
      match ParseOption(rt, args, i, o)
      case Stop => [Classify(Lower(args[i]))]
      case Continue(o', j) => [Classify(Lower(args[i]))] + OptionLabels(rt, args, j, o')
  }

  /** An option read by the parser: its case label and the argument after it ("" for a flag). */
  datatype OptionRead = OptionRead(name: OptionName, value: string)

  /** The options read from index i on, in order, up to and including a rejected one. */
  function OptionReads(rt: Runtime, args: seq<string>, i: nat, o: ScraperOptions): seq<OptionRead>
    decreases |args| - i
  {
    if i >= |args| then []
    else
      var k := Classify(Lower(args[i]));
      var read := OptionRead(k, if k.TakesValue() && i + 1 < |args| then args[i + 1] else "");
      match ParseOption(rt, args, i, o)
      case Stop => [read]
      case Continue(o', j) => [read] + OptionReads(rt, args, j, o')
  }

  /** The value of the last read of option k, if any. */
  function LastValue(trace: seq<OptionRead>, k: OptionName): (r: Option<string>)
    ensures r.None? <==> forall n :: 0 <= n < |trace| ==> trace[n].name != k
    ensures r.Some? ==> exists n :: 0 <= n < |trace| && trace[n] == OptionRead(k, r.value) &&
                                    forall m :: n < m < |trace| ==> trace[m].name != k
  {
    if trace == [] then None
    else if trace[|trace| - 1].name == k then Some(trace[|trace| - 1].value)
    else LastValue(trace[..|trace| - 1], k)
  }

  // ---------------------------------------------------------------------
  // The parser as written
  // ---------------------------------------------------------------------

  /** TryReadValueOption: trace the argument after `index` and advances past it; fails when there is none. */
  method TryReadValueOption(args: seq<string>, index: nat) returns (ok: bool, next: nat, value: string)
    ensures ok <==> index + 1 < |args|
    ensures ok ==> next == index + 1 && value == args[index + 1]
    ensures !ok ==> next == index && value == ""
  {
    if index + 1 >= |args| {
      return false, index, "";
    }
    next := index + 1;
    value := args[next];
    ok := true;
  }

  /** TryReadIntOption: trace the next argument and parses it as an integer; the value is 0 on failure. */
  method TryReadIntOption(rt: Runtime, args: seq<string>, index: nat) returns (ok: bool, next: nat, value: int)
    ensures ok <==> index + 1 < |args| && rt.tryParseInt(args[index + 1]).Some?
    ensures ok ==> value == rt.tryParseInt(args[index + 1]).value
    ensures !ok ==> value == 0
    ensures next == if index + 1 < |args| then index + 1 else index
    ensures ParsesInt32(rt) ==> IsInt32(value)
  {
    var raw;
    ok, next, raw := TryReadValueOption(args, index);
    if !ok {
      return false, next, 0;
    }
    match rt.tryParseInt(raw)
    case None =>
      return false, next, 0;
    case Some(n) =>
      return true, next, n;
  }

  /**
   * The body of ParseArguments' loop for the argument at index i (the switch
   * over the lower-cased name): the updated options and the index of the
   * last argument consumed, or false when parsing must stop.
   */
  method ApplyOption(rt: Runtime, args: seq<string>, i: nat, options: ScraperOptions)
      returns (ok: bool, last: nat, updated: ScraperOptions)
    requires i < |args|
    ensures ok ==> ParseOption(rt, args, i, options) == Continue(updated, last + 1)
    ensures !ok ==> ParseOption(rt, args, i, options) == Stop
  {
    last, updated := i, options;
    ok := true;
    match Classify(Lower(args[i]))
    case Domain =>
      updated := options.(isDomainMode := true);
    case IncludeGifs =>
      updated := options.(includeAnimatedGifs := true);
    case Stealth =>
      updated := options.(stealthMode := true, randomizeDelays := true);
    case Delay =>
      var delay;
      ok, last, delay := TryReadIntOption(rt, args, i);
      if !ok || delay <= 0 {
        return false, last, options;
      }
      updated := options.(requestDelayMs := delay, stealthMode := true, randomizeDelays := false);
    case MaxPages =>
      var maxPages;
      ok, last, maxPages := TryReadIntOption(rt, args, i);
      if !ok || maxPages <= 0 {
        return false, last, options;
      }
      updated := options.(maxPages := maxPages);
    case Out =>
      var folder;
      ok, last, folder := TryReadValueOption(args, i);
      if !ok {
        return;
      }
      updated := options.(outputFolder := Some(Files.SanitizeFileName(rt, folder)));
    case ConvertTo =>
      var formatRaw;
      ok, last, formatRaw := TryReadValueOption(args, i);
      if !ok {
        return;
      }
      var format := NormalizeFormat(formatRaw);
      if format.None? {
        return false, last, options;
      }
      updated := options.(convertToFormat := format);
    case JpegQuality =>
      var quality;
      ok, last, quality := TryReadIntOption(rt, args, i);
      if !ok || quality < 1 || quality > 100 {
        return false, last, options;
      }
      updated := options.(jpegQuality := quality);
    case Verbose =>
      updated := options.(isVerbose := true);
    case Help =>
      ok := false;
    case Unknown =>
      ok := false;
  }

  /**
   * ParseArguments: walks the arguments after the URL with an index that
   * the value readers advance, updating the options one property at a time.
   */
  method ParseArguments(rt: Runtime, args: seq<string>) returns (r: Option<ScraperOptions>)
    ensures r == Parse(rt, args)
  {
    if |args| == 0 {
      return None;
    }
    if IsHelpOption(args[0]) {
      return None;
    }
    var url := args[0];
    if !IsHttpUrl(rt, url) {
      return None;
    }
    var options := Defaults().(url := Some(url));
    var i := 1;
    while i < |args|
      invariant 1 <= i <= |args|
      invariant ParseFrom(rt, args, i, options) == Parse(rt, args)
      decreases |args| - i
    {
      var ok, last, updated := ApplyOption(rt, args, i, options);
      if !ok {
        assert ParseFrom(rt, args, i, options) == None;
        return None;
      }
      assert ParseFrom(rt, args, i, options) == ParseFrom(rt, args, last + 1, updated);
      options, i := updated, last + 1;
    }
    return Some(options);
  }

  // ---------------------------------------------------------------------
  // Properties of the parser
  // ---------------------------------------------------------------------

  /** The defaults satisfy the options invariant. */
  lemma DefaultsWellFormed()
    ensures WellFormed(Defaults())
    ensures Defaults().url.None? && Defaults().outputFolder.None? && Defaults().convertToFormat.None?
  {
  }

  /** Help tokens are recognised in any letter case. */
  lemma HelpIgnoresCase(a: string, b: string)
    requires EqualsIgnoreCase(a, b)
    ensures IsHelpOption(a) == IsHelpOption(b)
  {
    LowerEqualIffIgnoreCase(a, b);
  }

  /** An option name is matched ignoring case: changing only its letter case changes nothing. */
  lemma OptionNameIgnoresCase(rt: Runtime, args: seq<string>, i: nat, o: ScraperOptions, name: string)
    requires i < |args| && EqualsIgnoreCase(name, args[i])
    ensures ParseOption(rt, args[i := name], i, o) == ParseOption(rt, args, i, o)
  {
    LowerEqualIffIgnoreCase(name, args[i]);
    var args' := args[i := name];
    assert Lower(args'[i]) == Lower(args[i]);
    assert args'[i + 1..] == args[i + 1..];
  }

  /** The output folder, when set, holds no invalid file-name character. */
  predicate FolderSanitized(rt: Runtime, o: ScraperOptions) {
    o.outputFolder.Some? ==> forall k :: 0 <= k < |o.outputFolder.value| ==> o.outputFolder.value[k] !in rt.invalidFileNameChars
  }

  /** Parsing from index i keeps the options invariant and a sanitised output folder. */
  lemma {:induction false} ParseFromKeeps(rt: Runtime, args: seq<string>, i: nat, o: ScraperOptions)
    requires ParsesInt32(rt) && FileNameCharsSound(rt) && WellFormed(o) && FolderSanitized(rt, o)
    ensures ParseFrom(rt, args, i, o).Some? ==>
              WellFormed(ParseFrom(rt, args, i, o).value) && FolderSanitized(rt, ParseFrom(rt, args, i, o).value)
    decreases |args| - i
  {
    if i < |args| {
      match ParseOption(rt, args, i, o)
      case Stop =>
      case Continue(o', j) =>
        ParseFromKeeps(rt, args, j, o');
    }
  }

  /**
   * A successful parse had at least one argument, a first argument that is
   * an http(s) URL and not a help token, and records that argument as the
   * URL; under the runtime assumptions the options are well formed and the
   * output folder holds no invalid file-name character.
   */
  lemma ParseSucceeds(rt: Runtime, args: seq<string>)
    requires Parse(rt, args).Some?
    ensures |args| >= 1 && !IsHelpOption(args[0]) && IsHttpUrl(rt, args[0])
    ensures Parse(rt, args).value.url == Some(args[0])
    ensures Sound(rt) ==> WellFormed(Parse(rt, args).value)
    ensures Sound(rt) ==> FolderSanitized(rt, Parse(rt, args).value)
  {
    var o := Defaults().(url := Some(args[0]));
    UrlKept(rt, args, 1, o);
    if Sound(rt) {
      ParseFromKeeps(rt, args, 1, o);
    }
  }

  /** Parsing never changes the URL. */
  lemma {:induction false} UrlKept(rt: Runtime, args: seq<string>, i: nat, o: ScraperOptions)
    ensures ParseFrom(rt, args, i, o).Some? ==> ParseFrom(rt, args, i, o).value.url == o.url
    decreases |args| - i
  {
    if i < |args| {
      match ParseOption(rt, args, i, o)
      case Stop =>
      case Continue(o', j) =>
        UrlKept(rt, args, j, o');
    }
  }

  /**
   * A lone URL yields the defaults with that URL: a single page, at most 100
   * pages when crawling, no GIFs, no stealth, a fixed 1000 ms delay, no
   * conversion, quality 90 and no output folder.
   */
  lemma UrlOnlyYieldsDefaults(rt: Runtime, url: string)
    requires IsHttpUrl(rt, url) && !IsHelpOption(url)
    ensures Parse(rt, [url]) == Some(Defaults().(url := Some(url)))
    ensures var o := Parse(rt, [url]).value;
            && o.url == Some(url) && !o.isDomainMode && o.outputFolder.None? && o.maxPages == 100
            && !o.isVerbose && !o.includeAnimatedGifs && !o.stealthMode && !o.randomizeDelays
            && o.requestDelayMs == 1000 && o.convertToFormat.None? && o.jpegQuality == 90
  {
  }

  /**
   * Every option read by a successful parse is one of the known flags or
   * options with a value; no help token and no unknown option appears after
   * the URL.
   */
  lemma {:induction false} ParsedOptionsKnown(rt: Runtime, args: seq<string>, i: nat, o: ScraperOptions)
    requires ParseFrom(rt, args, i, o).Some?
    ensures forall k :: 0 <= k < |OptionLabels(rt, args, i, o)| ==>
              OptionLabels(rt, args, i, o)[k].IsFlag() || OptionLabels(rt, args, i, o)[k].TakesValue()
    decreases |args| - i
  {
    if i < |args| {
      match ParseOption(rt, args, i, o)
      case Stop =>
      case Continue(o', j) =>
        ParsedOptionsKnown(rt, args, j, o');
        var rest := OptionLabels(rt, args, j, o');
        assert OptionLabels(rt, args, i, o) == [Classify(Lower(args[i]))] + rest;
    }
  }

  /** Whether delays are randomized after the given options, starting from d. */
  function RandomizedAfter(labels: seq<OptionName>, d: bool): bool {
    if labels == [] then d
    else RandomizedAfter(labels[1..], if labels[0].Stealth? then true else if labels[0].Delay? then false else d)
  }

  /** The two options that decide whether delays are randomized. */
  predicate IsPacing(k: OptionName) {
    k.Stealth? || k.Delay?
  }

  /** Options other than --stealth and --delay leave the randomization unchanged. */
  lemma {:induction false} RandomizedAfterNoPacing(labels: seq<OptionName>, d: bool)
    requires forall k :: 0 <= k < |labels| ==> !IsPacing(labels[k])
    ensures RandomizedAfter(labels, d) == d
  {
    if labels != [] {
      assert !IsPacing(labels[0]);
      RandomizedAfterNoPacing(labels[1..], d);
    }
  }

  /** The later of --stealth and --delay decides. */
  lemma {:induction false} RandomizedAfterLastWins(labels: seq<OptionName>, d: bool, k: nat)
    requires k < |labels| && IsPacing(labels[k])
    requires forall j :: k < j < |labels| ==> !IsPacing(labels[j])
    ensures RandomizedAfter(labels, d) == labels[k].Stealth?
  {
    var d' := if labels[0].Stealth? then true else if labels[0].Delay? then false else d;
    if k == 0 {
      RandomizedAfterNoPacing(labels[1..], d');
    } else {
      RandomizedAfterLastWins(labels[1..], d', k - 1);
    }
  }

  /** One option: --stealth turns randomization on, --delay off, and either turns stealth mode on. */
  lemma ParseOptionPacing(rt: Runtime, args: seq<string>, i: nat, o: ScraperOptions)
    requires i < |args| && ParseOption(rt, args, i, o).Continue?
    ensures var k := Classify(Lower(args[i]));
            var o' := ParseOption(rt, args, i, o).options;
            && o'.randomizeDelays == (if k.Stealth? then true else if k.Delay? then false else o.randomizeDelays)
            && o'.stealthMode == (o.stealthMode || IsPacing(k))
  {
    var k := Classify(Lower(args[i]));
    if k.IsFlag() {
      FlagPacing(k, o);
    } else {
      ValuePacing(rt, k, args[i + 1], o);
    }
  }

  /** Of the flags only --stealth touches pacing: it turns stealth mode and randomization on. */
  lemma FlagPacing(k: OptionName, o: ScraperOptions)
    requires k.IsFlag()
    ensures ApplyFlag(k, o).randomizeDelays == (k.Stealth? || o.randomizeDelays)
    ensures ApplyFlag(k, o).stealthMode == (o.stealthMode || k.Stealth?)
  {
  }

  /** Of the options with a value only an accepted --delay touches pacing: stealth mode on, randomization off. */
  lemma ValuePacing(rt: Runtime, k: OptionName, raw: string, o: ScraperOptions)
    requires k.TakesValue() && ApplyValue(rt, k, raw, o).Some?
    ensures ApplyValue(rt, k, raw, o).value.randomizeDelays == (!k.Delay? && o.randomizeDelays)
    ensures ApplyValue(rt, k, raw, o).value.stealthMode == (o.stealthMode || k.Delay?)
  {
  }

  /**
   * The pacing flags of a successful parse: stealth mode is on exactly when
   * it was already or a --stealth or --delay was read, and randomization
   * follows the last of those.
   */
  lemma {:induction false} ParsePacing(rt: Runtime, args: seq<string>, i: nat, o: ScraperOptions)
    requires ParseFrom(rt, args, i, o).Some?
    ensures var r := ParseFrom(rt, args, i, o).value;
            var labels := OptionLabels(rt, args, i, o);
            && r.randomizeDelays == RandomizedAfter(labels, o.randomizeDelays)
            && r.stealthMode == (o.stealthMode || Stealth in labels || Delay in labels)
    decreases |args| - i
  {
    if i < |args| {
      match ParseOption(rt, args, i, o)
      case Stop =>
      case Continue(o', j) =>
        ParseOptionPacing(rt, args, i, o);
        ParsePacing(rt, args, j, o');
        var labels := OptionLabels(rt, args, i, o);
        assert labels == [Classify(Lower(args[i]))] + OptionLabels(rt, args, j, o');
        assert labels[1..] == OptionLabels(rt, args, j, o');
    }
  }

  /** A read in front of others is the last read of k only when none of the others trace k. */
  lemma {:induction false} LastValueCons(read: OptionRead, rest: seq<OptionRead>, k: OptionName)
    ensures LastValue([read] + rest, k) ==
              if LastValue(rest, k).Some? then LastValue(rest, k)
              else if read.name == k then Some(read.value) else None
    decreases |rest|
  {
    var all := [read] + rest;
    if rest != [] {
      assert all[|all| - 1] == rest[|rest| - 1];
      assert all[..|all| - 1] == [read] + rest[..|rest| - 1];
      LastValueCons(read, rest[..|rest| - 1], k);
    } else {
      assert all[..|all| - 1] == [];
    }
  }

  /**
   * A successful parse accepted every option it read: each is a flag or an
   * option with a value that passes its check, so a missing, non-numeric,
   * non-positive or out-of-range value, or an unsupported format, makes the
   * whole parse fail.
   */
  lemma {:induction false} ParseAcceptsEveryValue(rt: Runtime, args: seq<string>, i: nat, o: ScraperOptions)
    requires ParseFrom(rt, args, i, o).Some?
    ensures forall n :: 0 <= n < |OptionReads(rt, args, i, o)| ==> Accepted(rt, OptionReads(rt, args, i, o)[n])
    decreases |args| - i
  {
    if i < |args| {
      match ParseOption(rt, args, i, o)
      case Stop =>
      case Continue(o', j) =>
        ParseAcceptsEveryValue(rt, args, j, o');
        var k := Classify(Lower(args[i]));
        var read := OptionRead(k, if k.TakesValue() && i + 1 < |args| then args[i + 1] else "");
        var rest := OptionReads(rt, args, j, o');
        var trace := OptionReads(rt, args, i, o);
        assert trace == [read] + rest;
        assert Accepted(rt, read);
        forall n | 1 <= n < |trace| ensures Accepted(rt, trace[n]) {
          assert trace[n] == rest[n - 1];
        }
    }
  }

  /** The parser accepted this option: a flag, or an option with a value that passes its check. */
  predicate Accepted(rt: Runtime, read: OptionRead) {
    read.name.IsFlag() || (read.name.TakesValue() && ValueAccepted(rt, read.name, read.value))
  }

  /**
   * What a parse that ends with options r stores, given the options read
   * and the options it started from: for each option with a value, the
   * value of its last read (an earlier one is overwritten), or the starting
   * value when it was never given; each flag is on when it was on or was
   * given.
   */
  predicate StoresLastValues(rt: Runtime, r: ScraperOptions, trace: seq<OptionRead>, o: ScraperOptions) {
    StoresLastNumbers(rt, r, trace, o) && StoresLastTexts(rt, r, trace, o) && StoresFlags(r, trace, o)
  }

  predicate StoresLastNumbers(rt: Runtime, r: ScraperOptions, trace: seq<OptionRead>, o: ScraperOptions) {
    && (LastValue(trace, MaxPages).Some? ==> rt.tryParseInt(LastValue(trace, MaxPages).value) == Some(r.maxPages))
    && (LastValue(trace, MaxPages).None? ==> r.maxPages == o.maxPages)
    && (LastValue(trace, JpegQuality).Some? ==> rt.tryParseInt(LastValue(trace, JpegQuality).value) == Some(r.jpegQuality))
    && (LastValue(trace, JpegQuality).None? ==> r.jpegQuality == o.jpegQuality)
    && (LastValue(trace, Delay).Some? ==> rt.tryParseInt(LastValue(trace, Delay).value) == Some(r.requestDelayMs))
    && (LastValue(trace, Delay).None? ==> r.requestDelayMs == o.requestDelayMs)
  }

  predicate StoresLastTexts(rt: Runtime, r: ScraperOptions, trace: seq<OptionRead>, o: ScraperOptions) {
    && (LastValue(trace, ConvertTo).Some? ==> r.convertToFormat == NormalizeFormat(LastValue(trace, ConvertTo).value))
    && (LastValue(trace, ConvertTo).None? ==> r.convertToFormat == o.convertToFormat)
    && (LastValue(trace, Out).Some? ==> r.outputFolder == Some(Files.SanitizeFileName(rt, LastValue(trace, Out).value)))
    && (LastValue(trace, Out).None? ==> r.outputFolder == o.outputFolder)
  }

  predicate StoresFlags(r: ScraperOptions, trace: seq<OptionRead>, o: ScraperOptions) {
    && r.isDomainMode == (o.isDomainMode || LastValue(trace, Domain).Some?)
    && r.includeAnimatedGifs == (o.includeAnimatedGifs || LastValue(trace, IncludeGifs).Some?)
    && r.isVerbose == (o.isVerbose || LastValue(trace, Verbose).Some?)
  }

  /** The effect of one accepted option on the options. */
  predicate Applied(rt: Runtime, read: OptionRead, o: ScraperOptions, o': ScraperOptions) {
    && (read.name.IsFlag() || read.name.TakesValue())
    && (read.name.IsFlag() ==> o' == ApplyFlag(read.name, o))
    && (read.name.TakesValue() ==> ApplyValue(rt, read.name, read.value, o) == Some(o'))
  }

  /** What one accepted option does to the numeric settings. */
  lemma AppliedNumbers(rt: Runtime, read: OptionRead, o: ScraperOptions, o': ScraperOptions)
    requires Applied(rt, read, o, o')
    ensures read.name.MaxPages? ==> rt.tryParseInt(read.value) == Some(o'.maxPages)
    ensures !read.name.MaxPages? ==> o'.maxPages == o.maxPages
    ensures read.name.JpegQuality? ==> rt.tryParseInt(read.value) == Some(o'.jpegQuality)
    ensures !read.name.JpegQuality? ==> o'.jpegQuality == o.jpegQuality
    ensures read.name.Delay? ==> rt.tryParseInt(read.value) == Some(o'.requestDelayMs)
    ensures !read.name.Delay? ==> o'.requestDelayMs == o.requestDelayMs
  {
    if read.name.TakesValue() {
      assert ApplyValue(rt, read.name, read.value, o).value == o';
    }
  }

  /** What one accepted option does to the format and the folder. */
  lemma AppliedTexts(rt: Runtime, read: OptionRead, o: ScraperOptions, o': ScraperOptions)
    requires Applied(rt, read, o, o')
    ensures read.name.ConvertTo? ==> o'.convertToFormat == NormalizeFormat(read.value)
    ensures !read.name.ConvertTo? ==> o'.convertToFormat == o.convertToFormat
    ensures read.name.Out? ==> o'.outputFolder == Some(Files.SanitizeFileName(rt, read.value))
    ensures !read.name.Out? ==> o'.outputFolder == o.outputFolder
  {
    if read.name.TakesValue() {
      assert ApplyValue(rt, read.name, read.value, o).value == o';
    }
  }

  /** What one accepted option does to the flags that only a flag sets. */
  lemma AppliedFlags(rt: Runtime, read: OptionRead, o: ScraperOptions, o': ScraperOptions)
    requires Applied(rt, read, o, o')
    ensures o'.isDomainMode == (o.isDomainMode || read.name.Domain?)
    ensures o'.includeAnimatedGifs == (o.includeAnimatedGifs || read.name.IncludeGifs?)
    ensures o'.isVerbose == (o.isVerbose || read.name.Verbose?)
  {
    if read.name.TakesValue() {
      assert ApplyValue(rt, read.name, read.value, o).value == o';
    }
  }

  lemma StoresLastNumbersStep(rt: Runtime, read: OptionRead, rest: seq<OptionRead>, o: ScraperOptions, o': ScraperOptions, r: ScraperOptions)
    requires Applied(rt, read, o, o') && StoresLastNumbers(rt, r, rest, o')
    ensures StoresLastNumbers(rt, r, [read] + rest, o)
  {
    AppliedNumbers(rt, read, o, o');
    LastValueCons(read, rest, MaxPages);
    LastValueCons(read, rest, JpegQuality);
    LastValueCons(read, rest, Delay);
  }

  lemma StoresLastTextsStep(rt: Runtime, read: OptionRead, rest: seq<OptionRead>, o: ScraperOptions, o': ScraperOptions, r: ScraperOptions)
    requires Applied(rt, read, o, o') && StoresLastTexts(rt, r, rest, o')
    ensures StoresLastTexts(rt, r, [read] + rest, o)
  {
    AppliedTexts(rt, read, o, o');
    LastValueCons(read, rest, ConvertTo);
    LastValueCons(read, rest, Out);
  }

  lemma StoresFlagsStep(rt: Runtime, read: OptionRead, rest: seq<OptionRead>, o: ScraperOptions, o': ScraperOptions, r: ScraperOptions)
    requires Applied(rt, read, o, o') && StoresFlags(r, rest, o')
    ensures StoresFlags(r, [read] + rest, o)
  {
    AppliedFlags(rt, read, o, o');
    LastValueCons(read, rest, Domain);
    LastValueCons(read, rest, IncludeGifs);
    LastValueCons(read, rest, Verbose);
  }

  /** The options a successful parse stores are those StoresLastValues describes. */
  lemma {:induction false} ParseStoresLastValues(rt: Runtime, args: seq<string>, i: nat, o: ScraperOptions)
    requires ParseFrom(rt, args, i, o).Some?
    ensures StoresLastValues(rt, ParseFrom(rt, args, i, o).value, OptionReads(rt, args, i, o), o)
    decreases |args| - i
  {
    if i >= |args| {
      assert OptionReads(rt, args, i, o) == [];
    } else {
      match ParseOption(rt, args, i, o)
      case Stop =>
      case Continue(o', j) =>
        ParseStoresLastValues(rt, args, j, o');
        var k := Classify(Lower(args[i]));
        var read := OptionRead(k, if k.TakesValue() && i + 1 < |args| then args[i + 1] else "");
        var rest := OptionReads(rt, args, j, o');
        assert OptionReads(rt, args, i, o) == [read] + rest;
        var r := ParseFrom(rt, args, i, o).value;
        assert Applied(rt, read, o, o');
        StoresLastNumbersStep(rt, read, rest, o, o', r);
        StoresLastTextsStep(rt, read, rest, o, o', r);
        StoresFlagsStep(rt, read, rest, o, o', r);
    }
  }
}

=== FILE: common.dfy ===
/**
 * Shared vocabulary of the model: an Option type for the source's nullable
 * values, 32-bit integer arithmetic as C# performs it, and the few string
 * operations of System.String the scraper relies on (ordinal comparison,
 * ASCII case folding, Split, Trim, Replace and decimal formatting).
 */
module Common {

  /** A C# reference or nullable value: None stands for null. */
  datatype Option<+T> = None | Some(value: T)

  // ---------------------------------------------------------------------
  // 32-bit integers
  // ---------------------------------------------------------------------

  const MinInt32: int := -0x8000_0000
  const MaxInt32: int := 0x7fff_ffff
  const TwoTo32: int := 0x1_0000_0000

  predicate IsInt32(x: int) {
    MinInt32 <= x <= MaxInt32
  }

  /** The value C# computes for x in an unchecked int context (two's complement wrap-around). */
  function Wrap32(x: int): (r: int)
    ensures IsInt32(r)
    ensures (r - x) % TwoTo32 == 0
    ensures IsInt32(x) ==> r == x
  {
    var m := (x - MinInt32) % TwoTo32;
    m + MinInt32
  }

  function Min(a: int, b: int): int {
    if a <= b then a else b
  }

  function Max(a: int, b: int): int {
    if a >= b then a else b
  }

  /** Math.Clamp(value, lo, hi); the library throws when lo > hi, hence the precondition. */
  function Clamp(value: int, lo: int, hi: int): (r: int)
    requires lo <= hi
    ensures lo <= r <= hi
    ensures lo <= value <= hi ==> r == value
  {
    if value < lo then lo else if value > hi then hi else value
  }

  // ---------------------------------------------------------------------
  // Ordinal prefix and suffix tests
  // ---------------------------------------------------------------------

  predicate StartsWith(s: string, prefix: string) {
    |prefix| <= |s| && s[..|prefix|] == prefix
  }

  predicate EndsWith(s: string, suffix: string) {
    |suffix| <= |s| && s[|s| - |suffix|..] == suffix
  }

  /** True when `pat` occurs somewhere in `s`. */
  predicate Contains(s: string, pat: string)
    decreases |s|
  {
    StartsWith(s, pat) || (|s| > 0 && Contains(s[1..], pat))
  }

  // ---------------------------------------------------------------------
  // Case folding (ASCII letters only)
  // ---------------------------------------------------------------------

  function LowerChar(c: char): char {
    if 'A' <= c <= 'Z' then (c as int + 32) as char else c
  }

  /** ToLowerInvariant / ToLower restricted to ASCII letters. */
  function Lower(s: string): (r: string)
    ensures |r| == |s|
    ensures forall i :: 0 <= i < |s| ==> r[i] == LowerChar(s[i])
  {
    seq(|s|, i requires 0 <= i < |s| => LowerChar(s[i]))
  }

  /** The empty sequence is a unit of concatenation. */
  lemma EmptyAppend<T>(a: seq<T>)
    ensures [] + a == a && a + [] == a
  {
  }

  /** Concatenation is associative. */
  lemma ConcatAssoc<T>(a: seq<T>, b: seq<T>, c: seq<T>)
    ensures (a + b) + c == a + (b + c)
  {
  }

  /** StringComparison.OrdinalIgnoreCase equality, as a reference definition independent of Lower. */
  predicate EqualsIgnoreCase(a: string, b: string) {
    |a| == |b| && forall i :: 0 <= i < |a| ==> LowerChar(a[i]) == LowerChar(b[i])
  }

  lemma LowerEqualIffIgnoreCase(a: string, b: string)
    ensures Lower(a) == Lower(b) <==> EqualsIgnoreCase(a, b)
  {
    if EqualsIgnoreCase(a, b) {
      assert forall i :: 0 <= i < |a| ==> Lower(a)[i] == Lower(b)[i];
    }
  }

  // ---------------------------------------------------------------------
  // Searching and splitting
  // ---------------------------------------------------------------------

  /** String.IndexOf(char) for a character that occurs. */
  function IndexOf(s: string, c: char): (i: nat)
    requires c in s
    ensures i < |s| && s[i] == c && c !in s[..i]
  {
    if s[0] == c then 0 else 1 + IndexOf(s[1..], c)
  }

  /** The pieces joined back with the separator: the inverse of Split. */
  function Join(parts: seq<string>, sep: char): string
    requires |parts| >= 1
  {
    if |parts| == 1 then parts[0] else parts[0] + [sep] + Join(parts[1..], sep)
  }

  /** String.Split(char): every piece between separators, empty pieces included. */
  function Split(s: string, sep: char): (parts: seq<string>)
    ensures |parts| >= 1
    ensures forall i :: 0 <= i < |parts| ==> sep !in parts[i]
    decreases |s|
  {
    if sep !in s then [s]
    else
      var i := IndexOf(s, sep);
      [s[..i]] + Split(s[i + 1..], sep)
  }

  /** Joining the pieces with the separator gives back the text. */
  lemma {:induction false} SplitJoin(s: string, sep: char)
    ensures Join(Split(s, sep), sep) == s
    decreases |s|
  {
    if sep in s {
      var i := IndexOf(s, sep);
      var parts := Split(s, sep);
      var rest := Split(s[i + 1..], sep);
      assert parts == [s[..i]] + rest;
      assert |parts| > 1 && parts[0] == s[..i] && parts[1..] == rest;
      SplitJoin(s[i + 1..], sep);
      AroundIndex(s, i);
    }
  }

  /** A text is what comes before an index, the element there, then what follows. */
  lemma AroundIndex<T>(s: seq<T>, i: nat)
    requires i < |s|
    ensures s == s[..i] + [s[i]] + s[i + 1..]
  {
  }

  /** Splitting peels off the text before the first separator. */
  lemma SplitFirst(a: string, sep: char, b: string)
    requires sep !in a
    ensures Split(a + [sep] + b, sep) == [a] + Split(b, sep)
  {
    var s := a + [sep] + b;
    var i := IndexOf(s, sep);
    assert s[|a|] == sep && s[..|a|] == a;
    forall j | 0 <= j < |a| ensures s[j] != sep {
      assert s[j] == a[j];
    }
    forall j | |a| < j <= |s| ensures sep in s[..j] {
      assert s[..j][|a|] == sep;
    }
    assert s[..i] == a && s[i + 1..] == b;
  }

  /** The text before the first occurrence of c (all of s when c does not occur): s.Split(c)[0]. */
  function Before(s: string, c: char): (r: string)
    ensures c !in r && StartsWith(s, r)
    ensures c in s ==> |r| < |s| && s[|r|] == c
    ensures c !in s ==> r == s
  {
    Split(s, c)[0]
  }

  // ---------------------------------------------------------------------
  // Trimming
  // ---------------------------------------------------------------------

  /** String.TrimStart with the characters selected by `drop`. */
  function TrimStartWhere(s: string, drop: char -> bool): (r: string)
    ensures |r| <= |s| && r == s[|s| - |r|..]
    ensures r == [] || !drop(r[0])
    ensures forall i :: 0 <= i < |s| - |r| ==> drop(s[i])
  {
    if s == [] || !drop(s[0]) then s else TrimStartWhere(s[1..], drop)
  }

  /** String.TrimEnd with the characters selected by `drop`. */
  function TrimEndWhere(s: string, drop: char -> bool): (r: string)
    ensures |r| <= |s| && r == s[..|r|]
    ensures r == [] || !drop(r[|r| - 1])
    ensures forall i :: |r| <= i < |s| ==> drop(s[i])
  {
    if s == [] || !drop(s[|s| - 1]) then s else TrimEndWhere(s[..|s| - 1], drop)
  }

  /** String.Trim with the white-space test of the runtime. */
  function Trim(s: string, isWhiteSpace: char -> bool): string {
    TrimEndWhere(TrimStartWhere(s, isWhiteSpace), isWhiteSpace)
  }

  // ---------------------------------------------------------------------
  // Replacing
  // ---------------------------------------------------------------------

  /** String.Replace(string, string): every non-overlapping occurrence, left to right. */
  function ReplaceAll(s: string, pat: string, rep: string): string
    requires |pat| > 0
    decreases |s|
  {
    if |s| < |pat| then s
    else if s[..|pat|] == pat then rep + ReplaceAll(s[|pat|..], pat, rep)
    else [s[0]] + ReplaceAll(s[1..], pat, rep)
  }

  /** Replacing a character by a character, position by position. */
  function ReplaceChar(s: string, old_: char, new_: char): (r: string)
    ensures |r| == |s|
    ensures forall i :: 0 <= i < |s| ==> r[i] == (if s[i] == old_ then new_ else s[i])
    ensures old_ != new_ ==> old_ !in r
  {
    var r := seq(|s|, i requires 0 <= i < |s| => if s[i] == old_ then new_ else s[i]);
    assert forall i :: 0 <= i < |r| ==> r[i] != old_ || old_ == new_;
    r
  }

  // ---------------------------------------------------------------------
  // Insertion-ordered sets
  // ---------------------------------------------------------------------

  predicate NoDuplicates(s: seq<string>) {
    forall i, j :: 0 <= i < j < |s| ==> s[i] != s[j]
  }

  /**
   * What adding the elements of s in order to a HashSet that already holds
   * `seen` actually adds: each element not yet present, at its first
   * occurrence. Defined from the last element, as a loop builds it.
   */
  function Dedup(s: seq<string>, seen: set<string>): (r: seq<string>)
    ensures NoDuplicates(r)
    ensures forall x :: x in r <==> x in s && x !in seen
  {
    if s == [] then []
    else
      var init := Dedup(s[..|s| - 1], seen);
      var last := s[|s| - 1];
      assert forall x :: x in s <==> x in s[..|s| - 1] || x == last;
      if last in seen || last in init then init else init + [last]
  }

  // ---------------------------------------------------------------------
  // Decimal formatting of counters
  // ---------------------------------------------------------------------

  function DigitChar(d: nat): char
    requires d < 10
  {
    "0123456789"[d]
  }

  /** The decimal text of a non-negative int, as string interpolation prints it. */
  function NatToString(n: nat): (s: string)
    ensures |s| >= 1 && '0' <= s[|s| - 1] <= '9'
    ensures n >= 10 ==> |s| >= 2
  {
    if n < 10 then [DigitChar(n)] else NatToString(n / 10) + [DigitChar(n % 10)]
  }

  /** Distinct counters print as distinct texts. */
  lemma {:induction false} NatToStringInjective(a: nat, b: nat)
    requires NatToString(a) == NatToString(b)
    ensures a == b
  {
    if a >= 10 && b >= 10 {
      var sa := NatToString(a);
      assert NatToString(a / 10) == sa[..|sa| - 1];
      assert NatToString(b / 10) == sa[..|sa| - 1];
      NatToStringInjective(a / 10, b / 10);
      assert DigitChar(a % 10) == sa[|sa| - 1] == DigitChar(b % 10);
    }
  }
}

=== FILE: conversion.dfy ===
/**
 * The decision ConvertAndSaveImageAsync (getpics/ImageScraper.cs) makes
 * about what to write: the re-encoded image when the bytes decode, the
 * format is known and encoding succeeds; otherwise the original bytes, to
 * the same path.
 */
module Conversion {
  import opened Common
  import opened Platform
  import opened Options

  /** The encoder the switch over the lower-cased target format selects; None for the default branch. */
  function EncoderFor(format: string, jpegQuality: int): (r: Option<Encoder>)
    ensures r.Some? <==> Lower(format) in {"jpg", "jpeg", "png", "gif"}
    ensures r.Some? && r.value.Jpeg? ==> r.value.quality == jpegQuality
    ensures Lower(format) in {"jpg", "jpeg"} ==> r == Some(Jpeg(jpegQuality))
    ensures Lower(format) == "png" ==> r == Some(Png)
    ensures Lower(format) == "gif" ==> r == Some(Gif)
  {
    var f := Lower(format);
    if f == "jpg" || f == "jpeg" then Some(Jpeg(jpegQuality))
    else if f == "png" then Some(Png)
    else if f == "gif" then Some(Gif)
    else None
  }

  /** The re-encoded bytes, or None when loading fails, the format is unknown or saving throws. */
  function Converted(web: Web, data: Bytes, format: string, jpegQuality: int): Option<Bytes> {
    if !web.decodes(data) then None
    else
      match EncoderFor(format, jpegQuality)
      case None => None
      case Some(encoder) => web.encode(data, encoder)
  }

  /** What ends up in the target file: the converted image, or the original bytes as a fallback. */
  function Saved(web: Web, data: Bytes, format: string, jpegQuality: int): (r: Bytes)
    ensures Converted(web, data, format, jpegQuality).None? ==> r == data
    ensures web.decodes(data) && Lower(format) in {"jpg", "jpeg", "png", "gif"} ==>
              var e := EncoderFor(format, jpegQuality).value;
              r == if web.encode(data, e).Some? then web.encode(data, e).value else data
  {
    match Converted(web, data, format, jpegQuality)
    case Some(out) => out
    case None => data
  }

  /** A conversion succeeds only for bytes that decode, a known format, and an encoder that does not throw. */
  lemma ConvertedOnlyWhen(web: Web, data: Bytes, format: string, jpegQuality: int)
    ensures Converted(web, data, format, jpegQuality).Some? <==>
              web.decodes(data) && Lower(format) in {"jpg", "jpeg", "png", "gif"} &&
              web.encode(data, EncoderFor(format, jpegQuality).value).Some?
  {
  }

  /** Every format the parser stores has an encoder, so the default branch is never taken after parsing. */
  lemma ParsedFormatsHaveEncoder(format: string, jpegQuality: int)
    requires format in ConvertFormats
    ensures EncoderFor(format, jpegQuality).Some?
  {
    assert Lower(format) == format;
  }
}

=== FILE: crawl.dfy ===
/**
 * The domain crawl of DownloadImagesForDomainAsync (getpics/ImageScraper.cs)
 * as a function of the site: a breadth-first walk over a FIFO queue with a
 * visited set and a page budget. A page is fetched once to extract its
 * images and, when that succeeds, once more to extract its links; only the
 * links not yet visited whose host is the start host are enqueued. A page
 * whose fetch fails still counts against the budget.
 */
module Crawl {
  import opened Common
  import opened Platform
  import opened UrlRules
  import opened Extraction
  import opened Fetching

  /**
   * Everything the crawl depends on: the runtime, the web, the configured
   * delay and page budget, the start URI, and whether animated GIFs count
   * as images.
   */
  datatype Site = Site(rt: Runtime, web: Web, requestDelayMs: int, maxPages: int, origin: Uri, includeGifs: bool)

  /** The images a page yields for download: none when its fetch failed or its text is empty. */
  function ImagesOf(rt: Runtime, web: Web, body: Option<string>, pageUrl: string, includeGifs: bool): (r: seq<string>)
    ensures NoDuplicates(r)
    ensures forall i :: 0 <= i < |r| ==> IsValidImageUrl(rt, r[i], includeGifs)
  {
    if body.None? || body.value == "" then [] else PageImages(rt, web, body.value, pageUrl, includeGifs)
  }

  /** The images of a page visited with the given counters: those of its first fetch. */
  function VisitImages(s: Site, pageUrl: string, c: Counters): seq<string> {
    ImagesOf(s.rt, s.web, FetchOutcome(s.web, s.requestDelayMs, pageUrl, c).body, pageUrl, s.includeGifs)
  }

  /** The normalised links of a page's text (the anchor loop of ExtractLinksFromPageAsync). */
  function LinksOf(rt: Runtime, web: Web, html: string, pageUrl: string): seq<string> {
    AnchorLinks(rt, WithTag(web.parse(html).elements, "a"), pageUrl)
  }

  /** ExtractLinksFromPageAsync: a fetch, then the page's links; no links when the fetch fails or the page is empty. */
  function PageLinks(rt: Runtime, web: Web, requestDelayMs: int, pageUrl: string, c: Counters): (Counters, seq<string>) {
    var f := FetchOutcome(web, requestDelayMs, pageUrl, c);
    if f.body.None? || f.body.value == "" then (f.counters, [])
    else (f.counters, LinksOf(rt, web, f.body.value, pageUrl))
  }

  /**
   * One page of the crawl: the fetch for the images, and when it succeeds
   * the second fetch for the links. A failed first fetch throws out of the
   * page's try block, so no links are read.
   */
  function VisitPage(s: Site, pageUrl: string, c: Counters): (Counters, seq<string>) {
    var f := FetchOutcome(s.web, s.requestDelayMs, pageUrl, c);
    if f.body.None? then (f.counters, [])
    else PageLinks(s.rt, s.web, s.requestDelayMs, pageUrl, f.counters)
  }

  /** The links that are enqueued, in order: those not visited whose host is the start host. */
  function Enqueued(s: Site, links: seq<string>, visited: set<string>): (r: seq<string>)
    ensures forall x :: x in r <==> x in links && x !in visited && IsSameDomain(s.rt, x, s.origin)
  {
    if links == [] then []
    else
      var init := Enqueued(s, links[..|links| - 1], visited);
      var last := links[|links| - 1];
      assert forall x :: x in links <==> x in links[..|links| - 1] || x == last;
      if last !in visited && IsSameDomain(s.rt, last, s.origin) then init + [last] else init
  }

  /** The remaining budget, the first component of the crawl's termination measure. */
  function Budget(s: Site, count: nat): nat {
    if s.maxPages > count then s.maxPages - count else 0
  }

  /**
   * The pages the crawl processes from the given queue, visited set, page
   * count and counters, in order. A dequeued page already visited is
   * skipped without counting.
   */
  function Frontier(s: Site, queue: seq<string>, visited: set<string>, count: nat, c: Counters): seq<string>
    decreases Budget(s, count), |queue|
  {
    if queue == [] || count >= s.maxPages then []
    else
      var page := queue[0];
      if page in visited then Frontier(s, queue[1..], visited, count, c)
      else
        var visited' := visited + {page};
        var (c', links) := VisitPage(s, page, c);
        [page] + Frontier(s, queue[1..] + Enqueued(s, links, visited'), visited', count + 1, c')
  }

  /** The whole crawl from the start URL, with the visited set emptied first. */
  function Crawled(s: Site, start: string, c: Counters): seq<string> {
    Frontier(s, [start], {}, 0, c)
  }

  /**
   * The images the pages of Frontier yield, page after page, in the order
   * each page lists them; a URL may appear on several pages.
   */
  function FrontierImages(s: Site, queue: seq<string>, visited: set<string>, count: nat, c: Counters): seq<string>
    decreases Budget(s, count), |queue|
  {
    if queue == [] || count >= s.maxPages then []
    else
      var page := queue[0];
      if page in visited then FrontierImages(s, queue[1..], visited, count, c)
      else
        var visited' := visited + {page};
        var (c', links) := VisitPage(s, page, c);
        VisitImages(s, page, c) + FrontierImages(s, queue[1..] + Enqueued(s, links, visited'), visited', count + 1, c')
  }

  /** The images of the whole crawl from the start URL. */
  function CrawledImages(s: Site, start: string, c: Counters): seq<string> {
    FrontierImages(s, [start], {}, 0, c)
  }

  /** One step of the crawl from a non-empty queue with budget left. */
  lemma FrontierUnfold(s: Site, queue: seq<string>, visited: set<string>, count: nat, c: Counters)
    requires queue != [] && count < s.maxPages
    ensures queue[0] in visited ==> Frontier(s, queue, visited, count, c) == Frontier(s, queue[1..], visited, count, c)
    ensures queue[0] !in visited ==>
              var (c', links) := VisitPage(s, queue[0], c);
              var visited' := visited + {queue[0]};
              Frontier(s, queue, visited, count, c) ==
                [queue[0]] + Frontier(s, queue[1..] + Enqueued(s, links, visited'), visited', count + 1, c')
    ensures queue[0] in visited ==> FrontierImages(s, queue, visited, count, c) == FrontierImages(s, queue[1..], visited, count, c)
    ensures queue[0] !in visited ==>
              var (c', links) := VisitPage(s, queue[0], c);
              var visited' := visited + {queue[0]};
              FrontierImages(s, queue, visited, count, c) ==
                VisitImages(s, queue[0], c) + FrontierImages(s, queue[1..] + Enqueued(s, links, visited'), visited', count + 1, c')
  {
  }

  /** An exhausted queue or budget ends the crawl: no further pages and no further images. */
  lemma FrontierDone(s: Site, queue: seq<string>, visited: set<string>, count: nat, c: Counters)
    requires queue == [] || count >= s.maxPages
    ensures Frontier(s, queue, visited, count, c) == [] && FrontierImages(s, queue, visited, count, c) == []
  {
  }

  // ---------------------------------------------------------------------
  // Properties
  // ---------------------------------------------------------------------

  /** No page is processed twice, and no page that was already visited is processed again. */
  lemma {:induction false} FrontierNoRepeats(s: Site, queue: seq<string>, visited: set<string>, count: nat, c: Counters)
    ensures var pages := Frontier(s, queue, visited, count, c);
            NoDuplicates(pages) && forall i :: 0 <= i < |pages| ==> pages[i] !in visited
    decreases Budget(s, count), |queue|
  {
    if queue != [] && count < s.maxPages {
      var page := queue[0];
      if page in visited {
        FrontierNoRepeats(s, queue[1..], visited, count, c);
      } else {
        var visited' := visited + {page};
        var (c', links) := VisitPage(s, page, c);
        var queue' := queue[1..] + Enqueued(s, links, visited');
        FrontierNoRepeats(s, queue', visited', count + 1, c');
        ConsFresh(page, Frontier(s, queue', visited', count + 1, c'), visited);
      }
    }
  }

  /** A page not yet visited, put before pages that avoid it and the visited set, keeps them distinct and unvisited. */
  lemma ConsFresh(page: string, rest: seq<string>, visited: set<string>)
    requires page !in visited
    requires NoDuplicates(rest) && forall i :: 0 <= i < |rest| ==> rest[i] !in visited + {page}
    ensures var pages := [page] + rest;
            NoDuplicates(pages) && forall i :: 0 <= i < |pages| ==> pages[i] !in visited
  {
    var pages := [page] + rest;
    forall i, j | 0 <= i < j < |pages| ensures pages[i] != pages[j] {
      assert pages[j] == rest[j - 1];
      if i > 0 {
        assert pages[i] == rest[i - 1];
      }
    }
    forall i | 0 <= i < |pages| ensures pages[i] !in visited {
      if i > 0 {
        assert pages[i] == rest[i - 1];
      }
    }
  }

  /** The crawl processes at most the remaining budget of pages. */
  lemma {:induction false} FrontierWithinBudget(s: Site, queue: seq<string>, visited: set<string>, count: nat, c: Counters)
    ensures |Frontier(s, queue, visited, count, c)| <= Budget(s, count)
    decreases Budget(s, count), |queue|
  {
    if queue != [] && count < s.maxPages {
      var page := queue[0];
      if page in visited {
        FrontierWithinBudget(s, queue[1..], visited, count, c);
      } else {
        var visited' := visited + {page};
        var (c', links) := VisitPage(s, page, c);
        FrontierWithinBudget(s, queue[1..] + Enqueued(s, links, visited'), visited', count + 1, c');
      }
    }
  }

  /** Every processed page was in the queue or is on the start host. */
  lemma {:induction false} FrontierStaysOnHost(s: Site, queue: seq<string>, visited: set<string>, count: nat, c: Counters)
    ensures forall p :: p in Frontier(s, queue, visited, count, c) ==> p in queue || IsSameDomain(s.rt, p, s.origin)
    decreases Budget(s, count), |queue|
  {
    if queue != [] && count < s.maxPages {
      var page := queue[0];
      if page in visited {
        FrontierStaysOnHost(s, queue[1..], visited, count, c);
      } else {
        var visited' := visited + {page};
        var (c', links) := VisitPage(s, page, c);
        var added := Enqueued(s, links, visited');
        FrontierStaysOnHost(s, queue[1..] + added, visited', count + 1, c');
        forall p | p in queue[1..] + added ensures p in queue || IsSameDomain(s.rt, p, s.origin) {
          if p in added {
          } else {
            assert p in queue[1..];
          }
        }
      }
    }
  }

  /**
   * The whole crawl: at most MaxPages pages, none twice, the start page
   * first when the budget allows one, and every other page on the start host.
   */
  lemma CrawlProperties(s: Site, start: string, c: Counters)
    ensures var pages := Crawled(s, start, c);
            && |pages| <= Budget(s, 0)
            && NoDuplicates(pages)
            && (s.maxPages > 0 ==> |pages| >= 1 && pages[0] == start)
            && forall p :: p in pages ==> p == start || IsSameDomain(s.rt, p, s.origin)
  {
    FrontierWithinBudget(s, [start], {}, 0, c);
    FrontierNoRepeats(s, [start], {}, 0, c);
    FrontierStaysOnHost(s, [start], {}, 0, c);
  }

  /** A page whose first fetch fails is still counted, and contributes no links to the queue. */
  lemma FailedPageCounts(s: Site, queue: seq<string>, visited: set<string>, count: nat, c: Counters)
    requires queue != [] && count < s.maxPages && queue[0] !in visited
    requires FetchOutcome(s.web, s.requestDelayMs, queue[0], c).body.None?
    ensures Frontier(s, queue, visited, count, c) ==
              [queue[0]] + Frontier(s, queue[1..], visited + {queue[0]}, count + 1,
                                    FetchOutcome(s.web, s.requestDelayMs, queue[0], c).counters)
  {
    assert Enqueued(s, [], visited + {queue[0]}) == [];
    assert queue[1..] + [] == queue[1..];
  }
}

=== FILE: extraction.dfy ===
/**
 * The candidate image URLs of a page (getpics/ImageScraper.cs,
 * ExtractAndDownloadImagesFromPageAsync and its seven heuristics), and the
 * links of a page (ExtractLinksFromPageAsync). The page is the element list
 * the HTML engine produces; the regular-expression heuristics are the match
 * lists the `Web` collaborator hands back. Every candidate goes through
 * ConvertToAbsoluteUrl; the union is an insertion-ordered set, and only the
 * candidates that pass IsValidImageUrl are downloaded.
 */
module Extraction {
  import opened Common
  import opened Platform
  import opened UrlRules
  import opened SrcSet

  /** `QuerySelectorAll(tag)` over elements in document order. */
  function WithTag(els: seq<Element>, tag: string): (r: seq<Element>)
    ensures forall e :: e in r ==> e in els && e.tag == tag
    ensures forall e :: e in els && e.tag == tag ==> e in r
  {
    if els == [] then []
    else
      var init := WithTag(els[..|els| - 1], tag);
      var last := els[|els| - 1];
      assert forall e :: e in els <==> e in els[..|els| - 1] || e == last;
      if last.tag == tag then init + [last] else init
  }

  /** `QuerySelector(tag)`: the first such element, if any. */
  function FirstWithTag(els: seq<Element>, tag: string): (r: Option<Element>)
    ensures r.Some? ==> r.value in els && r.value.tag == tag
    ensures r.None? ==> forall e :: e in els ==> e.tag != tag
  {
    if els == [] then None
    else if els[0].tag == tag then Some(els[0])
    else FirstWithTag(els[1..], tag)
  }

  /** The lists one heuristic adds, one after the other. */
  function Flatten(parts: seq<seq<string>>): (r: seq<string>)
    ensures forall x :: x in r <==> exists i :: 0 <= i < |parts| && x in parts[i]
  {
    if parts == [] then []
    else
      var init := parts[..|parts| - 1];
      assert forall i :: 0 <= i < |init| ==> init[i] == parts[i];
      Flatten(init) + parts[|parts| - 1]
  }

  /** Every reference of a list resolved against the page, in order. */
  function ResolveAll(rt: Runtime, refs: seq<string>, pageUrl: string): (r: seq<string>)
    ensures |r| == |refs|
    ensures forall i :: 0 <= i < |refs| ==> r[i] == ConvertToAbsoluteUrl(rt, refs[i], pageUrl)
  {
    seq(|refs|, i requires 0 <= i < |refs| => ConvertToAbsoluteUrl(rt, refs[i], pageUrl))
  }

  /** The references of a list kept by IsLikelyImageUrl, resolved. */
  function ResolveLikely(rt: Runtime, refs: seq<string>, pageUrl: string, includeGifs: bool): (r: seq<string>)
    ensures forall x :: x in r ==> exists i :: 0 <= i < |refs| && IsLikelyImageUrl(refs[i], includeGifs) &&
                                             x == ConvertToAbsoluteUrl(rt, refs[i], pageUrl)
    ensures forall i :: 0 <= i < |refs| && IsLikelyImageUrl(refs[i], includeGifs) ==>
                          ConvertToAbsoluteUrl(rt, refs[i], pageUrl) in r
  {
    if refs == [] then []
    else
      var init := ResolveLikely(rt, refs[..|refs| - 1], pageUrl, includeGifs);
      var last := refs[|refs| - 1];
      assert forall i :: 0 <= i < |refs| - 1 ==> refs[..|refs| - 1][i] == refs[i];
      if IsLikelyImageUrl(last, includeGifs) then init + [ConvertToAbsoluteUrl(rt, last, pageUrl)] else init
  }

  /** The resolved URL parts of a non-empty srcset attribute. */
  function SrcSetCandidates(rt: Runtime, srcSet: string, pageUrl: string): seq<string> {
    if srcSet != "" then ResolveAll(rt, EntryUrls(rt, Split(srcSet, ',')), pageUrl) else []
  }

  /**
   * A src attribute is used when it is present, not empty and not a data:
   * URI. The prefix is compared character by character; the source's
   * culture-sensitive StartsWith also skips ignorable code points before it.
   */
  function SrcCandidate(rt: Runtime, src: string, pageUrl: string): seq<string> {
    if src != "" && !StartsWith(src, "data:") then [ConvertToAbsoluteUrl(rt, src, pageUrl)] else []
  }

  // ---------------------------------------------------------------------
  // The seven heuristics
  // ---------------------------------------------------------------------

  /** 1. Every img: its srcset URLs, its src, and its alt text when that looks like an image URL. */
  function ImageTagCandidates(rt: Runtime, img: Element, pageUrl: string, includeGifs: bool): seq<string> {
    var alt := Attr(img, "alt");
    SrcSetCandidates(rt, Attr(img, "srcset"), pageUrl)
    + SrcCandidate(rt, Attr(img, "src"), pageUrl)
    + (if alt != "" && IsLikelyImageUrl(alt, includeGifs) then [ConvertToAbsoluteUrl(rt, alt, pageUrl)] else [])
  }

  /** 2. Every picture: the srcset URLs of its source elements, then the src of its first img. */
  function PictureCandidates(rt: Runtime, picture: Element, pageUrl: string): seq<string> {
    var sources := WithTag(picture.inner, "source");
    Flatten(seq(|sources|, i requires 0 <= i < |sources| => SrcSetCandidates(rt, Attr(sources[i], "srcset"), pageUrl)))
    + match FirstWithTag(picture.inner, "img")
      case Some(img) => SrcCandidate(rt, Attr(img, "src"), pageUrl)
      case None => []
  }

  /** 3. Every element with a non-empty style attribute: the url(...) captures of that style, unfiltered. */
  function BackgroundCandidates(rt: Runtime, web: Web, e: Element, pageUrl: string): seq<string> {
    var style := Attr(e, "style");
    if style != "" then ResolveAll(rt, web.cssUrls(style), pageUrl) else []
  }

  /** The attributes the data-attribute selector matches on. */
  const DataSelectorAttributes: seq<string> := ["data-src", "data-image", "data-background", "data-thumbnail", "data-thumb"]

  /** The attributes read from a matched element: the five above and data-lazy-src. */
  const DataReadAttributes: seq<string> := DataSelectorAttributes + ["data-lazy-src"]

  predicate MatchesDataSelector(e: Element) {
    exists i :: 0 <= i < |DataSelectorAttributes| && DataSelectorAttributes[i] in e.attrs
  }

  /** 4. Every element carrying one of the five selector attributes: each read attribute that looks like an image URL. */
  function DataAttributeCandidates(rt: Runtime, e: Element, pageUrl: string, includeGifs: bool): seq<string> {
    if MatchesDataSelector(e) then
      ResolveLikely(rt, seq(|DataReadAttributes|, i requires 0 <= i < |DataReadAttributes| => Attr(e, DataReadAttributes[i])),
                    pageUrl, includeGifs)
    else []
  }

  /** 5. Every video's non-empty poster, then every audio's non-empty cover, unfiltered. */
  function MediaCandidates(rt: Runtime, els: seq<Element>, pageUrl: string): seq<string> {
    var videos := WithTag(els, "video");
    var audios := WithTag(els, "audio");
    Flatten(seq(|videos|, i requires 0 <= i < |videos| => NonEmptyResolved(rt, Attr(videos[i], "poster"), pageUrl)))
    + Flatten(seq(|audios|, i requires 0 <= i < |audios| => NonEmptyResolved(rt, Attr(audios[i], "cover"), pageUrl)))
  }

  function NonEmptyResolved(rt: Runtime, reference: string, pageUrl: string): seq<string> {
    if reference != "" then [ConvertToAbsoluteUrl(rt, reference, pageUrl)] else []
  }

  /** 6. The background-image captures of the raw page text, trimmed, kept when they look like image URLs. */
  function InlineStyleCandidates(rt: Runtime, web: Web, html: string, pageUrl: string, includeGifs: bool): seq<string> {
    var matches := web.styleMatches(html);
    ResolveLikely(rt, seq(|matches|, i requires 0 <= i < |matches| => Trim(matches[i], rt.isWhiteSpace)), pageUrl, includeGifs)
  }

  /** Characters the bare-URL pass trims from the end of a capture. */
  predicate IsTrailingPunctuation(c: char) {
    c == '"' || c == '\'' || c == ',' || c == ';' || c == ':'
  }

  /**
   * 7. The JSON key/value captures, trimmed and resolved unfiltered, then the
   * bare absolute or protocol-relative captures, trimmed, stripped of
   * trailing punctuation and kept when they look like image URLs.
   */
  function TextContentCandidates(rt: Runtime, web: Web, html: string, pageUrl: string, includeGifs: bool): seq<string> {
    var json := web.jsonMatches(html);
    var bare := web.bareUrlMatches(html);
    ResolveAll(rt, seq(|json|, i requires 0 <= i < |json| => Trim(json[i], rt.isWhiteSpace)), pageUrl)
    + ResolveLikely(rt, seq(|bare|, i requires 0 <= i < |bare| => TrimEndWhere(Trim(bare[i], rt.isWhiteSpace), IsTrailingPunctuation)),
                    pageUrl, includeGifs)
  }

  function PerElement(els: seq<Element>, f: Element -> seq<string>): seq<string> {
    Flatten(seq(|els|, i requires 0 <= i < |els| => f(els[i])))
  }

  /** Everything the seven heuristics add to the page's set, in the order they add it. */
  function Candidates(rt: Runtime, web: Web, html: string, pageUrl: string, includeGifs: bool): seq<string> {
    var els := web.parse(html).elements;
    PerElement(WithTag(els, "img"), img => ImageTagCandidates(rt, img, pageUrl, includeGifs))
    + PerElement(WithTag(els, "picture"), p => PictureCandidates(rt, p, pageUrl))
    + PerElement(els, e => BackgroundCandidates(rt, web, e, pageUrl))
    + PerElement(els, e => DataAttributeCandidates(rt, e, pageUrl, includeGifs))
    + MediaCandidates(rt, els, pageUrl)
    + InlineStyleCandidates(rt, web, html, pageUrl, includeGifs)
    + TextContentCandidates(rt, web, html, pageUrl, includeGifs)
  }

  /** The elements of a list that pass IsValidImageUrl, in order. */
  function ValidOnly(rt: Runtime, urls: seq<string>, includeGifs: bool): (r: seq<string>)
    ensures forall x :: x in r <==> x in urls && IsValidImageUrl(rt, x, includeGifs)
    ensures NoDuplicates(urls) ==> NoDuplicates(r)
  {
    if urls == [] then []
    else
      var init := ValidOnly(rt, urls[..|urls| - 1], includeGifs);
      var last := urls[|urls| - 1];
      assert forall x :: x in urls <==> x in urls[..|urls| - 1] || x == last;
      assert NoDuplicates(urls) ==> NoDuplicates(urls[..|urls| - 1]) && last !in urls[..|urls| - 1];
      if IsValidImageUrl(rt, last, includeGifs) then init + [last] else init
  }

  /**
   * The images of a page that are downloaded: the distinct candidates that
   * pass the validity filter. Every one of them is a valid image URL, none
   * appears twice, and a candidate is left out only when it is not valid.
   */
  function PageImages(rt: Runtime, web: Web, html: string, pageUrl: string, includeGifs: bool): (r: seq<string>)
    ensures forall x :: x in r ==> IsValidImageUrl(rt, x, includeGifs)
    ensures NoDuplicates(r)
    ensures forall x :: x in r <==> x in Candidates(rt, web, html, pageUrl, includeGifs) && IsValidImageUrl(rt, x, includeGifs)
  {
    ValidOnly(rt, Dedup(Candidates(rt, web, html, pageUrl, includeGifs), {}), includeGifs)
  }

  // ---------------------------------------------------------------------
  // Links
  // ---------------------------------------------------------------------

  /** The normalised targets of the page's anchors, in document order, duplicates kept. */
  function AnchorLinks(rt: Runtime, anchors: seq<Element>, pageUrl: string): (r: seq<string>)
    ensures |r| <= |anchors|
    ensures forall i :: 0 <= i < |r| ==> StartsWith(r[i], "http://") || StartsWith(r[i], "https://")
    ensures forall x :: x in r <==> exists i :: 0 <= i < |anchors| && LinkTarget(rt, Attr(anchors[i], "href"), pageUrl) == Some(x)
  {
    if anchors == [] then []
    else
      var init := AnchorLinks(rt, anchors[..|anchors| - 1], pageUrl);
      assert forall i :: 0 <= i < |anchors| - 1 ==> anchors[..|anchors| - 1][i] == anchors[i];
      match LinkTarget(rt, Attr(anchors[|anchors| - 1], "href"), pageUrl)
      case Some(link) => init + [link]
      case None => init
  }

  /**
   * Links keep document order: the links of two runs of anchors are the
   * links of the first followed by those of the second, and one anchor
   * contributes its target when it has one.
   */
  lemma {:induction false} AnchorLinksAppend(rt: Runtime, a: seq<Element>, b: seq<Element>, pageUrl: string)
    ensures AnchorLinks(rt, a + b, pageUrl) == AnchorLinks(rt, a, pageUrl) + AnchorLinks(rt, b, pageUrl)
    decreases |b|
  {
    if b == [] {
      assert a + b == a;
    } else {
      var b' := b[..|b| - 1];
      InitOfConcat(a, b);
      AnchorLinksLast(rt, a + b, pageUrl);
      AnchorLinksLast(rt, b, pageUrl);
      AnchorLinksAppend(rt, a, b', pageUrl);
      ConcatAssoc(AnchorLinks(rt, a, pageUrl), AnchorLinks(rt, b', pageUrl), AnchorLink(rt, b[|b| - 1], pageUrl));
    }
  }

  /** One more anchor of a run extends its links by that anchor's target, if any. */
  lemma AnchorLinksPrefix(rt: Runtime, anchors: seq<Element>, k: nat, pageUrl: string)
    requires k < |anchors|
    ensures AnchorLinks(rt, anchors[..k + 1], pageUrl) ==
              AnchorLinks(rt, anchors[..k], pageUrl) +
              match LinkTarget(rt, Attr(anchors[k], "href"), pageUrl) case Some(link) => [link] case None => []
  {
    assert anchors[..k + 1][..k] == anchors[..k];
  }

  /** The links one anchor contributes: its target when it has one. */
  function AnchorLink(rt: Runtime, e: Element, pageUrl: string): seq<string> {
    match LinkTarget(rt, Attr(e, "href"), pageUrl) case Some(link) => [link] case None => []
  }

  /** The links of a non-empty run are those of all but its last anchor, then the last anchor's. */
  lemma AnchorLinksLast(rt: Runtime, anchors: seq<Element>, pageUrl: string)
    requires anchors != []
    ensures AnchorLinks(rt, anchors, pageUrl) == AnchorLinks(rt, anchors[..|anchors| - 1], pageUrl) + AnchorLink(rt, anchors[|anchors| - 1], pageUrl)
  {
  }

  /** All but the last element of a + b, for a non-empty b. */
  lemma InitOfConcat(a: seq<Element>, b: seq<Element>)
    requires b != []
    ensures (a + b)[..|a + b| - 1] == a + b[..|b| - 1] && (a + b)[|a + b| - 1] == b[|b| - 1]
  {
  }

  lemma AnchorLinksSingle(rt: Runtime, e: Element, pageUrl: string)
    ensures AnchorLinks(rt, [e], pageUrl) ==
              match LinkTarget(rt, Attr(e, "href"), pageUrl) case Some(link) => [link] case None => []
  {
    assert [e][..0] == [];
  }

  // ---------------------------------------------------------------------
  // Properties of the candidate union
  // ---------------------------------------------------------------------

  /**
   * A video poster is added without any filter, so it is downloaded exactly
   * when its resolved URL passes the final validity filter.
   */
  lemma PosterKeptIffValid(rt: Runtime, web: Web, html: string, pageUrl: string, includeGifs: bool, video: Element)
    requires video in web.parse(html).elements && video.tag == "video"
    requires Attr(video, "poster") != ""
    ensures var u := ConvertToAbsoluteUrl(rt, Attr(video, "poster"), pageUrl);
            u in PageImages(rt, web, html, pageUrl, includeGifs) <==> IsValidImageUrl(rt, u, includeGifs)
  {
    var els := web.parse(html).elements;
    var videos := WithTag(els, "video");
    var u := ConvertToAbsoluteUrl(rt, Attr(video, "poster"), pageUrl);
    assert video in videos;
    var i :| 0 <= i < |videos| && videos[i] == video;
    var parts := seq(|videos|, k requires 0 <= k < |videos| => NonEmptyResolved(rt, Attr(videos[k], "poster"), pageUrl));
    assert u in parts[i];
    assert u in MediaCandidates(rt, els, pageUrl);
  }

  /**
   * A JSON key/value capture is likewise added without the look-alike test,
   * so it is downloaded exactly when its resolved URL is a valid image URL.
   */
  lemma JsonMatchKeptIffValid(rt: Runtime, web: Web, html: string, pageUrl: string, includeGifs: bool, m: string)
    requires m in web.jsonMatches(html)
    ensures var u := ConvertToAbsoluteUrl(rt, Trim(m, rt.isWhiteSpace), pageUrl);
            u in PageImages(rt, web, html, pageUrl, includeGifs) <==> IsValidImageUrl(rt, u, includeGifs)
  {
    var json := web.jsonMatches(html);
    var u := ConvertToAbsoluteUrl(rt, Trim(m, rt.isWhiteSpace), pageUrl);
    var i :| 0 <= i < |json| && json[i] == m;
    var trimmed := seq(|json|, k requires 0 <= k < |json| => Trim(json[k], rt.isWhiteSpace));
    assert ResolveAll(rt, trimmed, pageUrl)[i] == u;
    assert u in TextContentCandidates(rt, web, html, pageUrl, includeGifs);
  }

  /**
   * data-lazy-src is read only from elements the selector matched: an
   * element carrying none of the five selector attributes contributes
   * nothing, while on a matched element a lazy source that looks like an
   * image URL is added.
   */
  lemma LazySrcNeedsSelectorAttribute(rt: Runtime, e: Element, pageUrl: string, includeGifs: bool)
    ensures !MatchesDataSelector(e) ==> DataAttributeCandidates(rt, e, pageUrl, includeGifs) == []
    ensures var lazy := Attr(e, "data-lazy-src");
            MatchesDataSelector(e) && IsLikelyImageUrl(lazy, includeGifs) ==>
              ConvertToAbsoluteUrl(rt, lazy, pageUrl) in DataAttributeCandidates(rt, e, pageUrl, includeGifs)
  {
    var values := seq(|DataReadAttributes|, i requires 0 <= i < |DataReadAttributes| => Attr(e, DataReadAttributes[i]));
    assert values[5] == Attr(e, "data-lazy-src");
  }
}

=== FILE: fetching.dfy ===
/**
 * What one call of FetchHtmlAsync (getpics/ImageScraper.cs) does to the
 * scraper's rate-limit counters, as a function of the server's answers: a
 * 429 answer (RFC 6585, section 4) raises the error count, waits
 * RequestDelayMs times the backoff multiplier and retries exactly once; a
 * success resets both counters; a failed status or a request error that
 * names 429 raises the count again.
 */
module Fetching {
  import opened Common
  import opened Platform
  import opened Pacing

  /** `_consecutiveErrors` and `_currentBackoffMultiplier`. */
  datatype Counters = Counters(errors: nat, multiplier: int)

  /** The counters of a new scraper, and after every successful fetch. */
  const Rested: Counters := Counters(0, 1)

  /** The multiplier is the one that goes with the error count. */
  predicate Consistent(c: Counters) {
    c.multiplier == MultiplierFor(c.errors)
  }

  /** One rate-limit signal: `_consecutiveErrors++` and the multiplier recomputed from it. */
  function Signal(c: Counters): (r: Counters)
    ensures r.errors == c.errors + 1 && r.multiplier in {2, 4, 6, 8}
    ensures Consistent(r)
  {
    var errors := c.errors + 1;
    Counters(errors, BackoffMultiplier(errors))
  }

  /** EnsureSuccessStatusCode succeeds on 2xx. */
  predicate IsSuccessStatus(status: int) {
    200 <= status <= 299
  }

  /** The status code that asks the client to slow down. */
  const TooManyRequests: int := 429

  /** The answer is a 429 response. */
  predicate IsRateLimited(r: Response) {
    r.Reply? && r.status == TooManyRequests
  }

  /** The reason phrase holds "429" or "Too Many Requests" (an ordinal search). */
  predicate ReasonNames429(reason: string) {
    Contains(reason, "429") || Contains(reason, "Too Many Requests")
  }

  /**
   * The answer signals rate limiting to the catch block. A failed status
   * raises an HttpRequestException whose message carries the status code
   * and the reason phrase, so it names 429 when the code is 429 (a status
   * has three digits) or the reason phrase holds "429" or "Too Many
   * Requests"; a request error names it when its message does.
   */
  predicate SignalsRateLimit(r: Response) {
    || (r.Reply? && !IsSuccessStatus(r.status) && (r.status == TooManyRequests || ReasonNames429(r.reason)))
    || (r.RequestError? && r.mentions429)
  }

  /** The outcome of one fetch: the page text or a failure, the counters after it, and the waits it made. */
  datatype Fetched = Fetched(body: Option<string>, counters: Counters, waits: seq<int>)

  /** The final answer's effect: its text and a reset on success, a signal or nothing on failure. */
  function Settle(r: Response, c: Counters): (f: Fetched)
    ensures f.waits == []
    ensures f.body.Some? <==> r.Reply? && IsSuccessStatus(r.status)
    ensures f.body.Some? ==> f.body.value == r.body && f.counters == Rested
    ensures f.body.None? ==> f.counters == if SignalsRateLimit(r) then Signal(c) else c
  {
    match r
    case Reply(status, reason, body) =>
      if IsSuccessStatus(status) then Fetched(Some(body), Rested, [])
      else if status == TooManyRequests || ReasonNames429(reason) then Fetched(None, Signal(c), [])
      else Fetched(None, c, [])
    case RequestError(mentions429) =>
      Fetched(None, if mentions429 then Signal(c) else c, [])
    case TimedOut => Fetched(None, c, [])
  }

  /**
   * FetchHtmlAsync(url) with the counters c. A first answer of 429 signals,
   * waits `RequestDelayMs * multiplier` in 32-bit arithmetic and asks once
   * more; Task.Delay rejects a negative wait by throwing, which ends the
   * fetch before the retry. The final answer is then settled, so a 429 on
   * the retry signals a second time.
   */
  function FetchOutcome(web: Web, requestDelayMs: int, url: string, c: Counters): Fetched {
    var first := web.respond(url, 0);
    if IsRateLimited(first) then
      var c' := Signal(c);
      var wait := BackoffWait(requestDelayMs, c'.multiplier);
      if wait < 0 then Fetched(None, c', [])
      else
        var f := Settle(web.respond(url, 1), c');
        Fetched(f.body, f.counters, [wait])
    else Settle(first, c)
  }

  // ---------------------------------------------------------------------
  // Properties
  // ---------------------------------------------------------------------

  /** Every fetch keeps the multiplier in step with the error count. */
  lemma FetchKeepsConsistent(web: Web, requestDelayMs: int, url: string, c: Counters)
    requires Consistent(c)
    ensures Consistent(FetchOutcome(web, requestDelayMs, url, c).counters)
  {
  }

  /** A fetch succeeds exactly when the first answer, or the retry after a 429, is a 2xx reply; success resets the counters. */
  lemma FetchSucceeds(web: Web, requestDelayMs: int, url: string, c: Counters)
    ensures var f := FetchOutcome(web, requestDelayMs, url, c);
            var first := web.respond(url, 0);
            var retry := web.respond(url, 1);
            && (f.body.Some? <==>
                  (first.Reply? && IsSuccessStatus(first.status)) ||
                  (IsRateLimited(first) && BackoffWait(requestDelayMs, Signal(c).multiplier) >= 0 &&
                   retry.Reply? && IsSuccessStatus(retry.status)))
            && (f.body.Some? ==> f.counters == Rested)
  {
  }

  /**
   * At most one wait, and so at most one retry: the fetch waits exactly when
   * the first answer is a 429 and the wait is not negative, and then for
   * RequestDelayMs times a multiplier of 2, 4, 6 or 8.
   */
  lemma FetchWaitsOnlyAfter429(web: Web, requestDelayMs: int, url: string, c: Counters)
    requires 0 < requestDelayMs <= MaxInt32 / MaxBackoffMultiplier
    ensures var f := FetchOutcome(web, requestDelayMs, url, c);
            && |f.waits| <= 1
            && (|f.waits| == 1 <==> IsRateLimited(web.respond(url, 0)))
            && (|f.waits| == 1 ==>
                  f.waits[0] == requestDelayMs * Signal(c).multiplier &&
                  2 * requestDelayMs <= f.waits[0] <= 8 * requestDelayMs)
  {
    if IsRateLimited(web.respond(url, 0)) {
      BackoffWaitExact(requestDelayMs, c.errors + 1);
    }
  }

  /**
   * A failed fetch raises the error count by at most two, and by two
   * exactly when the first answer is a 429 and the retry signals rate
   * limiting as well (the 429 is counted once before the retry and once
   * more in the catch block).
   */
  lemma FetchFailureCounts(web: Web, requestDelayMs: int, url: string, c: Counters)
    requires FetchOutcome(web, requestDelayMs, url, c).body.None?
    ensures var e := FetchOutcome(web, requestDelayMs, url, c).counters.errors;
            && c.errors <= e <= c.errors + 2
            && (e == c.errors + 2 <==>
                  IsRateLimited(web.respond(url, 0)) &&
                  BackoffWait(requestDelayMs, Signal(c).multiplier) >= 0 &&
                  SignalsRateLimit(web.respond(url, 1)))
  {
  }

  /**
   * A failed reply other than 429 still counts as a rate-limit signal when
   * its reason phrase names "Too Many Requests": the counters rise although
   * no backoff wait was made.
   */
  lemma ReasonPhraseSignals(web: Web, requestDelayMs: int, url: string, c: Counters)
    requires web.respond(url, 0) == Reply(503, "Too Many Requests", "")
    ensures FetchOutcome(web, requestDelayMs, url, c) == Fetched(None, Signal(c), [])
  {
    assert StartsWith("Too Many Requests", "Too Many Requests");
  }

  /** A timeout is not a rate-limit signal: without a 429 first the counters stay as they were. */
  lemma TimeoutLeavesCounters(web: Web, requestDelayMs: int, url: string, c: Counters)
    requires web.respond(url, 0).TimedOut?
    ensures FetchOutcome(web, requestDelayMs, url, c) == Fetched(None, c, [])
  {
  }

  /** The backoff wait is never -1, the value Task.Delay would take as "wait forever", since the product is even. */
  lemma BackoffWaitNeverInfinite(requestDelayMs: int, c: Counters)
    ensures BackoffWait(requestDelayMs, Signal(c).multiplier) != -1
  {
    var m := Signal(c).multiplier;
    var h := requestDelayMs * (m / 2);
    var x := requestDelayMs * m;
    assert x == 2 * h by {
      assert m == 2 * (m / 2);
    }
    var a := x - MinInt32;
    var q := a / TwoTo32;
    assert a == TwoTo32 * q + a % TwoTo32;
    assert BackoffWait(requestDelayMs, m) == Wrap32(x) == a % TwoTo32 + MinInt32;
    assert Wrap32(x) == 2 * (h - 2147483648 * q);
  }
}

=== FILE: files.dfy ===
/**
 * File naming for downloads (getpics/ImageScraper.cs, ExtractFileNameFromUrl,
 * the conversion rename in DownloadImageAsync, GetUniqueFilePath and the
 * fallback of DetermineOutputFolder; getpics/Program.cs, SanitizeFileName).
 * System.IO.Path is modelled with its Unix behaviour: '/' is the only
 * directory separator.
 */
module Files {
  import opened Common
  import opened Platform

  // ---------------------------------------------------------------------
  // System.IO.Path on Unix
  // ---------------------------------------------------------------------

  /** String.LastIndexOf(char): None when c does not occur. */
  function LastIndexOf(s: string, c: char): (r: Option<nat>)
    ensures r.None? ==> c !in s
    ensures r.Some? ==> r.value < |s| && s[r.value] == c && c !in s[r.value + 1..]
  {
    if s == [] then None
    else if s[|s| - 1] == c then Some(|s| - 1)
    else
      var r := LastIndexOf(s[..|s| - 1], c);
      assert s == s[..|s| - 1] + [s[|s| - 1]];
      if r.Some? then
        assert s[r.value + 1..] == s[..|s| - 1][r.value + 1..] + [s[|s| - 1]];
        r
      else r
  }

  /** The last occurrence of c in a + [c] + b, when b does not hold c, is the one in the middle. */
  lemma {:induction false} LastIndexOfAfter(a: string, c: char, b: string)
    requires c !in b
    ensures LastIndexOf(a + [c] + b, c) == Some(|a|)
    decreases |b|
  {
    if b != [] {
      var s := a + [c] + b;
      assert s[..|s| - 1] == a + [c] + b[..|b| - 1];
      assert s[|s| - 1] == b[|b| - 1];
      LastIndexOfAfter(a, c, b[..|b| - 1]);
    }
  }

  /** Path.GetFileName: the text after the last separator. */
  function FileName(path: string): (r: string)
    ensures '/' !in r && EndsWith(path, r)
    ensures '/' !in path ==> r == path
    ensures |r| < |path| ==> path[|path| - |r| - 1] == '/'
  {
    match LastIndexOf(path, '/')
    case None => path
    case Some(i) => path[i + 1..]
  }

  /** Path.GetExtension: from the last '.' of the file name, "" when there is none or it ends the name. */
  function Extension(path: string): string {
    NameExtension(FileName(path))
  }

  /** The extension of a plain file name. */
  function NameExtension(name: string): string {
    match LastIndexOf(name, '.')
    case None => ""
    case Some(i) => if i == |name| - 1 then "" else name[i..]
  }

  /** Path.HasExtension. */
  predicate HasExtension(path: string) {
    Extension(path) != ""
  }

  /** Path.GetFileNameWithoutExtension: the file name up to its last '.' (a trailing '.' is dropped too). */
  function FileNameWithoutExtension(path: string): (r: string)
    ensures '/' !in r
    ensures StartsWith(FileName(path), r)
    ensures '.' !in FileName(path) ==> r == FileName(path)
    ensures '.' in FileName(path) ==>
              |r| < |FileName(path)| && FileName(path)[|r|] == '.' && '.' !in FileName(path)[|r| + 1..]
  {
    var name := FileName(path);
    var r := NameStem(name);
    assert r == name[..|r|];
    r
  }

  /** A plain file name up to its last '.'. */
  function NameStem(name: string): (r: string)
    ensures StartsWith(name, r)
    ensures '.' !in name ==> r == name
    ensures '.' in name ==> |r| < |name| && name[|r|] == '.' && '.' !in name[|r| + 1..]
  {
    match LastIndexOf(name, '.')
    case None => name
    case Some(i) => name[..i]
  }

  /**
   * Path.GetDirectoryName: None for "" and for the root itself; otherwise
   * the text before the last separator with trailing separators removed,
   * "" when there is no separator and "/" for a file directly under the root.
   */
  function DirectoryName(path: string): Option<string> {
    var root := if path != "" && path[0] == '/' then 1 else 0;
    if |path| <= root then None
    else
      match LastIndexOf(path[root..], '/')
      case None => Some(path[..root])
      case Some(j) => Some(path[..root] + TrimEndWhere(path[root..root + j], c => c == '/'))
  }

  /** Path.Combine(a, b): b when it is rooted or a is empty, otherwise a and b joined by one separator. */
  function Combine(a: string, b: string): string {
    if b != "" && b[0] == '/' then b
    else if a == "" then b
    else if a[|a| - 1] == '/' then a + b
    else a + "/" + b
  }

  /** Joining a folder with a plain file name puts at most one separator between them, and the name is the last segment. */
  lemma CombineFileName(a: string, b: string)
    requires b != "" && '/' !in b
    ensures FileName(Combine(a, b)) == b
    ensures a == "" ==> Combine(a, b) == b
    ensures a != "" && a[|a| - 1] == '/' ==> Combine(a, b) == a + b
    ensures a != "" && a[|a| - 1] != '/' ==> Combine(a, b) == a + "/" + b
  {
    if a != "" {
      var p := if a[|a| - 1] == '/' then a else a + "/";
      assert Combine(a, b) == p + b;
      assert p == p[..|p| - 1] + ['/'];
      LastIndexOfAfter(p[..|p| - 1], '/', b);
      assert p + b == p[..|p| - 1] + ['/'] + b;
      assert (p + b)[|p|..] == b;
    }
  }

  /** A renamed file joined with a folder carries the new extension and the stem of the original name. */
  lemma CombineConverted(a: string, name: string, format: string)
    requires '/' !in name && format != "" && '.' !in format && '/' !in format
    ensures var t := Combine(a, ConvertedFileName(name, format));
            && FileName(t) == ConvertedFileName(name, format)
            && Extension(t) == "." + format
            && FileNameWithoutExtension(t) == FileNameWithoutExtension(name)
  {
    var renamed := ConvertedFileName(name, format);
    var t := Combine(a, renamed);
    ConvertedFileNameExtension(name, format);
    assert '/' !in renamed;
    CombineFileName(a, renamed);
    assert FileName(t) == FileName(renamed);
    SameFileName(t, renamed);
  }

  /** Extension and stem depend on a path only through its file name. */
  lemma SameFileName(p: string, q: string)
    requires FileName(p) == FileName(q)
    ensures Extension(p) == Extension(q) && FileNameWithoutExtension(p) == FileNameWithoutExtension(q)
  {
    assert NameStem(FileName(p)) == NameStem(FileName(q));
  }

  /** Path.Combine(a, ·) is injective on names that are not rooted. */
  lemma CombineInjective(a: string, b1: string, b2: string)
    requires b1 != "" && b1[0] != '/' && b2 != "" && b2[0] != '/'
    requires Combine(a, b1) == Combine(a, b2)
    ensures b1 == b2
  {
    var p := if a == "" then "" else if a[|a| - 1] == '/' then a else a + "/";
    assert Combine(a, b1) == p + b1 && Combine(a, b2) == p + b2;
    assert b1 == (p + b1)[|p|..];
  }

  // ---------------------------------------------------------------------
  // Sanitising
  // ---------------------------------------------------------------------

  /** SanitizeFileName: every invalid file-name character replaced by '_'. */
  function SanitizeFileName(rt: Runtime, s: string): (r: string)
    ensures |r| == |s|
    ensures FileNameCharsSound(rt) ==> forall i :: 0 <= i < |r| ==> r[i] !in rt.invalidFileNameChars
    ensures FileNameCharsSound(rt) ==> '/' !in r
    ensures forall i :: 0 <= i < |s| && s[i] !in rt.invalidFileNameChars ==> r[i] == s[i]
    ensures forall i :: 0 <= i < |s| && s[i] in rt.invalidFileNameChars ==> r[i] == '_'
    ensures ValidName(rt, s) ==> r == s
  {
    seq(|s|, i requires 0 <= i < |s| => if s[i] in rt.invalidFileNameChars then '_' else s[i])
  }

  /** Sanitising keeps every '.' in place and adds none, so the extension survives. */
  lemma SanitizeKeepsExtension(rt: Runtime, name: string)
    requires '.' !in rt.invalidFileNameChars && '/' !in name
    ensures Extension(SanitizeFileName(rt, name)) == SanitizeFileName(rt, Extension(name))
    ensures HasExtension(SanitizeFileName(rt, name)) == HasExtension(name)
  {
    var s := SanitizeFileName(rt, name);
    SanitizeKeepsDots(rt, name);
    assert FileName(s) == s && FileName(name) == name;
    match LastIndexOf(name, '.')
    case None =>
    case Some(i) =>
      SanitizeSuffix(rt, name, i);
  }

  /** Sanitising neither moves nor adds a '.', so the last '.' stays where it was. */
  lemma SanitizeKeepsDots(rt: Runtime, name: string)
    requires '.' !in rt.invalidFileNameChars
    ensures LastIndexOf(SanitizeFileName(rt, name), '.') == LastIndexOf(name, '.')
  {
    var s := SanitizeFileName(rt, name);
    forall i | 0 <= i < |name| ensures (s[i] == '.') == (name[i] == '.') {}
    LastIndexOfPointwise(name, s, '.');
  }

  /** Sanitising a suffix is the suffix of the sanitised string. */
  lemma SanitizeSuffix(rt: Runtime, name: string, i: nat)
    requires i <= |name|
    ensures SanitizeFileName(rt, name)[i..] == SanitizeFileName(rt, name[i..])
  {
  }

  /** Two strings that agree on where a character occurs have the same last occurrence. */
  lemma {:induction false} LastIndexOfPointwise(a: string, b: string, c: char)
    requires |a| == |b|
    requires forall i :: 0 <= i < |a| ==> (a[i] == c) == (b[i] == c)
    ensures LastIndexOf(a, c) == LastIndexOf(b, c)
  {
    if a != [] && a[|a| - 1] != c {
      LastIndexOfPointwise(a[..|a| - 1], b[..|b| - 1], c);
    }
  }

  // ---------------------------------------------------------------------
  // File names of downloads
  // ---------------------------------------------------------------------

  /**
   * ExtractFileNameFromUrl: the last segment of the URL's local path, "image"
   * when that is empty, ".jpg" appended when it has no extension, invalid
   * characters replaced; "image.jpg" when the URL is not absolute. The result
   * is a plain file name that always has an extension.
   */
  function ExtractFileNameFromUrl(rt: Runtime, url: string): (r: string)
    ensures rt.tryCreateAbsolute(url).None? ==> r == DefaultFileName
    ensures FileNameCharsSound(rt) ==> r != "" && '/' !in r && HasExtension(r)
    ensures FileNameCharsSound(rt) ==> forall i :: 0 <= i < |r| ==> r[i] !in rt.invalidFileNameChars
    ensures rt.tryCreateAbsolute(url).Some? ==>
              var segment := FileName(rt.tryCreateAbsolute(url).value.localPath);
              && (segment != "" && HasExtension(segment) ==> r == SanitizeFileName(rt, segment))
              && (segment != "" && HasExtension(segment) && ValidName(rt, segment) ==> r == segment)
              && (segment != "" && !HasExtension(segment) ==> r == SanitizeFileName(rt, segment + ".jpg"))
              && (segment == "" && FileNameCharsSound(rt) ==> r == DefaultFileName)
  {
    match rt.tryCreateAbsolute(url)
    case None =>
      DefaultFileNameIsValid(rt);
      DefaultFileName
    case Some(u) =>
      DotIsValid(rt);
      FileNameFromLocalPath(rt, u.localPath)
  }

  /** A sound runtime allows '.' in file names. */
  lemma DotIsValid(rt: Runtime)
    ensures FileNameCharsSound(rt) ==> '.' !in rt.invalidFileNameChars
  {
  }

  /** The name used when the URL cannot be parsed. */
  const DefaultFileName: string := "image.jpg"

  /** The fallback name has an extension and, with the runtime's invalid set, no invalid character. */
  lemma DefaultFileNameIsValid(rt: Runtime)
    ensures HasExtension(DefaultFileName) && '/' !in DefaultFileName
    ensures FileNameCharsSound(rt) ==> forall i :: 0 <= i < |DefaultFileName| ==> DefaultFileName[i] !in rt.invalidFileNameChars
  {
    DefaultFileNameHasExtension();
    DefaultFileNameChars(rt);
  }

  /** "image.jpg" splits as "image" and ".jpg". */
  lemma DefaultFileNameHasExtension()
    ensures HasExtension(DefaultFileName) && '/' !in DefaultFileName
  {
    assert DefaultFileName == "image" + ['.'] + "jpg";
    StemDotExtension("image", "jpg");
  }

  /** "image.jpg" holds letters and a dot only. */
  lemma DefaultFileNameChars(rt: Runtime)
    ensures FileNameCharsSound(rt) ==> forall i :: 0 <= i < |DefaultFileName| ==> DefaultFileName[i] !in rt.invalidFileNameChars
  {
    assert LowerCaseName(DefaultFileName);
    LowerCaseNameIsValid(rt, DefaultFileName);
  }

  /** The name is made of lower-case letters and dots only. */
  predicate LowerCaseName(name: string) {
    name == [] || (('a' <= name[0] <= 'z' || name[0] == '.') && LowerCaseName(name[1..]))
  }

  /** A name of lower-case letters and dots holds no character a sound runtime rejects. */
  lemma {:induction false} LowerCaseNameIsValid(rt: Runtime, name: string)
    requires LowerCaseName(name)
    ensures FileNameCharsSound(rt) ==> forall i :: 0 <= i < |name| ==> name[i] !in rt.invalidFileNameChars
  {
    if name != [] {
      LowerCaseNameIsValid(rt, name[1..]);
      if FileNameCharsSound(rt) {
        forall i | 0 <= i < |name| ensures name[i] !in rt.invalidFileNameChars {
          if i > 0 {
            assert name[i] == name[1..][i - 1];
          }
        }
      }
    }
  }

  /** The success path of ExtractFileNameFromUrl, from the URL's local path. */
  function FileNameFromLocalPath(rt: Runtime, localPath: string): (r: string)
    ensures '.' !in rt.invalidFileNameChars ==> r != "" && HasExtension(r)
    ensures FileNameCharsSound(rt) ==> '/' !in r && forall i :: 0 <= i < |r| ==> r[i] !in rt.invalidFileNameChars
    ensures var segment := FileName(localPath);
            && (segment != "" && HasExtension(segment) ==> r == SanitizeFileName(rt, segment))
            && (segment != "" && HasExtension(segment) && ValidName(rt, segment) ==> r == segment)
            && (segment != "" && !HasExtension(segment) ==> r == SanitizeFileName(rt, segment + ".jpg"))
            && (segment == "" && FileNameCharsSound(rt) ==> r == DefaultFileName)
  {
    var name := WithExtension(OrImage(FileName(localPath)));
    LocalNameSanitized(rt, name);
    EmptySegmentName(rt);
    SanitizeFileName(rt, name)
  }

  /** No character of the name is one the runtime rejects in file names. */
  predicate ValidName(rt: Runtime, name: string) {
    forall i :: 0 <= i < |name| ==> name[i] !in rt.invalidFileNameChars
  }

  /** An empty last segment gives "image", then "image.jpg", which sanitising keeps. */
  lemma EmptySegmentName(rt: Runtime)
    ensures FileNameCharsSound(rt) ==> SanitizeFileName(rt, WithExtension(OrImage(""))) == DefaultFileName
  {
    ImageHasNoExtension();
    assert WithExtension(OrImage("")) == "image" + ".jpg";
    ImageJpg();
    DefaultFileNameChars(rt);
    assert FileNameCharsSound(rt) ==> ValidName(rt, DefaultFileName);
  }

  /** "image" with ".jpg" appended is the fallback name. */
  lemma ImageJpg()
    ensures "image" + ".jpg" == DefaultFileName
  {
  }

  /** The stem "image" has no extension. */
  lemma ImageHasNoExtension()
    ensures '/' !in "image" && !HasExtension("image")
  {
    var stem := "image";
    assert '/' !in stem && '.' !in stem;
    assert FileName(stem) == stem;
    assert LastIndexOf(stem, '.').None?;
  }

  /** An empty name (or "/") becomes "image". */
  function OrImage(name: string): (r: string)
    requires '/' !in name
    ensures r != "" && '/' !in r
    ensures name != "" ==> r == name
    ensures name == "" ==> r == "image"
  {
    if name == "" || name == "/" then "image" else name
  }

  /** A name without an extension gets ".jpg"; one with an extension is kept. */
  function WithExtension(name: string): (r: string)
    requires name != "" && '/' !in name
    ensures r != "" && '/' !in r && HasExtension(r)
    ensures HasExtension(name) ==> r == name
    ensures !HasExtension(name) ==> r == name + ".jpg"
  {
    if !HasExtension(name) then WithJpgExtension(name) else name
  }

  /** Sanitising a non-empty name with an extension keeps it non-empty and, when '.' is valid, keeps an extension. */
  lemma LocalNameSanitized(rt: Runtime, name: string)
    requires name != "" && '/' !in name && HasExtension(name)
    ensures var r := SanitizeFileName(rt, name);
            && ('.' !in rt.invalidFileNameChars ==> r != "" && HasExtension(r))
            && (FileNameCharsSound(rt) ==> '/' !in r && forall i :: 0 <= i < |r| ==> r[i] !in rt.invalidFileNameChars)
  {
    if '.' !in rt.invalidFileNameChars {
      SanitizeKeepsExtension(rt, name);
    }
  }

  /** A name without an extension gets ".jpg" and then has one. */
  function WithJpgExtension(name: string): (r: string)
    requires '/' !in name
    ensures r == name + ".jpg" && '/' !in r && HasExtension(r)
  {
    var r := name + ".jpg";
    assert r == name + ['.'] + "jpg";
    LastIndexOfAfter(name, '.', "jpg");
    r
  }

  /** The name under which a converted image is saved: the stem with the target format as extension. */
  function ConvertedFileName(fileName: string, format: string): (r: string)
  {
    // `format == "jpg" ? ".jpg" : "." + format` is "." + format in both cases.
    FileNameWithoutExtension(fileName) + "." + format
  }

  /** A converted name keeps the stem and carries exactly the target format as its extension. */
  lemma ConvertedFileNameExtension(fileName: string, format: string)
    requires format != "" && '.' !in format && '/' !in format
    ensures Extension(ConvertedFileName(fileName, format)) == "." + format
    ensures FileNameWithoutExtension(ConvertedFileName(fileName, format)) == FileNameWithoutExtension(fileName)
  {
    var stem := FileNameWithoutExtension(fileName);
    StemDotExtension(stem, format);
    assert ConvertedFileName(fileName, format) == stem + ['.'] + format;
  }

  /** A name built as stem '.' ext, with no '.' in ext and no separator anywhere, splits at that '.'. */
  lemma StemDotExtension(stem: string, ext: string)
    requires ext != [] && '/' !in stem && '/' !in ext && '.' !in ext
    ensures Extension(stem + ['.'] + ext) == ['.'] + ext
    ensures FileNameWithoutExtension(stem + ['.'] + ext) == stem
  {
    var r := stem + ['.'] + ext;
    LastIndexOfAfter(stem, '.', ext);
    assert '/' !in stem + ['.'];
    assert FileName(r) == r;
    assert r[|stem|..] == ['.'] + ext;
    assert r[..|stem|] == stem;
  }

  // ---------------------------------------------------------------------
  // Unique paths
  // ---------------------------------------------------------------------

  /** The pieces GetUniqueFilePath takes a path apart into: directory ("." when there is none), stem and extension. */
  datatype PathParts = PathParts(dir: string, stem: string, ext: string)

  function Parts(path: string): (p: PathParts)
    ensures '/' !in p.stem
  {
    var dir := match DirectoryName(path) case Some(d) => d case None => ".";
    PathParts(dir, FileNameWithoutExtension(path), Extension(path))
  }

  /** The k-th alternative GetUniqueFilePath tries: `stem_k.ext` in the same directory. */
  function Alternative(p: PathParts, k: nat): string {
    Combine(p.dir, p.stem + "_" + NatToString(k) + p.ext)
  }

  /** Different counters give different alternatives. */
  lemma AlternativeInjective(p: PathParts, k1: nat, k2: nat)
    requires '/' !in p.stem
    requires Alternative(p, k1) == Alternative(p, k2)
    ensures k1 == k2
  {
    var d1, d2 := NatToString(k1), NatToString(k2);
    var n1 := p.stem + "_" + d1 + p.ext;
    var n2 := p.stem + "_" + d2 + p.ext;
    assert n1[0] != '/' && n2[0] != '/' by {
      if p.stem != "" {
        assert n1[0] == p.stem[0] && n2[0] == p.stem[0];
      }
    }
    CombineInjective(p.dir, n1, n2);
    assert |d1| == |d2|;
    assert d1 == n1[|p.stem| + 1..|p.stem| + 1 + |d1|];
    assert d2 == n2[|p.stem| + 1..|p.stem| + 1 + |d2|];
    NatToStringInjective(k1, k2);
  }

  /** The alternatives with counters 1 .. n-1. */
  ghost function AlternativesBelow(p: PathParts, n: nat): set<string> {
    if n <= 1 then {} else AlternativesBelow(p, n - 1) + {Alternative(p, n - 1)}
  }

  /** Only counters below n have their alternative among AlternativesBelow(p, n). */
  lemma {:induction false} AlternativesBelowOnly(p: PathParts, n: nat, k: nat)
    requires '/' !in p.stem
    requires Alternative(p, k) in AlternativesBelow(p, n)
    ensures k < n
  {
    if n > 1 {
      if Alternative(p, k) in AlternativesBelow(p, n - 1) {
        AlternativesBelowOnly(p, n - 1, k);
      } else {
        AlternativeInjective(p, k, n - 1);
      }
    }
  }

  /** Every counter below n has its alternative among AlternativesBelow(p, n). */
  lemma {:induction false} AlternativesBelowHas(p: PathParts, n: nat, j: nat)
    requires 1 <= j < n
    ensures Alternative(p, j) in AlternativesBelow(p, n)
  {
    if j < n - 1 {
      AlternativesBelowHas(p, n - 1, j);
    }
  }

  /** The n-1 alternatives below n are pairwise distinct. */
  lemma {:induction false} AlternativesBelowCount(p: PathParts, n: nat)
    requires '/' !in p.stem
    requires n >= 1
    ensures |AlternativesBelow(p, n)| == n - 1
  {
    if n > 1 {
      AlternativesBelowCount(p, n - 1);
      if Alternative(p, n - 1) in AlternativesBelow(p, n - 1) {
        AlternativesBelowOnly(p, n - 1, n - 1);
      }
    }
  }

  /** Every alternative with a counter from 1 to k-1 names an existing file. */
  predicate AllTaken(p: PathParts, k: nat, existing: set<string>) {
    forall j: nat :: 1 <= j < k ==> Alternative(p, j) in existing
  }

  /**
   * GetUniqueFilePath over the set of existing files: the path itself when
   * it is free, otherwise the alternative with the smallest counter k >= 1
   * that is free. The result never names an existing file.
   */
  method GetUniqueFilePath(path: string, existing: set<string>) returns (r: string)
    ensures r !in existing
    ensures path !in existing ==> r == path
    ensures path in existing ==>
              exists k: nat :: k >= 1 && r == Alternative(Parts(path), k) && AllTaken(Parts(path), k, existing)
  {
    if path !in existing {
      return path;
    }
    var p := Parts(path);
    var counter: nat := 1;
    while true
      invariant counter >= 1
      invariant AlternativesBelow(p, counter) <= existing
      decreases |existing| - (counter - 1)
    {
      var candidate := Alternative(p, counter);
      if candidate !in existing {
        forall j: nat | 1 <= j < counter
          ensures Alternative(p, j) in existing
        {
          AlternativesBelowHas(p, counter, j);
        }
        r := candidate;
        assert counter >= 1 && r == Alternative(p, counter) && AllTaken(p, counter, existing);
        return;
      }
      AlternativesBelowCount(p, counter + 1);
      SubsetCardinality(AlternativesBelow(p, counter + 1), existing);
      counter := counter + 1;
    }
  }

  lemma SubsetCardinality(a: set<string>, b: set<string>)
    requires a <= b
    ensures |a| <= |b|
  {
    assert b == a + (b - a);
  }

  // ---------------------------------------------------------------------
  // Output folder names
  // ---------------------------------------------------------------------

  /**
   * The fallback folder name of DetermineOutputFolder: the host with every
   * "www." removed, then "_" and the path with its outer slashes trimmed and
   * inner slashes turned into '_', or "_images" when that path is empty.
   */
  function OutputFolderFallback(u: Uri): (r: string)
    ensures '/' !in u.host ==> '/' !in r
    ensures StartsWith(r, HostDomain(u.host) + "_")
    ensures PathSlug(u.absolutePath) != "" ==> r == HostDomain(u.host) + "_" + PathSlug(u.absolutePath)
    ensures PathSlug(u.absolutePath) == "" ==> r == HostDomain(u.host) + "_images"
  {
    var domain := HostDomain(u.host);
    var slug := PathSlug(u.absolutePath);
    FallbackShape(domain, slug);
    domain + "_" + FolderSuffix(slug)
  }

  /** The shape of the fallback name for a domain and a slug. */
  lemma FallbackShape(domain: string, slug: string)
    ensures var r := domain + "_" + FolderSuffix(slug);
            && ('/' !in domain && '/' !in slug ==> '/' !in r)
            && StartsWith(r, domain + "_")
            && (slug != "" ==> r == domain + "_" + slug)
            && (slug == "" ==> r == domain + "_images")
  {
    var r := domain + "_" + FolderSuffix(slug);
    assert r[..|domain| + 1] == domain + "_";
  }

  /** What follows the domain and '_': the slug, or "images" when the slug is empty. */
  function FolderSuffix(slug: string): (r: string)
    ensures '/' !in slug ==> '/' !in r
  {
    if slug != "" then slug else "images"
  }

  /** The host with every "www." removed. */
  function HostDomain(host: string): (r: string)
    ensures '/' !in host ==> '/' !in r
  {
    var r := ReplaceAll(host, "www.", "");
    if '/' in host then r
    else
      ReplaceAllWithout(host, "www.", "", '/');
      r
  }

  /**
   * The path without its leading and trailing slashes, inner slashes turned
   * into '_'. The result is the image of the part of the path that starts
   * at some offset k (see SlugAt): only slashes come before that part and
   * after it, the part neither starts nor ends with a slash, and each slash
   * inside it becomes '_'.
   */
  function PathSlug(path: string): (r: string)
    ensures '/' !in r
    ensures exists k: nat :: SlugAt(path, k, r)
  {
    var t1 := TrimStartWhere(path, IsSlash);
    var t2 := TrimEndWhere(t1, IsSlash);
    var r := ReplaceChar(t2, '/', '_');
    SlugOfTrimmed(path, t1, t2, r);
    r
  }

  lemma SlugOfTrimmed(path: string, t1: string, t2: string, r: string)
    requires t1 == TrimStartWhere(path, IsSlash) && t2 == TrimEndWhere(t1, IsSlash)
    requires r == ReplaceChar(t2, '/', '_')
    ensures SlugAt(path, |path| - |t1|, r)
  {
    var k := |path| - |t1|;
    forall i | 0 <= i < k ensures path[i] == '/' {
      assert IsSlash(path[i]);
    }
    forall i | |t2| <= i < |t1| ensures t1[i] == '/' {
      assert IsSlash(t1[i]);
    }
    SlugFromPieces(path, k, t1, t2, r);
  }

  lemma SlugFromPieces(path: string, k: nat, t1: string, t2: string, r: string)
    requires k <= |path| && t1 == path[k..] && |t2| <= |t1| && t2 == t1[..|t2|]
    requires forall i :: 0 <= i < k ==> path[i] == '/'
    requires forall i :: |t2| <= i < |t1| ==> t1[i] == '/'
    requires t1 == [] || t1[0] != '/'
    requires t2 == [] || t2[|t2| - 1] != '/'
    requires |r| == |t2| && forall i :: 0 <= i < |t2| ==> r[i] == (if t2[i] == '/' then '_' else t2[i])
    ensures SlugAt(path, k, r)
  {
    forall i | k + |r| <= i < |path| ensures path[i] == '/' {
      assert path[i] == t1[i - k];
    }
    forall i | 0 <= i < |r| ensures r[i] == if path[k + i] == '/' then '_' else path[k + i] {
      assert t2[i] == t1[i] == path[k + i];
    }
  }

  /** `r` is the slash-mapped text of `path[k..k + |r|]`, which is `path` with its outer slashes trimmed. */
  predicate SlugAt(path: string, k: nat, r: string) {
    && k + |r| <= |path|
    && (forall i :: 0 <= i < k ==> path[i] == '/')
    && (forall i :: k + |r| <= i < |path| ==> path[i] == '/')
    && (r != [] ==> path[k] != '/' && path[k + |r| - 1] != '/')
    && (forall i :: 0 <= i < |r| ==> r[i] == if path[k + i] == '/' then '_' else path[k + i])
  }

  predicate IsSlash(c: char) {
    c == '/'
  }

  /** Replacing never introduces a character that neither the text nor the replacement holds. */
  lemma {:induction false} ReplaceAllWithout(s: string, pat: string, rep: string, c: char)
    requires |pat| > 0 && c !in s && c !in rep
    ensures c !in ReplaceAll(s, pat, rep)
    decreases |s|
  {
    if |s| >= |pat| {
      if s[..|pat|] == pat {
        ReplaceAllWithout(s[|pat|..], pat, rep, c);
      } else {
        ReplaceAllWithout(s[1..], pat, rep, c);
      }
    }
  }

  /** A position where the pattern does not start is copied through. */
  lemma ReplaceAllSkip(s: string, pat: string, rep: string, k: nat)
    requires k < |pat| <= |s| && s[k] != pat[k]
    ensures ReplaceAll(s, pat, rep) == [s[0]] + ReplaceAll(s[1..], pat, rep)
  {
    assert s[..|pat|][k] != pat[k];
  }

  /** An occurrence of the pattern is replaced and scanning resumes after it. */
  lemma ReplaceAllHit(s: string, pat: string, rep: string)
    requires |pat| > 0 && StartsWith(s, pat)
    ensures ReplaceAll(s, pat, rep) == rep + ReplaceAll(s[|pat|..], pat, rep)
  {
  }

  /** Text without the pattern's first character is left unchanged. */
  lemma {:induction false} ReplaceAllAbsent(s: string, pat: string, rep: string)
    requires |pat| > 0 && pat[0] !in s
    ensures ReplaceAll(s, pat, rep) == s
    decreases |s|
  {
    if |s| >= |pat| {
      ReplaceAllSkip(s, pat, rep, 0);
      ReplaceAllAbsent(s[1..], pat, rep);
    }
  }

  /**
   * Every "www." is removed, not only a leading one: between two texts
   * without a 'w', an occurrence disappears, as "img.www.example.com"
   * becomes "img.example.com".
   */
  lemma {:induction false} WwwRemovedAnywhere(a: string, b: string)
    requires 'w' !in a && 'w' !in b
    ensures ReplaceAll(a + "www." + b, "www.", "") == a + b
    decreases |a|
  {
    if a == [] {
      assert ("" + "www." + b)[4..] == b;
      ReplaceAllHit("www." + b, "www.", "");
      ReplaceAllAbsent(b, "www.", "");
    } else {
      var s := a + "www." + b;
      ReplaceAllSkip(s, "www.", "", 0);
      assert s[1..] == a[1..] + "www." + b;
      WwwRemovedAnywhere(a[1..], b);
    }
  }

  /** Removal is a single left-to-right pass, so it can leave a "www." behind: "wwww.ww.x" becomes "www.x". */
  lemma WwwCanSurvive(host: string)
    requires host == "wwww.ww.x"
    ensures ReplaceAll(host, "www.", "") == "www.x"
  {
    var pat := "www.";
    ReplaceAllSkip(host, pat, "", 3);
    ReplaceAllHit(host[1..], pat, "");
    var rest := host[1..][4..];
    assert rest == "ww.x";
    ReplaceAllSkip(rest, pat, "", 2);
    assert ReplaceAll(rest[1..], pat, "") == rest[1..];
  }

  /** The title rule: drop every character that is not a word character, white space or '-', then turn each run of white space into one '_'. */
  function SanitizeTitle(rt: Runtime, title: string): string {
    CollapseWhiteSpace(rt.isWhiteSpace, KeepTitleChars(rt, title))
  }

  predicate TitleChar(rt: Runtime, c: char) {
    rt.isWordChar(c) || rt.isWhiteSpace(c) || c == '-'
  }

  /** The characters of the title that are word characters, white space or '-', in order. */
  function KeepTitleChars(rt: Runtime, s: string): (r: string)
    ensures forall i :: 0 <= i < |r| ==> TitleChar(rt, r[i])
    ensures forall i :: 0 <= i < |r| ==> r[i] in s
    ensures forall i :: 0 <= i < |s| && TitleChar(rt, s[i]) ==> s[i] in r
    ensures |r| <= |s|
    ensures (forall i :: 0 <= i < |s| ==> TitleChar(rt, s[i])) ==> r == s
  {
    if s == [] then []
    else
      var rest := KeepTitleChars(rt, s[1..]);
      assert forall i :: 1 <= i < |s| ==> s[i] == s[1..][i - 1];
      if TitleChar(rt, s[0]) then [s[0]] + rest else rest
  }

  /** Filtering a concatenation filters each part in turn, so the kept characters stay in order and keep their number. */
  lemma {:induction false} KeepTitleCharsAppend(rt: Runtime, a: string, b: string)
    ensures KeepTitleChars(rt, a + b) == KeepTitleChars(rt, a) + KeepTitleChars(rt, b)
    decreases |a|
  {
    if a == [] {
      assert a + b == b;
    } else {
      TailOfConcat(a, b);
      KeepTitleCharsCons(rt, a);
      KeepTitleCharsCons(rt, a + b);
      KeepTitleCharsAppend(rt, a[1..], b);
      ConcatAssoc(if TitleChar(rt, a[0]) then [a[0]] else [], KeepTitleChars(rt, a[1..]), KeepTitleChars(rt, b));
    }
  }

  /** The first character is kept or dropped, then the rest is filtered. */
  lemma KeepTitleCharsCons(rt: Runtime, s: string)
    requires s != []
    ensures KeepTitleChars(rt, s) == (if TitleChar(rt, s[0]) then [s[0]] else []) + KeepTitleChars(rt, s[1..])
  {
  }

  /** One character is kept exactly when it is a word character, white space or '-'. */
  lemma KeepTitleCharsSingle(rt: Runtime, c: char)
    ensures KeepTitleChars(rt, [c]) == if TitleChar(rt, c) then [c] else []
  {
    assert [c][1..] == [];
  }

  /** Collapsing keeps any property that '_' and every character of the input have. */
  lemma {:induction false} CollapseWhiteSpaceKeeps(isWhiteSpace: char -> bool, s: string, ok: char -> bool)
    requires ok('_') && forall i :: 0 <= i < |s| ==> ok(s[i])
    ensures forall i :: 0 <= i < |CollapseWhiteSpace(isWhiteSpace, s)| ==> ok(CollapseWhiteSpace(isWhiteSpace, s)[i])
    decreases |s|
  {
    if s != [] {
      var rest := if isWhiteSpace(s[0]) then TrimStartWhere(s[1..], isWhiteSpace) else s[1..];
      SuffixKeeps(s, rest, ok);
      CollapseWhiteSpaceKeeps(isWhiteSpace, rest, ok);
      ConsKeeps(if isWhiteSpace(s[0]) then '_' else s[0], CollapseWhiteSpace(isWhiteSpace, rest), ok);
    }
  }

  /** A suffix of a text keeps what holds of every character of the text. */
  lemma SuffixKeeps(s: string, rest: string, ok: char -> bool)
    requires |rest| <= |s| && rest == s[|s| - |rest|..]
    requires forall i :: 0 <= i < |s| ==> ok(s[i])
    ensures forall i :: 0 <= i < |rest| ==> ok(rest[i])
  {
    forall i | 0 <= i < |rest| ensures ok(rest[i]) {
      assert rest[i] == s[|s| - |rest| + i];
    }
  }

  /** One character in front of a text keeps a property of every character. */
  lemma ConsKeeps(c: char, t: string, ok: char -> bool)
    requires ok(c) && forall i :: 0 <= i < |t| ==> ok(t[i])
    ensures forall i :: 0 <= i < |[c] + t| ==> ok(([c] + t)[i])
  {
  }

  /** TrimStartWhere stops at the first character it keeps. */
  lemma {:induction false} TrimStartStops(drop: char -> bool, x: string, y: string)
    requires forall i :: 0 <= i < |x| ==> drop(x[i])
    requires y == [] || !drop(y[0])
    ensures TrimStartWhere(x + y, drop) == y
    decreases |x|
  {
    if x != [] {
      assert (x + y)[1..] == x[1..] + y;
      TrimStartStops(drop, x[1..], y);
    } else {
      assert x + y == y;
    }
  }

  /** When a text ends in a kept character, trimming its start is not affected by what follows it. */
  lemma {:induction false} TrimStartKeeps(drop: char -> bool, x: string, y: string)
    requires x != [] && !drop(x[|x| - 1])
    ensures TrimStartWhere(x + y, drop) == TrimStartWhere(x, drop) + y
    ensures TrimStartWhere(x, drop) != [] && TrimStartWhere(x, drop)[|TrimStartWhere(x, drop)| - 1] == x[|x| - 1]
    decreases |x|
  {
    if drop(x[0]) {
      assert (x + y)[1..] == x[1..] + y;
      TrimStartKeeps(drop, x[1..], y);
    }
  }

  /** Past a first character, what CollapseWhiteSpace continues with when that character is white space. */
  lemma WhiteHeadRest(ws: char -> bool, a: string, y: string)
    requires |a| >= 2 && !ws(a[|a| - 1])
    ensures TrimStartWhere((a + y)[1..], ws) == TrimStartWhere(a[1..], ws) + y
    ensures TrimStartWhere(a[1..], ws) != [] && TrimStartWhere(a[1..], ws)[|TrimStartWhere(a[1..], ws)| - 1] == a[|a| - 1]
  {
    assert (a + y)[1..] == a[1..] + y;
    TrimStartKeeps(ws, a[1..], y);
  }

  /** Past a leading run of white space, CollapseWhiteSpace continues with the text after the run. */
  lemma WhiteRunRest(ws: char -> bool, w: string, b: string)
    requires w != [] && forall i :: 0 <= i < |w| ==> ws(w[i])
    requires b == [] || !ws(b[0])
    ensures (w + b)[0] == w[0] && TrimStartWhere((w + b)[1..], ws) == b
  {
    assert (w + b)[1..] == w[1..] + b;
    TrimStartStops(ws, w[1..], b);
  }

  lemma TailOfConcat(a: string, y: string)
    requires a != []
    ensures (a + y)[0] == a[0] && (a + y)[1..] == a[1..] + y
  {
  }

  /**
   * Each maximal run of white space becomes exactly one '_': between a text
   * that does not end in white space and one that does not start with it,
   * a non-empty run of white space collapses to a single '_'.
   */
  lemma {:induction false} CollapseRun(ws: char -> bool, a: string, w: string, b: string)
    requires w != [] && forall i :: 0 <= i < |w| ==> ws(w[i])
    requires a == [] || !ws(a[|a| - 1])
    requires b == [] || !ws(b[0])
    ensures CollapseWhiteSpace(ws, a + (w + b)) == CollapseWhiteSpace(ws, a) + "_" + CollapseWhiteSpace(ws, b)
    decreases |a|
  {
    if a == [] {
      CollapseRunFirst(ws, w, b);
    } else if ws(a[0]) {
      TailOfConcat(a, w + b);
      WhiteHeadRest(ws, a, w + b);
      var t := TrimStartWhere(a[1..], ws);
      CollapseRun(ws, t, w, b);
      CollapseWhiteHead(ws, a, w + b, t, b);
    } else {
      TailOfConcat(a, w + b);
      CollapseRun(ws, a[1..], w, b);
      CollapseKeptHead(ws, a, w + b, b);
    }
  }

  /** A run of white space at the start collapses to a '_' before the rest. */
  lemma CollapseRunFirst(ws: char -> bool, w: string, b: string)
    requires w != [] && forall i :: 0 <= i < |w| ==> ws(w[i])
    requires b == [] || !ws(b[0])
    ensures CollapseWhiteSpace(ws, [] + (w + b)) == CollapseWhiteSpace(ws, []) + "_" + CollapseWhiteSpace(ws, b)
  {
    EmptyAppend(w + b);
    EmptyAppend("_");
    WhiteRunRest(ws, w, b);
    CollapseWhiteStep(ws, w + b);
  }

  lemma CollapseWhiteHead(ws: char -> bool, a: string, wb: string, t: string, b: string)
    requires a != [] && ws(a[0]) && t == TrimStartWhere(a[1..], ws)
    requires (a + wb)[0] == a[0] && TrimStartWhere((a + wb)[1..], ws) == t + wb
    requires CollapseWhiteSpace(ws, t + wb) == CollapseWhiteSpace(ws, t) + "_" + CollapseWhiteSpace(ws, b)
    ensures CollapseWhiteSpace(ws, a + wb) == CollapseWhiteSpace(ws, a) + "_" + CollapseWhiteSpace(ws, b)
  {
    Regroup("_", CollapseWhiteSpace(ws, t), CollapseWhiteSpace(ws, b));
  }

  lemma CollapseKeptHead(ws: char -> bool, a: string, wb: string, b: string)
    requires a != [] && !ws(a[0])
    requires (a + wb)[0] == a[0] && (a + wb)[1..] == a[1..] + wb
    requires CollapseWhiteSpace(ws, a[1..] + wb) == CollapseWhiteSpace(ws, a[1..]) + "_" + CollapseWhiteSpace(ws, b)
    ensures CollapseWhiteSpace(ws, a + wb) == CollapseWhiteSpace(ws, a) + "_" + CollapseWhiteSpace(ws, b)
  {
    Regroup([a[0]], CollapseWhiteSpace(ws, a[1..]), CollapseWhiteSpace(ws, b));
  }

  lemma Regroup(x: string, y: string, z: string)
    ensures x + (y + "_" + z) == (x + y) + "_" + z
  {
  }

  /** `Regex.Replace(s, @"\s+", "_")`. */
  function CollapseWhiteSpace(isWhiteSpace: char -> bool, s: string): (r: string)
    ensures !isWhiteSpace('_') ==> forall i :: 0 <= i < |r| ==> !isWhiteSpace(r[i])
    ensures (forall i :: 0 <= i < |s| ==> !isWhiteSpace(s[i])) ==> r == s
    decreases |s|
  {
    if s == [] then []
    else if isWhiteSpace(s[0]) then
      var tail := CollapseWhiteSpace(isWhiteSpace, TrimStartWhere(s[1..], isWhiteSpace));
      ConsNoWhiteSpace(isWhiteSpace, '_', tail);
      "_" + tail
    else
      var tail := CollapseWhiteSpace(isWhiteSpace, s[1..]);
      ConsNoWhiteSpace(isWhiteSpace, s[0], tail);
      assert s == [s[0]] + s[1..];
      [s[0]] + tail
  }

  /** Text that starts with white space collapses to '_' before the rest without its leading white space. */
  lemma CollapseWhiteStep(ws: char -> bool, s: string)
    requires s != [] && ws(s[0])
    ensures CollapseWhiteSpace(ws, s) == "_" + CollapseWhiteSpace(ws, TrimStartWhere(s[1..], ws))
  {
  }

  /** A character that is not white space, put before text without white space, gives text without white space. */
  lemma ConsNoWhiteSpace(isWhiteSpace: char -> bool, c: char, t: string)
    ensures !isWhiteSpace(c) && (forall i :: 0 <= i < |t| ==> !isWhiteSpace(t[i])) ==>
              forall i :: 0 <= i < |[c] + t| ==> !isWhiteSpace(([c] + t)[i])
  {
  }


  /**
   * The folder named after the page title, when the title has more than two
   * characters and its sanitised form more than three; the name then holds
   * only word characters, '-' and '_', and no white space.
   */
  function FolderFromTitle(rt: Runtime, title: string): (r: Option<string>)
    ensures r.Some? <==> |title| > 2 && |SanitizeTitle(rt, title)| > 3
    ensures r.Some? ==> r.value == SanitizeTitle(rt, title)
    ensures CharClassesSound(rt) && r.Some? ==>
              forall i :: 0 <= i < |r.value| ==>
                !rt.isWhiteSpace(r.value[i]) && (rt.isWordChar(r.value[i]) || r.value[i] == '-' || r.value[i] == '_')
  {
    if |title| > 2 then
      var kept := KeepTitleChars(rt, title);
      var sanitized := SanitizeTitle(rt, title);
      CollapseWhiteSpaceKeeps(rt.isWhiteSpace, kept, c => TitleChar(rt, c) || c == '_');
      if |sanitized| > 3 then Some(sanitized) else None
    else None
  }
}

=== FILE: options.dfy ===
/**
 * The scraper's configuration record (getpics/ScraperOptions.cs): a property
 * bag that starts at its defaults and that the command-line parser then
 * overwrites one property at a time with record updates.
 */
module Options {
  import opened Common

  /** Output formats the converter accepts. */
  const ConvertFormats: set<string> := {"jpg", "png", "gif"}

  datatype ScraperOptions = ScraperOptions(
    url: Option<string>,
    isDomainMode: bool,
    outputFolder: Option<string>,
    maxPages: int,
    isVerbose: bool,
    includeAnimatedGifs: bool,
    stealthMode: bool,
    randomizeDelays: bool,
    requestDelayMs: int,
    convertToFormat: Option<string>,
    jpegQuality: int)

  /** `new ScraperOptions()`: every property at its declared initial value. */
  function Defaults(): ScraperOptions {
    ScraperOptions(
      url := None,
      isDomainMode := false,
      outputFolder := None,
      maxPages := 100,
      isVerbose := false,
      includeAnimatedGifs := false,
      stealthMode := false,
      randomizeDelays := false,
      requestDelayMs := 1000,
      convertToFormat := None,
      jpegQuality := 90)
  }

  /**
   * What every options record the parser hands out satisfies: positive page
   * budget and delay, a quality in 1..100, a supported conversion format, and
   * randomized delays only together with stealth mode.
   */
  predicate WellFormed(o: ScraperOptions) {
    && 0 < o.maxPages <= MaxInt32
    && 0 < o.requestDelayMs <= MaxInt32
    && 1 <= o.jpegQuality <= 100
    && (o.convertToFormat.Some? ==> o.convertToFormat.value in ConvertFormats)
    && (o.randomizeDelays ==> o.stealthMode)
  }
}

=== FILE: pacing.dfy ===
/**
 * Request pacing (getpics/ImageScraper.cs, GetRandomizedDelay and the
 * rate-limit counters of FetchHtmlAsync): the humanized delay before a
 * request, and the progressive backoff after an HTTP 429 response
 * (RFC 6585, section 4).
 */
module Pacing {
  import opened Common

  /** The floor no randomized delay goes below, in milliseconds. */
  const MinDelayMs: int := 200

  /** The largest backoff multiplier. */
  const MaxBackoffMultiplier: int := 8

  /**
   * `(int)(baseDelayMs * 0.4)`: forty percent of the base, truncated toward
   * zero. For every 32-bit base the double product lies within rounding of
   * 2*b/5 and its fractional part is a multiple of 0.2, so the truncation is
   * exact integer arithmetic.
   */
  function Variance(baseMs: int): (v: int)
    ensures baseMs >= 0 ==> 0 <= v && 5 * v <= 2 * baseMs < 5 * v + 5
  {
    if baseMs >= 0 then (2 * baseMs) / 5 else -((-2 * baseMs) / 5)
  }

  /**
   * GetRandomizedDelay(baseMs) once its Gaussian draw is given as the integer
   * `sample`. Math.Clamp throws when its bounds cross, which a negative base
   * would cause; the callers pass the positive configured delay or half of it.
   */
  function RandomizedDelay(baseMs: int, randomize: bool, sample: int): (r: int)
    requires IsInt32(baseMs)
    requires randomize ==> baseMs >= 0
    ensures !randomize ==> r == baseMs
    ensures randomize ==> MinDelayMs <= r
    ensures randomize && baseMs + Variance(baseMs) <= MaxInt32 ==>
              r <= Max(MinDelayMs, baseMs + Variance(baseMs)) &&
              (r == MinDelayMs || baseMs - Variance(baseMs) <= r)
    ensures randomize && baseMs + sample <= MaxInt32 && -Variance(baseMs) <= sample <= Variance(baseMs) ==>
              r == Max(MinDelayMs, baseMs + sample)
    ensures randomize && baseMs + Variance(baseMs) <= MaxInt32 && sample > Variance(baseMs) ==>
              r == Max(MinDelayMs, baseMs + Variance(baseMs))
    ensures randomize && sample < -Variance(baseMs) ==>
              r == Max(MinDelayMs, baseMs - Variance(baseMs))
    ensures randomize && baseMs + Clamp(sample, -Variance(baseMs), Variance(baseMs)) > MaxInt32 ==>
              r == MinDelayMs
  {
    if randomize then
      var variance := Variance(baseMs);
      var scaled := Clamp(sample, -variance, variance);
      if baseMs + scaled > MaxInt32 then
        WrapsNegative(baseMs + scaled);
        Max(MinDelayMs, Wrap32(baseMs + scaled))
      else
        var finalDelay := Wrap32(baseMs + scaled);
        Max(MinDelayMs, finalDelay)
    else
      baseMs
  }

  /** A sum just past the 32-bit range wraps to a negative value. */
  lemma WrapsNegative(x: int)
    requires MaxInt32 < x < TwoTo32
    ensures Wrap32(x) == x - TwoTo32 && Wrap32(x) < 0
  {
    var m := x - MinInt32;
    assert TwoTo32 <= m < 2 * TwoTo32;
    assert m % TwoTo32 == m - TwoTo32;
  }

  /** `Math.Min(consecutiveErrors * 2, 8)`, the multiplier after a rate-limit signal. */
  function BackoffMultiplier(errors: nat): (m: int)
    ensures errors >= 1 ==> m in {2, 4, 6, 8} && m <= 2 * errors
    ensures errors >= 4 ==> m == MaxBackoffMultiplier
    ensures 1 <= errors <= 4 ==> m == 2 * errors
  {
    Min(errors * 2, MaxBackoffMultiplier)
  }

  /** The multiplier that goes with an error count: 1 at rest, the backoff multiplier otherwise. */
  function MultiplierFor(errors: nat): int {
    if errors == 0 then 1 else BackoffMultiplier(errors)
  }

  /** `RequestDelayMs * multiplier` evaluated in 32-bit arithmetic. */
  function BackoffWait(requestDelayMs: int, multiplier: int): (w: int)
    ensures IsInt32(w)
    ensures IsInt32(requestDelayMs * multiplier) ==> w == requestDelayMs * multiplier
  {
    Wrap32(requestDelayMs * multiplier)
  }

  /** For every configured delay up to 268435455 ms the backoff wait is the exact, positive product. */
  lemma BackoffWaitExact(requestDelayMs: int, errors: nat)
    requires 0 < requestDelayMs <= MaxInt32 / MaxBackoffMultiplier
    requires errors >= 1
    ensures BackoffWait(requestDelayMs, BackoffMultiplier(errors)) == requestDelayMs * BackoffMultiplier(errors)
    ensures 2 * requestDelayMs <= BackoffWait(requestDelayMs, BackoffMultiplier(errors)) <= 8 * requestDelayMs
  {
    var m := BackoffMultiplier(errors);
    assert 2 <= m <= 8;
    assert requestDelayMs * m <= requestDelayMs * 8;
    assert requestDelayMs * 2 <= requestDelayMs * m;
  }

  /** Above 268435455 ms the product wraps: a configured delay of 300000000 ms backs off by a negative wait. */
  lemma BackoffWaitWrapsForHugeDelay()
    ensures BackoffWait(300_000_000, BackoffMultiplier(4)) < 0
  {
  }

  /** With randomization a huge base overflows the sum and the delay falls to the 200 ms floor. */
  lemma RandomizedDelayOverflowFloors()
    ensures RandomizedDelay(MaxInt32, true, MaxInt32) == MinDelayMs
  {
  }
}

=== FILE: platform.dfy ===
/**
 * The collaborators the scraper calls but that are not part of it, reduced to
 * the values they return: System.Uri parsing and resolution, int.TryParse and
 * the runtime's character classes (`Runtime`), and the web server, the HTML
 * engine, the regular-expression passes, the image codec and the random
 * source (`Web`). Each is a function-valued field, so every property proved
 * about the scraper holds for every behaviour of these collaborators that
 * satisfies the stated assumptions (`Sound`).
 */
module Platform {
  import opened Common

  newtype byte = x: int | 0 <= x < 256
  type Bytes = seq<byte>

  /** The parts of a parsed absolute System.Uri that the scraper reads. */
  datatype Uri = Uri(
    scheme: string,        // Uri.Scheme, always lower case
    userInfo: string,      // Uri.UserInfo
    host: string,          // Uri.Host
    port: int,             // Uri.Port
    absolutePath: string,  // Uri.AbsolutePath
    query: string,         // Uri.Query, with its leading '?' when present
    fragment: string,      // Uri.Fragment
    localPath: string)     // Uri.LocalPath

  predicate IsHttpScheme(u: Uri) {
    u.scheme == "http" || u.scheme == "https"
  }

  datatype Runtime = Runtime(
    /** Uri.TryCreate(s, UriKind.Absolute, out u), equally `new Uri(s)` succeeding. */
    tryCreateAbsolute: string -> Option<Uri>,
    /** `new Uri(s, UriKind.RelativeOrAbsolute)` succeeds with a relative reference. */
    isRelativeReference: string -> bool,
    /** `new Uri(baseUri, reference)`: base-relative resolution (RFC 3986, section 5.2); None when it throws. */
    resolve: (Uri, string) -> Option<Uri>,
    /** Uri.ToString(). */
    render: Uri -> string,
    /** int.TryParse(s, out n). */
    tryParseInt: string -> Option<int>,
    /** Path.GetInvalidFileNameChars(). */
    invalidFileNameChars: set<char>,
    /** char.IsWhiteSpace, also the regular-expression class \s. */
    isWhiteSpace: char -> bool,
    /** The regular-expression class \w. */
    isWordChar: char -> bool)

  /** int.TryParse yields 32-bit integers. */
  ghost predicate ParsesInt32(rt: Runtime) {
    forall s :: rt.tryParseInt(s).Some? ==> IsInt32(rt.tryParseInt(s).value)
  }

  /** The text of an absolute Uri parses again as an absolute Uri, and the empty string is not one. */
  ghost predicate UrisReparse(rt: Runtime) {
    && (forall u :: rt.tryCreateAbsolute(rt.render(u)).Some?)
    && rt.tryCreateAbsolute("").None?
  }

  /**
   * '/' is an invalid file-name character and every invalid one is a
   * control character or one of " * / : < > ? \ | (the Windows set; on Unix
   * only NUL and '/').
   */
  ghost predicate FileNameCharsSound(rt: Runtime) {
    && '/' in rt.invalidFileNameChars
    && (forall c :: c in rt.invalidFileNameChars ==> c < ' ' || IsReservedFileNameChar(c))
  }

  /** '_' is a word character that is not white space. */
  ghost predicate CharClassesSound(rt: Runtime) {
    rt.isWordChar('_') && !rt.isWhiteSpace('_')
  }

  /** Everything the model assumes of the .NET runtime. */
  ghost predicate Sound(rt: Runtime) {
    ParsesInt32(rt) && UrisReparse(rt) && FileNameCharsSound(rt) && CharClassesSound(rt)
  }

  /** The printable characters Windows reserves in file names. */
  predicate IsReservedFileNameChar(c: char) {
    c == '"' || c == '*' || c == '/' || c == ':' || c == '<' || c == '>' || c == '?' || c == '\\' || c == '|'
  }

  // ---------------------------------------------------------------------
  // The parsed page (AngleSharp)
  // ---------------------------------------------------------------------

  /**
   * An element with its lower-case tag name, its attributes, and every
   * element nested inside it in document order.
   */
  datatype Element = Element(tag: string, attrs: map<string, string>, inner: seq<Element>)

  /** A parsed document: its title and all of its elements in document order. */
  datatype Document = Document(title: string, elements: seq<Element>)

  /** `element.GetAttribute(name)`, with an absent attribute read as the empty string. */
  function Attr(e: Element, name: string): string {
    if name in e.attrs then e.attrs[name] else ""
  }

  // ---------------------------------------------------------------------
  // The web and the codec
  // ---------------------------------------------------------------------

  /** What HttpClient.GetAsync yields for a page. */
  datatype Response =
    | Reply(status: int, reason: string, body: string)  // a response: status code, reason phrase, text
    | RequestError(mentions429: bool)    // an HttpRequestException; whether its message names 429
    | TimedOut                           // a TaskCanceledException (the 30 s timeout)

  /** The encoder ImageSharp is asked for. */
  datatype Encoder = Jpeg(quality: int) | Png | Gif

  datatype Web = Web(
    /** The answer to GET url; attempt 0 is the first request, attempt 1 the retry after a 429. */
    respond: (string, nat) -> Response,
    /** The document AngleSharp builds from a page's text. */
    parse: string -> Document,
    /** ExtractUrlsFromCss(style): the trimmed capture of every url(...) match. */
    cssUrls: string -> seq<string>,
    /** Capture group 1 of every background-image match over the raw page text. */
    styleMatches: string -> seq<string>,
    /** Capture group 1 of every JSON key/value image match over the raw page text. */
    jsonMatches: string -> seq<string>,
    /** Capture group 1 of every absolute or protocol-relative image URL match over the raw page text. */
    bareUrlMatches: string -> seq<string>,
    /** HttpClient.GetByteArrayAsync(url); None when it throws. */
    imageBytes: string -> Option<Bytes>,
    /** Image.LoadAsync succeeds on these bytes. */
    decodes: Bytes -> bool,
    /** The bytes image.SaveAsync writes with this encoder; None when encoding or saving throws. */
    encode: (Bytes, Encoder) -> Option<Bytes>,
    /** The n-th scaled Gaussian sample `(int)(gaussian * variance / 2)` drawn for a randomized delay. */
    jitter: nat -> int)
}

=== FILE: scraper.dfy ===
/**
 * The ImageScraper object (getpics/ImageScraper.cs): its rate-limit
 * counters, the visited-page and downloaded-image sets, the output folder
 * and the image total are fields that its methods update in place. The
 * outside world is part of the state as well: `files` is the file system
 * the downloads are written to, `waits` every Task.Delay in order, `draws`
 * the number of Gaussian samples taken, and `imageRequests` every image URL
 * requested, in order. The web, the HTML engine and the codec are the
 * oracles of `Web`.
 */
module Scraper {
  import opened Common
  import opened Platform
  import opened Options
  import opened Pacing
  import opened Fetching
  import opened UrlRules
  import opened Extraction
  import Files
  import Conversion
  import Crawl

  /** No existing file is changed or removed. */
  ghost predicate Keeps(before: map<string, Bytes>, after: map<string, Bytes>) {
    forall p :: p in before ==> p in after && after[p] == before[p]
  }

  /** Conversion was asked for (`!string.IsNullOrEmpty(ConvertToFormat)`). */
  predicate Converts(o: ScraperOptions) {
    o.convertToFormat.Some? && o.convertToFormat.value != ""
  }

  /**
   * The path a download is first aimed at: the file name derived from the
   * URL, renamed to the target format when converting, in the output folder
   * ("." when there is none).
   */
  function TargetPath(rt: Runtime, o: ScraperOptions, folder: Option<string>, imageUrl: string): string {
    var fileName := Files.ExtractFileNameFromUrl(rt, imageUrl);
    var fileName := if Converts(o) then Files.ConvertedFileName(fileName, o.convertToFormat.value) else fileName;
    Files.Combine(if folder.Some? then folder.value else ".", fileName)
  }

  /**
   * What a download's target path is made of: the output folder ("." when
   * there is none), at most one separator, and the file name derived from
   * the URL; when converting, that name keeps its stem and takes the target
   * format as its extension.
   */
  ghost predicate TargetShape(rt: Runtime, o: ScraperOptions, folder: Option<string>, imageUrl: string, t: string) {
    var dir := if folder.Some? then folder.value else ".";
    var name := Files.ExtractFileNameFromUrl(rt, imageUrl);
    && (dir == "" ==> t == Files.FileName(t))
    && (dir != "" && dir[|dir| - 1] == '/' ==> t == dir + Files.FileName(t))
    && (dir != "" && dir[|dir| - 1] != '/' ==> t == dir + "/" + Files.FileName(t))
    && (!Converts(o) ==> Files.FileName(t) == name)
    && (Converts(o) ==>
          && Files.Extension(t) == "." + o.convertToFormat.value
          && Files.FileNameWithoutExtension(t) == Files.FileNameWithoutExtension(name))
  }

  /** A supported format is a non-empty extension without '.' or '/'. */
  lemma PlainFormat(format: string)
    requires format in ConvertFormats
    ensures format != "" && '.' !in format && '/' !in format
  {
    if format == "jpg" {
      assert format == ['j', 'p', 'g'];
    } else if format == "png" {
      assert format == ['p', 'n', 'g'];
    } else {
      assert format == ['g', 'i', 'f'];
    }
  }

  /** The target path of a download has the shape above. */
  lemma TargetPathParts(rt: Runtime, o: ScraperOptions, folder: Option<string>, imageUrl: string)
    requires FileNameCharsSound(rt) && WellFormed(o)
    ensures TargetShape(rt, o, folder, imageUrl, TargetPath(rt, o, folder, imageUrl))
  {
    var dir := if folder.Some? then folder.value else ".";
    var name := Files.ExtractFileNameFromUrl(rt, imageUrl);
    assert name != "" && '/' !in name;
    if Converts(o) {
      PlainFormat(o.convertToFormat.value);
      Files.CombineConverted(dir, name, o.convertToFormat.value);
      Files.CombineFileName(dir, Files.ConvertedFileName(name, o.convertToFormat.value));
    } else {
      Files.CombineFileName(dir, name);
    }
  }


  /** What GetUniqueFilePath may return for `target` among the existing paths. */
  ghost predicate UniqueFor(p: string, target: string, existing: set<string>) {
    && p !in existing
    && (target !in existing ==> p == target)
    && (target in existing ==>
          exists k: nat :: k >= 1 && p == Files.Alternative(Files.Parts(target), k) && Files.AllTaken(Files.Parts(target), k, existing))
  }

  /** The bytes written for a download: the converted image or the original, or the original when not converting. */
  function Stored(web: Web, o: ScraperOptions, data: Bytes): (r: Bytes)
    ensures !Converts(o) ==> r == data
    ensures Converts(o) ==>
              var converted := Conversion.Converted(web, data, o.convertToFormat.value, o.jpegQuality);
              r == if converted.Some? then converted.value else data
  {
    if Converts(o) then Conversion.Saved(web, data, o.convertToFormat.value, o.jpegQuality) else data
  }

  /**
   * The folder DetermineOutputFolder picks: the configured one when it is
   * not empty, else the folder named after the page title, else the name
   * built from the URL's host and path; None when that last step needs a
   * Uri and the URL is not absolute (the constructor throws).
   */
  function OutputFolderFor(rt: Runtime, configured: Option<string>, titleFolder: Option<string>, url: string): (r: Option<string>)
    ensures configured.Some? && configured.value != "" ==> r == configured
    ensures (configured.None? || configured.value == "") && titleFolder.Some? ==> r == titleFolder
    ensures (configured.None? || configured.value == "") && titleFolder.None? && rt.tryCreateAbsolute(url).Some? ==>
              r == Some(Files.OutputFolderFallback(rt.tryCreateAbsolute(url).value))
    ensures r.None? ==> (configured.None? || configured.value == "") && titleFolder.None? && rt.tryCreateAbsolute(url).None?
  {
    if configured.Some? && configured.value != "" then configured
    else if titleFolder.Some? then titleFolder
    else
      match rt.tryCreateAbsolute(url)
      case None => None
      case Some(u) => Some(Files.OutputFolderFallback(u))
  }

  /** The folder named after the title of a fetched page, when there is a non-empty page. */
  function TitleFolder(rt: Runtime, web: Web, body: Option<string>): Option<string> {
    if body.Some? && body.value != "" then Files.FolderFromTitle(rt, web.parse(body.value).title) else None
  }

  /** The chosen folder is never the empty name. */
  lemma OutputFolderNotEmpty(rt: Runtime, web: Web, configured: Option<string>, body: Option<string>, url: string)
    ensures var r := OutputFolderFor(rt, configured, TitleFolder(rt, web, body), url);
            r.Some? ==> r.value != ""
  {
    var r := OutputFolderFor(rt, configured, TitleFolder(rt, web, body), url);
    if r.Some? && !(configured.Some? && configured.value != "") && TitleFolder(rt, web, body).None? {
      var u := rt.tryCreateAbsolute(url).value;
      var domain := Files.HostDomain(u.host);
      assert StartsWith(r.value, domain + "_");
      assert |r.value| >= |domain| + 1;
    }
  }

  /** The distinct URLs of a sequence. */
  ghost function Members(s: seq<string>): set<string> {
    set x | x in s
  }

  /**
   * The image requests in `log` from index `from` on: each URL requested
   * once, each a valid image URL, marked in `after` and not in `before`.
   */
  ghost predicate NewRequests(rt: Runtime, gifs: bool, log: seq<string>, from: nat, before: set<string>, after: set<string>) {
    && from <= |log|
    && NoDuplicates(log[from..])
    && forall i :: from <= i < |log| ==> log[i] in after && log[i] !in before && IsValidImageUrl(rt, log[i], gifs)
  }

  /** Downloading a page's valid images, each URL not yet marked requested once, keeps the new requests fresh. */
  lemma ExtendNewRequests(rt: Runtime, gifs: bool, log: seq<string>, from: nat, before: set<string>, mid: set<string>, images: seq<string>)
    requires NewRequests(rt, gifs, log, from, before, mid) && before <= mid
    requires forall i :: 0 <= i < |images| ==> IsValidImageUrl(rt, images[i], gifs)
    ensures NewRequests(rt, gifs, log + Dedup(images, mid), from, before, mid + Members(images))
  {
    var added := Dedup(images, mid);
    var s := log + added;
    var t := s[from..];
    assert t == log[from..] + added;
    forall i, j | 0 <= i < j < |t| ensures t[i] != t[j] {
      if j >= |log| - from {
        assert t[j] == added[j - (|log| - from)];
        if i >= |log| - from {
          assert t[i] == added[i - (|log| - from)];
        } else {
          assert t[i] == log[from + i];
        }
      }
    }
    forall i | from <= i < |s|
      ensures s[i] in mid + Members(images) && s[i] !in before && IsValidImageUrl(rt, s[i], gifs)
    {
      if i >= |log| {
        assert s[i] == added[i - |log|];
        assert s[i] in images;
        var k :| 0 <= k < |images| && images[k] == s[i];
      } else {
        assert s[i] == log[i];
      }
    }
  }

  /** Adding a + b to a set is adding a, then adding b to what a left. */
  lemma {:induction false} DedupAppend(a: seq<string>, b: seq<string>, seen: set<string>)
    ensures Dedup(a + b, seen) == Dedup(a, seen) + Dedup(b, seen + Members(a))
    decreases |b|
  {
    if b == [] {
      assert a + b == a;
    } else {
      var init := b[..|b| - 1];
      assert (a + b)[..|a + b| - 1] == a + init;
      DedupAppend(a, init, seen);
    }
  }

  /** Adding one more URL to a set: it is added when it is neither in the set nor earlier (`marked` says which). */
  lemma DedupSnoc(prefix: seq<string>, url: string, seen: set<string>, added: seq<string>, marked: bool)
    requires added == Dedup(prefix, seen)
    requires marked <==> url in seen || url in prefix
    ensures Dedup(prefix + [url], seen) == if marked then added else added + [url]
  {
    assert (prefix + [url])[..|prefix|] == prefix;
  }

  /** Appending a non-empty b is appending all but its last element, then that element. */
  lemma SnocSplit(a: seq<string>, b: seq<string>)
    requires b != []
    ensures (a + b[..|b| - 1]) + [b[|b| - 1]] == a + b
  {
    assert b == b[..|b| - 1] + [b[|b| - 1]];
  }

  /** The prefix one longer is the prefix and the next element. */
  lemma TakeNext(s: seq<string>, k: nat)
    requires k < |s|
    ensures s[..k + 1] == s[..k] + [s[k]]
  {
  }

  /**
   * The anchor loop of ExtractLinksFromPageAsync: each anchor's href,
   * resolved and kept when it is an absolute http(s) URL, is appended in
   * document order.
   */
  method CollectLinks(rt: Runtime, anchors: seq<Element>, pageUrl: string) returns (links: seq<string>)
    ensures links == AnchorLinks(rt, anchors, pageUrl)
  {
    links := [];
    var k := 0;
    while k < |anchors|
      invariant 0 <= k <= |anchors|
      invariant links == AnchorLinks(rt, anchors[..k], pageUrl)
    {
      var target := LinkTarget(rt, Attr(anchors[k], "href"), pageUrl);
      AnchorLinksPrefix(rt, anchors, k, pageUrl);
      if target.Some? {
        links := links + [target.value];
      }
      k := k + 1;
    }
    assert anchors[..k] == anchors;
  }

  class ImageScraper {
    const options: ScraperOptions
    const rt: Runtime
    const web: Web

    var outputFolder: Option<string>
    var totalImagesFound: int
    var consecutiveErrors: nat
    var backoffMultiplier: int
    var visitedUrls: set<string>
    var downloadedImages: set<string>

    /** The file system: the contents of every existing file, by path. */
    var files: map<string, Bytes>
    /** Every wait the scraper made, in milliseconds, in order. */
    var waits: seq<int>
    /** How many Gaussian samples the randomized delays have drawn. */
    var draws: nat
    /** Every image URL whose bytes were requested, in order. */
    var imageRequests: seq<string>

    /** The options the parser accepts, and a multiplier in step with the error count. */
    predicate Valid()
      reads this`consecutiveErrors, this`backoffMultiplier
    {
      WellFormed(options) && Consistent(Counters(consecutiveErrors, backoffMultiplier))
    }

    function CountersNow(): Counters
      reads this`consecutiveErrors, this`backoffMultiplier
    {
      Counters(consecutiveErrors, backoffMultiplier)
    }

    /** The crawl's view of this scraper, for a start URI. */
    function SiteFor(origin: Uri): Crawl.Site {
      Crawl.Site(rt, web, options.requestDelayMs, options.maxPages, origin, options.includeAnimatedGifs)
    }

    /** A new scraper over a file system: no counters, no waits, no downloads yet. */
    constructor(options: ScraperOptions, rt: Runtime, web: Web, files: map<string, Bytes>)
      requires WellFormed(options)
      ensures Valid()
      ensures this.options == options && this.rt == rt && this.web == web && this.files == files
      ensures outputFolder.None? && totalImagesFound == 0 && CountersNow() == Rested
      ensures visitedUrls == {} && downloadedImages == {}
      ensures waits == [] && draws == 0 && imageRequests == []
    {
      this.options := options;
      this.rt := rt;
      this.web := web;
      this.files := files;
      outputFolder := None;
      totalImagesFound := 0;
      consecutiveErrors := 0;
      backoffMultiplier := 1;
      visitedUrls := {};
      downloadedImages := {};
      waits := [];
      draws := 0;
      imageRequests := [];
    }

    /** The waits of one pause: the randomized delay from `baseMs` drawn with sample number `n`. */
    function PauseFor(baseMs: int, n: nat): int
      requires IsInt32(baseMs) && baseMs >= 0
    {
      RandomizedDelay(baseMs, options.randomizeDelays, web.jitter(n))
    }

    /** GetRandomizedDelay(baseMs) followed by Task.Delay: one wait, and one sample drawn when randomizing. */
    method Pause(baseMs: int)
      requires IsInt32(baseMs) && baseMs >= 0
      modifies this`waits, this`draws
      ensures waits == old(waits) + [PauseFor(baseMs, old(draws))]
      ensures draws == old(draws) + (if options.randomizeDelays then 1 else 0)
      ensures options.randomizeDelays ==> MinDelayMs <= waits[|waits| - 1]
      ensures !options.randomizeDelays ==> waits[|waits| - 1] == baseMs
    {
      var delay := RandomizedDelay(baseMs, options.randomizeDelays, web.jitter(draws));
      if options.randomizeDelays {
        draws := draws + 1;
      }
      waits := waits + [delay];
    }

    /**
     * FetchHtmlAsync: the page text, or None when the fetch throws. A 429
     * raises the error count, waits out the backoff and asks once more; a
     * success resets the counters; a failure that names 429 raises the
     * count again.
     */
    method FetchHtml(url: string) returns (html: Option<string>)
      requires Valid()
      modifies this`consecutiveErrors, this`backoffMultiplier, this`waits
      ensures Valid()
      ensures var f := FetchOutcome(web, options.requestDelayMs, url, old(CountersNow()));
              html == f.body && CountersNow() == f.counters && waits == old(waits) + f.waits
    {
      FetchKeepsConsistent(web, options.requestDelayMs, url, CountersNow());
      var response := web.respond(url, 0);
      if response.Reply? && response.status == TooManyRequests {
        consecutiveErrors := consecutiveErrors + 1;
        backoffMultiplier := Min(consecutiveErrors * 2, MaxBackoffMultiplier);
        var backoffDelay := Wrap32(options.requestDelayMs * backoffMultiplier);
        if backoffDelay < 0 {
          // Task.Delay throws ArgumentOutOfRangeException, which the handler does not catch.
          return None;
        }
        waits := waits + [backoffDelay];
        response := web.respond(url, 1);
      }
      match response
      case Reply(status, reason, body) =>
        if IsSuccessStatus(status) {
          consecutiveErrors, backoffMultiplier := 0, 1;
          return Some(body);
        }
        if status == TooManyRequests || ReasonNames429(reason) {
          consecutiveErrors := consecutiveErrors + 1;
          backoffMultiplier := Min(consecutiveErrors * 2, MaxBackoffMultiplier);
        }
        return None;
      case RequestError(mentions429) =>
        if mentions429 {
          consecutiveErrors := consecutiveErrors + 1;
          backoffMultiplier := Min(consecutiveErrors * 2, MaxBackoffMultiplier);
        }
        return None;
      case TimedOut =>
        return None;
    }

    /**
     * ConvertAndSaveImageAsync: writes the converted image and reports
     * success, or writes the original bytes to the same path and reports
     * failure when loading, the format or encoding fails.
     */
    method ConvertAndSave(imageData: Bytes, targetFile: string, targetFormat: string) returns (success: bool)
      modifies this`files
      ensures success == Conversion.Converted(web, imageData, targetFormat, options.jpegQuality).Some?
      ensures files == old(files)[targetFile := Conversion.Saved(web, imageData, targetFormat, options.jpegQuality)]
      ensures !success ==> files[targetFile] == imageData
    {
      if !web.decodes(imageData) {
        files := files[targetFile := imageData];
        return false;
      }
      var encoder := Conversion.EncoderFor(targetFormat, options.jpegQuality);
      if encoder.None? {
        files := files[targetFile := imageData];
        return false;
      }
      var encoded := web.encode(imageData, encoder.value);
      if encoded.None? {
        files := files[targetFile := imageData];
        return false;
      }
      files := files[targetFile := encoded.value];
      return true;
    }

    /** The waits a download makes before its request: half the configured delay, in stealth mode only. */
    function DownloadPause(n: nat): seq<int>
      requires WellFormed(options)
    {
      if options.stealthMode then [PauseFor(options.requestDelayMs / 2, n)] else []
    }

    /** The samples a download draws: one for a randomized stealth pause. */
    function DownloadDraws(): nat {
      if options.stealthMode && options.randomizeDelays then 1 else 0
    }

    /** The samples `count` downloads draw: one each for randomized stealth pauses. */
    function DownloadsDraws(count: nat): nat {
      if options.stealthMode && options.randomizeDelays then count else 0
    }

    /** The waits of `count` downloads that request, the first drawing sample number `n`. */
    function DownloadPauses(count: nat, n: nat): seq<int>
      requires WellFormed(options)
    {
      if count == 0 then [] else DownloadPauses(count - 1, n) + DownloadPause(n + DownloadsDraws(count - 1))
    }

    lemma DownloadPausesNext(count: nat, n: nat)
      requires WellFormed(options)
      ensures DownloadPauses(count + 1, n) == DownloadPauses(count, n) + DownloadPause(n + DownloadsDraws(count))
    {
    }

    /** The pause before an image request: half the configured delay, in stealth mode only. */
    method StealthPause()
      requires WellFormed(options)
      modifies this`waits, this`draws
      ensures waits == old(waits) + DownloadPause(old(draws))
      ensures draws == old(draws) + DownloadDraws()
    {
      if options.stealthMode {
        Pause(options.requestDelayMs / 2);
      }
    }

    /** The path a download is first aimed at, built step by step as DownloadImageAsync does. */
    method TargetFor(imageUrl: string) returns (target: string)
      ensures target == TargetPath(rt, options, outputFolder, imageUrl)
      ensures FileNameCharsSound(rt) && WellFormed(options) ==> TargetShape(rt, options, outputFolder, imageUrl, target)
    {
      var fileName := Files.ExtractFileNameFromUrl(rt, imageUrl);
      if Converts(options) {
        fileName := Files.ConvertedFileName(fileName, options.convertToFormat.value);
      }
      target := Files.Combine(if outputFolder.Some? then outputFolder.value else ".", fileName);
      if FileNameCharsSound(rt) && WellFormed(options) {
        TargetPathParts(rt, options, outputFolder, imageUrl);
      }
    }

    /**
     * DownloadImageAsync: an image URL already marked is skipped; otherwise
     * it is marked before any wait or request, so a failed download is not
     * retried. The bytes are written to a path that names no existing file,
     * so no file is ever overwritten.
     */
    method DownloadImage(imageUrl: string)
      requires Valid()
      modifies this`downloadedImages, this`waits, this`draws, this`files, this`imageRequests
      ensures downloadedImages == old(downloadedImages) + {imageUrl}
      ensures Keeps(old(files), files)
      ensures imageUrl in old(downloadedImages) ==>
                files == old(files) && waits == old(waits) && draws == old(draws) && imageRequests == old(imageRequests)
      ensures imageUrl !in old(downloadedImages) ==>
                && imageRequests == old(imageRequests) + [imageUrl]
                && waits == old(waits) + DownloadPause(old(draws))
                && draws == old(draws) + DownloadDraws()
      ensures imageUrl !in old(downloadedImages) ==>
                StoresImage(old(files), files, TargetPath(rt, options, outputFolder, imageUrl), imageUrl)
    {
      if imageUrl in downloadedImages {
        return;
      }
      downloadedImages := downloadedImages + {imageUrl};
      StealthPause();
      var target := TargetFor(imageUrl);
      SaveImage(imageUrl, target);
    }

    /**
     * What a download writes: nothing when the request fails; otherwise the
     * stored bytes at a path that is the target or its first free numbered
     * alternative.
     */
    ghost predicate StoresImage(before: map<string, Bytes>, after: map<string, Bytes>, target: string, imageUrl: string) {
      && (web.imageBytes(imageUrl).None? ==> after == before)
      && (web.imageBytes(imageUrl).Some? ==>
            exists p :: UniqueFor(p, target, before.Keys) &&
                        after == before[p := Stored(web, options, web.imageBytes(imageUrl).value)])
    }

    /**
     * What downloading each of `urls` in order into `folder` writes: the
     * writes of StoresImage one after another, each among the files the
     * previous ones left.
     */
    ghost predicate StoresImages(before: map<string, Bytes>, after: map<string, Bytes>, folder: Option<string>, urls: seq<string>)
      decreases |urls|
    {
      if urls == [] then after == before
      else
        var last := urls[|urls| - 1];
        exists mid :: StoresImages(before, mid, folder, urls[..|urls| - 1]) && StoresImage(mid, after, TargetPath(rt, options, folder, last), last)
    }

    /**
     * What meeting the image URLs `images` records, from total t0, downloaded
     * set dl0, requests r0 and files f0: the total grows by their number,
     * every one is marked downloaded, and each not downloaded before (once)
     * is requested and stored, in order.
     */
    ghost predicate Recorded(folder: Option<string>, images: seq<string>,
                             t0: int, dl0: set<string>, r0: seq<string>, f0: map<string, Bytes>,
                             t: int, dl: set<string>, r: seq<string>, f: map<string, Bytes>) {
      && t == t0 + |images|
      && dl == dl0 + Members(images)
      && r == r0 + Dedup(images, dl0)
      && StoresImages(f0, f, folder, Dedup(images, dl0))
    }

    /** Meeting no image records nothing. */
    lemma RecordedNothing(folder: Option<string>, t: int, dl: set<string>, r: seq<string>, f: map<string, Bytes>)
      ensures Recorded(folder, [], t, dl, r, f, t, dl, r, f)
    {
      assert r + Dedup([], dl) == r;
    }

    /** The downloads of a, then those of b, are the downloads of a + b. */
    lemma {:induction false} StoresImagesAppend(before: map<string, Bytes>, mid: map<string, Bytes>, after: map<string, Bytes>,
                                                folder: Option<string>, a: seq<string>, b: seq<string>)
      requires StoresImages(before, mid, folder, a) && StoresImages(mid, after, folder, b)
      ensures StoresImages(before, after, folder, a + b)
      decreases |b|
    {
      if b == [] {
        assert after == mid && a + b == a;
      } else {
        var init, last := b[..|b| - 1], b[|b| - 1];
        var m := StoresImagesLast(mid, after, folder, b);
        StoresImagesAppend(before, mid, m, folder, a, init);
        StoresImagesSnoc(before, m, after, folder, a + init, last);
        SnocSplit(a, b);
      }
    }

    /** The downloads of a non-empty sequence end with the download of its last URL. */
    lemma StoresImagesLast(before: map<string, Bytes>, after: map<string, Bytes>, folder: Option<string>, urls: seq<string>)
      returns (mid: map<string, Bytes>)
      requires urls != [] && StoresImages(before, after, folder, urls)
      ensures StoresImages(before, mid, folder, urls[..|urls| - 1])
      ensures StoresImage(mid, after, TargetPath(rt, options, folder, urls[|urls| - 1]), urls[|urls| - 1])
    {
      mid :| StoresImages(before, mid, folder, urls[..|urls| - 1]) && StoresImage(mid, after, TargetPath(rt, options, folder, urls[|urls| - 1]), urls[|urls| - 1]);
    }

    /** The part of DownloadImageAsync after the pause: the path, the request and the write. */
    method SaveImage(imageUrl: string, target: string)
      modifies this`files, this`imageRequests
      ensures imageRequests == old(imageRequests) + [imageUrl]
      ensures Keeps(old(files), files)
      ensures StoresImage(old(files), files, target, imageUrl)
    {
      var filePath := Files.GetUniqueFilePath(target, files.Keys);
      imageRequests := imageRequests + [imageUrl];
      var imageData := web.imageBytes(imageUrl);
      if imageData.None? {
        // GetByteArrayAsync threw; the handler logs the failure.
        return;
      }
      if Converts(options) {
        var converted := ConvertAndSave(imageData.value, filePath, options.convertToFormat.value);
      } else {
        files := files[filePath := imageData.value];
      }
      assert UniqueFor(filePath, target, old(files).Keys);
    }

    /** One more download that requests extends the waits and the samples of those before it. */
    lemma DownloadStep(waits0: seq<int>, draws0: nat, added: seq<string>, url: string, prevWaits: seq<int>, prevDraws: nat, w: seq<int>, d: nat)
      requires WellFormed(options)
      requires prevWaits == waits0 + DownloadPauses(|added|, draws0) && prevDraws == draws0 + DownloadsDraws(|added|)
      requires w == prevWaits + DownloadPause(prevDraws) && d == prevDraws + DownloadDraws()
      ensures w == waits0 + DownloadPauses(|added + [url]|, draws0)
      ensures d == draws0 + DownloadsDraws(|added + [url]|)
    {
      var n := |added|;
      assert |added + [url]| == n + 1;
      DownloadPausesNext(n, draws0);
      assert w == waits0 + (DownloadPauses(n, draws0) + DownloadPause(draws0 + DownloadsDraws(n)));
    }

    /**
     * The bookkeeping after handing the URLs `prefix` to DownloadImage, from
     * marked set dl0, requests r0, waits w0, draws d0 and files f0: each is
     * marked, and `added`, those not marked before (once each), are
     * requested, paced and stored in order.
     */
    ghost predicate Downloads(folder: Option<string>, prefix: seq<string>,
                              dl0: set<string>, r0: seq<string>, w0: seq<int>, d0: nat, f0: map<string, Bytes>, added: seq<string>,
                              dl: set<string>, r: seq<string>, w: seq<int>, d: nat, f: map<string, Bytes>)
      requires WellFormed(options)
    {
      && dl == dl0 + Members(prefix)
      && added == Dedup(prefix, dl0)
      && r == r0 + added
      && w == w0 + DownloadPauses(|added|, d0)
      && d == d0 + DownloadsDraws(|added|)
      && StoresImages(f0, f, folder, added)
    }

    /** Before any URL, nothing has been downloaded. */
    lemma DownloadsStart(folder: Option<string>, dl: set<string>, r: seq<string>, w: seq<int>, d: nat, f: map<string, Bytes>)
      requires WellFormed(options)
      ensures Downloads(folder, [], dl, r, w, d, f, [], dl, r, w, d, f)
    {
      assert Members([]) == {};
      assert r + [] == r && w + [] == w;
    }

    /**
     * One pass of the loop over a page's images: the marks, requests,
     * waits, samples and writes of the first k URLs, followed by what
     * DownloadImage does for URL k, are those of the first k + 1.
     */
    lemma DownloadAllStep(prefix: seq<string>, url: string, marked0: set<string>, requests0: seq<string>, waits0: seq<int>, draws0: nat,
                          files0: map<string, Bytes>, folder: Option<string>, added: seq<string>,
                          marked: set<string>, requests: seq<string>, w: seq<int>, d: nat, f: map<string, Bytes>,
                          marked': set<string>, requests': seq<string>, w': seq<int>, d': nat, f': map<string, Bytes>)
      returns (added': seq<string>)
      requires WellFormed(options)
      requires Downloads(folder, prefix, marked0, requests0, waits0, draws0, files0, added, marked, requests, w, d, f)
      requires marked' == marked + {url}
      requires url in marked ==> f' == f && w' == w && d' == d && requests' == requests
      requires url !in marked ==>
                 && requests' == requests + [url]
                 && w' == w + DownloadPause(d) && d' == d + DownloadDraws()
                 && StoresImage(f, f', TargetPath(rt, options, folder, url), url)
      ensures Downloads(folder, prefix + [url], marked0, requests0, waits0, draws0, files0, added', marked', requests', w', d', f')
    {
      var isMarked := url in marked;
      added' := if isMarked then added else added + [url];
      DedupSnoc(prefix, url, marked0, added, isMarked);
      if !isMarked {
        ConcatAssoc(requests0, added, [url]);
        DownloadStep(waits0, draws0, added, url, w, d, w', d');
        StoresImagesSnoc(files0, f, f', folder, added, url);
      }
    }

    /** One more download extends the writes of those before it. */
    lemma StoresImagesSnoc(before: map<string, Bytes>, mid: map<string, Bytes>, after: map<string, Bytes>,
                           folder: Option<string>, added: seq<string>, url: string)
      requires StoresImages(before, mid, folder, added)
      requires StoresImage(mid, after, TargetPath(rt, options, folder, url), url)
      ensures StoresImages(before, after, folder, added + [url])
    {
      var added' := added + [url];
      assert added'[..|added|] == added && added'[|added|] == url;
    }

    /** Downloads only add files. */
    lemma {:induction false} StoresImagesKeeps(before: map<string, Bytes>, after: map<string, Bytes>, folder: Option<string>, urls: seq<string>)
      requires StoresImages(before, after, folder, urls)
      ensures Keeps(before, after)
      decreases |urls|
    {
      if urls != [] {
        var last := urls[|urls| - 1];
        var mid :| StoresImages(before, mid, folder, urls[..|urls| - 1]) && StoresImage(mid, after, TargetPath(rt, options, folder, last), last);
        StoresImagesKeeps(before, mid, folder, urls[..|urls| - 1]);
      }
    }

    /** The foreach over a page's images: each URL handed to DownloadImage in order. */
    method DownloadAll(urls: seq<string>)
      requires Valid()
      modifies this`downloadedImages, this`waits, this`draws, this`files, this`imageRequests
      ensures downloadedImages == old(downloadedImages) + Members(urls)
      ensures var added := Dedup(urls, old(downloadedImages));
              && imageRequests == old(imageRequests) + added
              && waits == old(waits) + DownloadPauses(|added|, old(draws))
              && draws == old(draws) + DownloadsDraws(|added|)
              && StoresImages(old(files), files, outputFolder, added)
      ensures Keeps(old(files), files)
    {
      var k := 0;
      ghost var added: seq<string> := [];
      ghost var dl0, r0, w0, d0, f0 := downloadedImages, imageRequests, waits, draws, files;
      assert urls[..k] == [];
      DownloadsStart(outputFolder, dl0, r0, w0, d0, f0);
      while k < |urls|
        invariant 0 <= k <= |urls|
        invariant Downloads(outputFolder, urls[..k], dl0, r0, w0, d0, f0, added, downloadedImages, imageRequests, waits, draws, files)
      {
        ghost var marked, requests, w, d, f := downloadedImages, imageRequests, waits, draws, files;
        DownloadImage(urls[k]);
        TakeNext(urls, k);
        added := DownloadAllStep(urls[..k], urls[k], dl0, r0, w0, d0, f0, outputFolder,
                                 added, marked, requests, w, d, f, downloadedImages, imageRequests, waits, draws, files);
        k := k + 1;
      }
      assert urls[..k] == urls;
      StoresImagesKeeps(f0, files, outputFolder, Dedup(urls, dl0));
    }

    /**
     * ExtractAndDownloadImagesFromPageAsync: fetches the page, adds the
     * number of its valid distinct images to the total and downloads each.
     * Returns false when the fetch throws (the exception is rethrown).
     */
    method ExtractAndDownload(pageUrl: string, ghost from: nat, ghost before: set<string>) returns (ok: bool, ghost f: Fetched, ghost images: seq<string>)
      requires Valid()
      requires NewRequests(rt, options.includeAnimatedGifs, imageRequests, from, before, downloadedImages) && before <= downloadedImages
      modifies this`consecutiveErrors, this`backoffMultiplier, this`waits, this`totalImagesFound
      modifies this`downloadedImages, this`draws, this`files, this`imageRequests
      ensures Valid()
      ensures f == FetchOutcome(web, options.requestDelayMs, pageUrl, old(CountersNow()))
      ensures images == Crawl.ImagesOf(rt, web, f.body, pageUrl, options.includeAnimatedGifs)
      ensures ok == f.body.Some? && CountersNow() == f.counters
      ensures Recorded(outputFolder, images, old(totalImagesFound), old(downloadedImages), old(imageRequests), old(files),
                       totalImagesFound, downloadedImages, imageRequests, files)
      ensures !ok ==> images == [] && imageRequests == old(imageRequests)
      ensures var added := Dedup(images, old(downloadedImages));
              && waits == old(waits) + f.waits + DownloadPauses(|added|, old(draws))
              && draws == old(draws) + DownloadsDraws(|added|)
      ensures NewRequests(rt, options.includeAnimatedGifs, imageRequests, from, before, downloadedImages)
      ensures Keeps(old(files), files)
    {
      f := FetchOutcome(web, options.requestDelayMs, pageUrl, CountersNow());
      images := Crawl.ImagesOf(rt, web, f.body, pageUrl, options.includeAnimatedGifs);
      ExtendNewRequests(rt, options.includeAnimatedGifs, imageRequests, from, before, downloadedImages, images);
      var html := FetchHtml(pageUrl);
      if html.None? {
        assert waits == waits + [];
        return false, f, images;
      }
      if html.value == "" {
        assert waits == waits + [];
        return true, f, images;
      }
      var found := PageImages(rt, web, html.value, pageUrl, options.includeAnimatedGifs);
      CountAndDownload(found);
      return true, f, images;
    }

    /** The rest of ExtractAndDownloadImagesFromPageAsync once the page is parsed: count the images, then download each. */
    method CountAndDownload(found: seq<string>)
      requires Valid()
      modifies this`totalImagesFound, this`downloadedImages, this`waits, this`draws, this`files, this`imageRequests
      ensures Recorded(outputFolder, found, old(totalImagesFound), old(downloadedImages), old(imageRequests), old(files),
                       totalImagesFound, downloadedImages, imageRequests, files)
      ensures waits == old(waits) + DownloadPauses(|Dedup(found, old(downloadedImages))|, old(draws))
      ensures draws == old(draws) + DownloadsDraws(|Dedup(found, old(downloadedImages))|)
      ensures Keeps(old(files), files)
    {
      totalImagesFound := totalImagesFound + |found|;
      DownloadAll(found);
    }

    /** ExtractLinksFromPageAsync: the normalised http(s) targets of the page's anchors, none when the fetch fails. */
    method ExtractLinks(pageUrl: string) returns (links: seq<string>)
      requires Valid()
      modifies this`consecutiveErrors, this`backoffMultiplier, this`waits
      ensures Valid()
      ensures (CountersNow(), links) == Crawl.PageLinks(rt, web, options.requestDelayMs, pageUrl, old(CountersNow()))
      ensures waits == old(waits) + FetchOutcome(web, options.requestDelayMs, pageUrl, old(CountersNow())).waits
    {
      var html := FetchHtml(pageUrl);
      links := [];
      if html.None? || html.value == "" {
        return;
      }
      links := CollectLinks(rt, WithTag(web.parse(html.value).elements, "a"), pageUrl);
    }

    /** An output folder was configured: DetermineOutputFolder then makes no request. */
    predicate ConfiguredFolder() {
      options.outputFolder.Some? && options.outputFolder.value != ""
    }

    /** The retry counters once DetermineOutputFolder has run from counters `c`. */
    function FolderCounters(url: string, c: Counters): Counters {
      if ConfiguredFolder() then c else FetchOutcome(web, options.requestDelayMs, url, c).counters
    }

    /**
     * The folder DetermineOutputFolder chooses from counters `c`: the
     * configured one when it is not empty, otherwise the title's folder or
     * the host fallback after one fetch of the page.
     */
    function FolderChoice(url: string, c: Counters): Option<string> {
      if ConfiguredFolder() then options.outputFolder
      else OutputFolderFor(rt, options.outputFolder, TitleFolder(rt, web, FetchOutcome(web, options.requestDelayMs, url, c).body), url)
    }

    /** The pauses DetermineOutputFolder makes from counters `c`. */
    function FolderWaits(url: string, c: Counters): seq<int> {
      if ConfiguredFolder() then [] else FetchOutcome(web, options.requestDelayMs, url, c).waits
    }

    /**
     * DetermineOutputFolder: the configured folder when it is not empty,
     * without any request; otherwise one fetch of the page for its title,
     * and the name built from the URL when the title gives none.
     */
    method DetermineOutputFolder(url: string) returns (folder: Option<string>)
      requires Valid()
      modifies this`consecutiveErrors, this`backoffMultiplier, this`waits
      ensures Valid()
      ensures folder.Some? ==> folder.value != ""
      ensures options.outputFolder.Some? && options.outputFolder.value != "" ==>
                folder == options.outputFolder && CountersNow() == old(CountersNow()) && waits == old(waits)
      ensures !(options.outputFolder.Some? && options.outputFolder.value != "") ==>
                var f := FetchOutcome(web, options.requestDelayMs, url, old(CountersNow()));
                && folder == OutputFolderFor(rt, options.outputFolder, TitleFolder(rt, web, f.body), url)
                && CountersNow() == f.counters
                && waits == old(waits) + f.waits
      ensures CountersNow() == FolderCounters(url, old(CountersNow())) && waits == old(waits) + FolderWaits(url, old(CountersNow()))
      ensures folder == FolderChoice(url, old(CountersNow()))
    {
      if options.outputFolder.Some? && options.outputFolder.value != "" {
        assert waits == old(waits) + [];
        return options.outputFolder;
      }
      var html := FetchHtml(url);
      OutputFolderNotEmpty(rt, web, options.outputFolder, html, url);
      if html.Some? && html.value != "" {
        var title := web.parse(html.value).title;
        var named := Files.FolderFromTitle(rt, title);
        if named.Some? {
          return named;
        }
      }
      match rt.tryCreateAbsolute(url)
      case None =>
        // `new Uri(url)` throws outside the try block.
        return None;
      case Some(uri) =>
        return Some(Files.OutputFolderFallback(uri));
    }

    /** The pause before a crawled page: the configured delay, in stealth mode, before every page but the first. */
    function PagePause(pageCount: nat, n: nat): seq<int>
      requires WellFormed(options)
    {
      if options.stealthMode && pageCount > 1 then [PauseFor(options.requestDelayMs, n)] else []
    }

    /** The samples that pause draws: one when it is randomized. */
    function PageDraws(pageCount: nat): nat {
      if options.stealthMode && pageCount > 1 && options.randomizeDelays then 1 else 0
    }

    /** The stealth-mode pause before every crawled page but the first. */
    method PausePage(pageCount: nat)
      requires WellFormed(options)
      modifies this`waits, this`draws
      ensures waits == old(waits) + PagePause(pageCount, old(draws))
      ensures draws == old(draws) + PageDraws(pageCount)
    {
      if options.stealthMode && pageCount > 1 {
        Pause(options.requestDelayMs);
      }
    }

    /** The pacing of one page: its pause, then the fetch and the downloads, in that order. */
    lemma PageStep(pageCount: nat, w0: seq<int>, d0: nat, w1: seq<int>, d1: nat, fetchWaits: seq<int>, count: nat, w2: seq<int>, d2: nat)
      requires WellFormed(options)
      requires w1 == w0 + PagePause(pageCount, d0) && d1 == d0 + PageDraws(pageCount)
      requires w2 == w1 + fetchWaits + DownloadPauses(count, d1) && d2 == d1 + DownloadsDraws(count)
      ensures d2 == d0 + PageDraws(pageCount) + DownloadsDraws(count)
      ensures w2 == w0 + PagePause(pageCount, d0) + fetchWaits + DownloadPauses(count, d0 + PageDraws(pageCount))
    {
      assert w2 == (w0 + PagePause(pageCount, d0)) + fetchWaits + DownloadPauses(count, d1);
    }

    /**
     * The first half of the crawl loop's try block for one page: the pause
     * before every page but the first in stealth mode, then the page's
     * images; `ok` tells whether the images' fetch succeeded.
     */
    method DownloadPage(pageUrl: string, pageCount: nat, ghost from: nat) returns (ok: bool, ghost f: Fetched, ghost images: seq<string>)
      requires Valid()
      requires NewRequests(rt, options.includeAnimatedGifs, imageRequests, from, {}, downloadedImages)
      modifies this`consecutiveErrors, this`backoffMultiplier, this`waits, this`totalImagesFound
      modifies this`downloadedImages, this`draws, this`files, this`imageRequests
      ensures Valid()
      ensures f == FetchOutcome(web, options.requestDelayMs, pageUrl, old(CountersNow()))
      ensures images == Crawl.ImagesOf(rt, web, f.body, pageUrl, options.includeAnimatedGifs)
      ensures ok == f.body.Some? && CountersNow() == f.counters
      ensures Recorded(outputFolder, images, old(totalImagesFound), old(downloadedImages), old(imageRequests), old(files),
                       totalImagesFound, downloadedImages, imageRequests, files)
      ensures draws == old(draws) + PageDraws(pageCount) + DownloadsDraws(|Dedup(images, old(downloadedImages))|)
      ensures waits == old(waits) + PagePause(pageCount, old(draws)) + f.waits
                       + DownloadPauses(|Dedup(images, old(downloadedImages))|, old(draws) + PageDraws(pageCount))
      ensures NewRequests(rt, options.includeAnimatedGifs, imageRequests, from, {}, downloadedImages)
      ensures Keeps(old(files), files)
    {
      PausePage(pageCount);
      ghost var w1, d1 := waits, draws;
      ghost var dl := downloadedImages;
      assert CountersNow() == old(CountersNow()) && dl == old(downloadedImages);
      assert totalImagesFound == old(totalImagesFound) && imageRequests == old(imageRequests) && files == old(files);
      ok, f, images := ExtractAndDownload(pageUrl, from, {});
      ghost var added := Dedup(images, dl);
      assert d1 == old(draws) + PageDraws(pageCount);
      assert DownloadPauses(|added|, d1) == DownloadPauses(|added|, old(draws) + PageDraws(pageCount));
      PageStep(pageCount, old(waits), old(draws), w1, d1, f.waits, |added|, waits, draws);
    }

    /**
     * The try block of the crawl loop for one page: the pause before every
     * page but the first in stealth mode, the images, and the links when
     * the images' fetch succeeded.
     */
    method CrawlPage(pageUrl: string, pageCount: nat, origin: Uri, queue: seq<string>, ghost from: nat) returns (queue': seq<string>)
      requires Valid()
      requires NewRequests(rt, options.includeAnimatedGifs, imageRequests, from, {}, downloadedImages)
      modifies this`consecutiveErrors, this`backoffMultiplier, this`waits, this`totalImagesFound
      modifies this`downloadedImages, this`draws, this`files, this`imageRequests
      ensures Valid()
      ensures var (c', links) := Crawl.VisitPage(SiteFor(origin), pageUrl, old(CountersNow()));
              CountersNow() == c' && queue' == queue + Crawl.Enqueued(SiteFor(origin), links, visitedUrls)
      ensures var c := old(CountersNow());
              var f := FetchOutcome(web, options.requestDelayMs, pageUrl, c);
              var images := Crawl.VisitImages(SiteFor(origin), pageUrl, c);
              var added := Dedup(images, old(downloadedImages));
              var d := old(draws) + PageDraws(pageCount);
              && Recorded(outputFolder, images, old(totalImagesFound), old(downloadedImages), old(imageRequests), old(files),
                          totalImagesFound, downloadedImages, imageRequests, files)
              && draws == d + DownloadsDraws(|added|)
              && waits == old(waits) + PagePause(pageCount, old(draws)) + f.waits + DownloadPauses(|added|, d)
                          + (if f.body.Some? then FetchOutcome(web, options.requestDelayMs, pageUrl, f.counters).waits else [])
      ensures NewRequests(rt, options.includeAnimatedGifs, imageRequests, from, {}, downloadedImages)
      ensures Keeps(old(files), files)
    {
      ghost var c := CountersNow();
      ghost var f := FetchOutcome(web, options.requestDelayMs, pageUrl, c);
      assert Crawl.VisitImages(SiteFor(origin), pageUrl, c) == Crawl.ImagesOf(rt, web, f.body, pageUrl, options.includeAnimatedGifs);
      var ok, _, _ := DownloadPage(pageUrl, pageCount, from);
      queue' := FollowLinks(pageUrl, ok, origin, queue);
    }

    /** The second half of the crawl loop's try block: the page's links join the queue when its first fetch succeeded. */
    method FollowLinks(pageUrl: string, ok: bool, origin: Uri, queue: seq<string>) returns (queue': seq<string>)
      requires Valid()
      modifies this`consecutiveErrors, this`backoffMultiplier, this`waits
      ensures Valid()
      ensures ok ==> var (c', links) := Crawl.PageLinks(rt, web, options.requestDelayMs, pageUrl, old(CountersNow()));
                     && CountersNow() == c'
                     && queue' == queue + Crawl.Enqueued(SiteFor(origin), links, visitedUrls)
                     && waits == old(waits) + FetchOutcome(web, options.requestDelayMs, pageUrl, old(CountersNow())).waits
      ensures !ok ==> CountersNow() == old(CountersNow()) && queue' == queue && waits == old(waits)
    {
      queue' := queue;
      if ok {
        var links := ExtractLinks(pageUrl);
        queue' := EnqueueLinks(queue, links, origin);
      }
    }

    /** The foreach over a page's links: those not visited and on the start host join the queue. */
    method EnqueueLinks(queue: seq<string>, links: seq<string>, origin: Uri) returns (queue': seq<string>)
      ensures queue' == queue + Crawl.Enqueued(SiteFor(origin), links, visitedUrls)
    {
      queue' := queue;
      var k := 0;
      while k < |links|
        invariant 0 <= k <= |links|
        invariant queue' == queue + Crawl.Enqueued(SiteFor(origin), links[..k], visitedUrls)
      {
        if links[k] !in visitedUrls && IsSameDomain(rt, links[k], origin) {
          queue' := queue' + [links[k]];
        }
        assert links[..k + 1][..k] == links[..k];
        k := k + 1;
      }
      assert links[..k] == links;
    }

    /**
     * One pass of the crawl loop: the next page is dequeued and, unless it
     * was visited, marked, counted and processed. `crawled` holds the pages
     * processed so far and `pages` the whole crawl: a page processed now is
     * the next page of the crawl.
     */
    method CrawlStep(queue: seq<string>, pageCount: nat, origin: Uri, ghost from: nat, ghost crawled: seq<string>, ghost pages: seq<string>,
                     ghost found: seq<string>, ghost allImages: seq<string>)
      returns (queue': seq<string>, pageCount': nat, ghost crawled': seq<string>, ghost images: seq<string>)
      requires Valid() && queue != [] && pageCount < options.maxPages
      requires crawled + Crawl.Frontier(SiteFor(origin), queue, visitedUrls, pageCount, CountersNow()) == pages
      requires found + Crawl.FrontierImages(SiteFor(origin), queue, visitedUrls, pageCount, CountersNow()) == allImages
      requires pageCount == |crawled| && visitedUrls == set p | p in crawled
      requires NewRequests(rt, options.includeAnimatedGifs, imageRequests, from, {}, downloadedImages)
      modifies this`consecutiveErrors, this`backoffMultiplier, this`waits, this`totalImagesFound, this`visitedUrls
      modifies this`downloadedImages, this`draws, this`files, this`imageRequests
      ensures Valid()
      ensures crawled' + Crawl.Frontier(SiteFor(origin), queue', visitedUrls, pageCount', CountersNow()) == pages
      ensures found + images + Crawl.FrontierImages(SiteFor(origin), queue', visitedUrls, pageCount', CountersNow()) == allImages
      ensures pageCount' == |crawled'| && visitedUrls == set p | p in crawled'
      ensures Crawl.Budget(SiteFor(origin), pageCount') < Crawl.Budget(SiteFor(origin), pageCount) ||
              (pageCount' == pageCount && |queue'| < |queue|)
      ensures Recorded(outputFolder, images, old(totalImagesFound), old(downloadedImages), old(imageRequests), old(files),
                       totalImagesFound, downloadedImages, imageRequests, files)
      ensures NewRequests(rt, options.includeAnimatedGifs, imageRequests, from, {}, downloadedImages)
      ensures Keeps(old(files), files)
    {
      ghost var site, c := SiteFor(origin), CountersNow();
      Crawl.FrontierUnfold(site, queue, visitedUrls, pageCount, c);
      var pageUrl := queue[0];
      queue' := queue[1..];
      pageCount' := pageCount;
      crawled' := crawled;
      images := [];
      if pageUrl in visitedUrls {
        assert found + images == found;
        RecordedNothing(outputFolder, totalImagesFound, downloadedImages, imageRequests, files);
        return;
      }
      visitedUrls := visitedUrls + {pageUrl};
      pageCount' := pageCount + 1;
      crawled' := crawled + [pageUrl];
      images := Crawl.VisitImages(site, pageUrl, c);
      queue' := CrawlPage(pageUrl, pageCount', origin, queue', from);
      ConcatAssoc(found, images, Crawl.FrontierImages(site, queue', visitedUrls, pageCount', CountersNow()));
    }

    /**
     * The crawl loop of DownloadImagesForDomainAsync from `start`: the
     * visited and downloaded sets are emptied, then pages are dequeued until
     * the queue is empty or MaxPages pages were processed. Returns the page
     * count; the pages processed are those of the crawl specification.
     */
    method CrawlDomain(start: string, origin: Uri) returns (pageCount: nat)
      requires Valid()
      modifies this`consecutiveErrors, this`backoffMultiplier, this`waits, this`totalImagesFound, this`visitedUrls
      modifies this`downloadedImages, this`draws, this`files, this`imageRequests
      ensures Valid()
      ensures var pages := Crawl.Crawled(SiteFor(origin), start, old(CountersNow()));
              pageCount == |pages| && visitedUrls == set p | p in pages
      ensures var images := Crawl.CrawledImages(SiteFor(origin), start, old(CountersNow()));
              var added := Dedup(images, {});
              && totalImagesFound == old(totalImagesFound) + |images|
              && downloadedImages == Members(images)
              && imageRequests == old(imageRequests) + added
              && StoresImages(old(files), files, outputFolder, added)
      ensures NewRequests(rt, options.includeAnimatedGifs, imageRequests, |old(imageRequests)|, {}, downloadedImages)
      ensures Keeps(old(files), files)
    {
      ghost var site := SiteFor(origin);
      ghost var pages := Crawl.Crawled(site, start, CountersNow());
      ghost var images := Crawl.CrawledImages(site, start, CountersNow());
      ghost var from := |imageRequests|;
      ghost var crawled: seq<string> := [];
      ghost var found: seq<string> := [];
      var queue := [start];
      visitedUrls := {};
      downloadedImages := {};
      pageCount := 0;
      EmptyAppend(pages);
      EmptyAppend(images);
      GatheredStart(totalImagesFound, imageRequests, files, outputFolder);
      while queue != [] && pageCount < options.maxPages
        invariant Valid()
        invariant crawled + Crawl.Frontier(site, queue, visitedUrls, pageCount, CountersNow()) == pages
        invariant found + Crawl.FrontierImages(site, queue, visitedUrls, pageCount, CountersNow()) == images
        invariant pageCount == |crawled| && visitedUrls == set p | p in crawled
        invariant Gathered(old(totalImagesFound), old(imageRequests), old(files), outputFolder, found,
                           totalImagesFound, downloadedImages, imageRequests, files)
        invariant NewRequests(rt, options.includeAnimatedGifs, imageRequests, from, {}, downloadedImages)
        decreases Crawl.Budget(site, pageCount), |queue|
      {
        ghost var t, dl, r, f := totalImagesFound, downloadedImages, imageRequests, files;
        ghost var step;
        queue, pageCount, crawled, step := CrawlStep(queue, pageCount, origin, from, crawled, pages, found, images);
        CrawlAdvance(old(totalImagesFound), old(imageRequests), old(files), outputFolder, found, step,
                     t, dl, r, f, totalImagesFound, downloadedImages, imageRequests, files);
        found := found + step;
      }
      Crawl.FrontierDone(site, queue, visitedUrls, pageCount, CountersNow());
      EmptyAppend(found);
      StoresImagesKeeps(old(files), files, outputFolder, Dedup(found, {}));
    }

    /**
     * The crawl's bookkeeping once the images `found` were met, starting
     * from total t0, requests r0 and files f0 with nothing downloaded yet.
     */
    ghost predicate Gathered(t0: int, r0: seq<string>, f0: map<string, Bytes>, folder: Option<string>, found: seq<string>,
                             t: int, dl: set<string>, r: seq<string>, f: map<string, Bytes>) {
      && t == t0 + |found|
      && dl == Members(found)
      && r == r0 + Dedup(found, {})
      && StoresImages(f0, f, folder, Dedup(found, {}))
    }

    /** Before the first page, nothing was met. */
    lemma GatheredStart(t0: int, r0: seq<string>, f0: map<string, Bytes>, folder: Option<string>)
      ensures Gathered(t0, r0, f0, folder, [], t0, {}, r0, f0)
    {
      assert r0 + Dedup([], {}) == r0;
    }

    /** The bookkeeping of the crawl loop after one more page's images. */
    lemma CrawlAdvance(t0: int, r0: seq<string>, f0: map<string, Bytes>, folder: Option<string>, found: seq<string>, step: seq<string>,
                       t: int, dl: set<string>, r: seq<string>, f: map<string, Bytes>,
                       t': int, dl': set<string>, r': seq<string>, f': map<string, Bytes>)
      requires Gathered(t0, r0, f0, folder, found, t, dl, r, f)
      requires Recorded(folder, step, t, dl, r, f, t', dl', r', f')
      ensures Gathered(t0, r0, f0, folder, found + step, t', dl', r', f')
    {
      DedupAppend(found, step, {});
      assert {} + Members(found) == dl;
      ConcatAssoc(r0, Dedup(found, {}), Dedup(step, dl));
      StoresImagesAppend(f0, f, f', folder, Dedup(found, {}), Dedup(step, dl));
    }

    /**
     * DownloadImagesForSinglePageAsync: picks the output folder and
     * downloads the page's images. Returns false when there is no URL, the
     * folder cannot be determined, or the page fetch throws.
     */
    method DownloadImagesForSinglePage() returns (ok: bool)
      requires Valid()
      modifies this`consecutiveErrors, this`backoffMultiplier, this`waits, this`totalImagesFound, this`outputFolder
      modifies this`downloadedImages, this`draws, this`files, this`imageRequests
      ensures Valid()
      ensures ok ==> options.url.Some? && options.url.value != "" && outputFolder.Some? && outputFolder.value != ""
      ensures ok ==> outputFolder == FolderChoice(options.url.value, old(CountersNow()))
      ensures ok ==> var url := options.url.value;
                     var f := FetchOutcome(web, options.requestDelayMs, url, FolderCounters(url, old(CountersNow())));
                     var images := Crawl.ImagesOf(rt, web, f.body, url, options.includeAnimatedGifs);
                     var added := Dedup(images, old(downloadedImages));
                     && Recorded(outputFolder, images, old(totalImagesFound), old(downloadedImages), old(imageRequests), old(files),
                                 totalImagesFound, downloadedImages, imageRequests, files)
                     && draws == old(draws) + DownloadsDraws(|added|)
                     && waits == old(waits) + FolderWaits(url, old(CountersNow())) + f.waits + DownloadPauses(|added|, old(draws))
      ensures !ok ==> imageRequests == old(imageRequests)
      ensures NewRequests(rt, options.includeAnimatedGifs, imageRequests, |old(imageRequests)|, old(downloadedImages), downloadedImages)
      ensures Keeps(old(files), files)
    {
      if options.url.None? || options.url.value == "" {
        // ArgumentException("URL is required")
        return false;
      }
      var url := options.url.value;
      var folder := DetermineOutputFolder(url);
      if folder.None? {
        return false;
      }
      outputFolder := folder;
      assert outputFolder == FolderChoice(url, old(CountersNow()));
      ghost var c, w := CountersNow(), waits;
      assert c == FolderCounters(url, old(CountersNow())) && w == old(waits) + FolderWaits(url, old(CountersNow()));
      assert downloadedImages == old(downloadedImages) && imageRequests == old(imageRequests) && files == old(files)
          && draws == old(draws) && totalImagesFound == old(totalImagesFound);
      ghost var dl := downloadedImages;
      ghost var f, images;
      ok, f, images := ExtractAndDownload(url, |imageRequests|, dl);
      assert f == FetchOutcome(web, options.requestDelayMs, url, FolderCounters(url, old(CountersNow())));
      assert Dedup(images, dl) == Dedup(images, old(downloadedImages));
      assert waits == w + f.waits + DownloadPauses(|Dedup(images, old(downloadedImages))|, old(draws));
    }

    /**
     * DownloadImagesForDomainAsync: picks the output folder, then crawls
     * from the configured URL. Returns false when there is no URL, the
     * folder cannot be determined, or the URL is not absolute.
     */
    method DownloadImagesForDomain() returns (ok: bool, pageCount: nat)
      requires Valid()
      modifies this`consecutiveErrors, this`backoffMultiplier, this`waits, this`totalImagesFound, this`outputFolder
      modifies this`visitedUrls, this`downloadedImages, this`draws, this`files, this`imageRequests
      ensures Valid()
      ensures ok ==> options.url.Some? && rt.tryCreateAbsolute(options.url.value).Some? && outputFolder.Some?
      ensures ok ==> outputFolder == FolderChoice(options.url.value, old(CountersNow()))
      ensures ok ==> pageCount <= options.maxPages && |visitedUrls| == pageCount
      ensures ok ==> options.url.value in visitedUrls
      ensures ok ==> forall p :: p in visitedUrls ==>
                       p == options.url.value || IsSameDomain(rt, p, rt.tryCreateAbsolute(options.url.value).value)
      ensures ok ==> var url := options.url.value;
                     var site := SiteFor(rt.tryCreateAbsolute(url).value);
                     var c := FolderCounters(url, old(CountersNow()));
                     var pages := Crawl.Crawled(site, url, c);
                     var images := Crawl.CrawledImages(site, url, c);
                     var added := Dedup(images, {});
                     && pageCount == |pages| && visitedUrls == (set p | p in pages)
                     && totalImagesFound == old(totalImagesFound) + |images|
                     && downloadedImages == Members(images)
                     && imageRequests == old(imageRequests) + added
                     && StoresImages(old(files), files, outputFolder, added)
      ensures !ok ==> imageRequests == old(imageRequests)
      ensures ok ==> NewRequests(rt, options.includeAnimatedGifs, imageRequests, |old(imageRequests)|, {}, downloadedImages)
      ensures Keeps(old(files), files)
    {
      if options.url.None? || options.url.value == "" {
        return false, 0;
      }
      var url := options.url.value;
      var folder := DetermineOutputFolder(url);
      if folder.None? {
        return false, 0;
      }
      outputFolder := folder;
      assert outputFolder == FolderChoice(url, old(CountersNow()));
      var origin := rt.tryCreateAbsolute(url);
      if origin.None? {
        // `new Uri(url)` throws.
        return false, 0;
      }
      ghost var c := CountersNow();
      pageCount := CrawlDomain(url, origin.value);
      ghost var pages := Crawl.Crawled(SiteFor(origin.value), url, c);
      Crawl.CrawlProperties(SiteFor(origin.value), url, c);
      DistinctCount(pages);
      ok := true;
    }
  }

  /** A sequence without repeats has as many distinct elements as entries. */
  lemma {:induction false} DistinctCount(s: seq<string>)
    requires NoDuplicates(s)
    ensures |Members(s)| == |s|
  {
    if s != [] {
      var init := s[..|s| - 1];
      DistinctCount(init);
      assert Members(s) == Members(init) + {s[|s| - 1]};
      assert s[|s| - 1] !in init;
    }
  }
}

=== FILE: srcset.dfy ===
/**
 * ParseSrcSet (getpics/ImageScraper.cs): a simplified srcset splitter. The
 * attribute is split on ',', each entry is trimmed, and the text before its
 * first space is kept when it is not empty. Descriptors are ignored and every
 * URL is returned; this is not the WHATWG HTML srcset parsing algorithm.
 */
module SrcSet {
  import opened Common
  import opened Platform

  /** The URL part of one entry: `entry.Trim().Split(' ')[0]`. */
  function EntryUrl(rt: Runtime, entry: string): (u: string)
    ensures ' ' !in u
  {
    Before(Trim(entry, rt.isWhiteSpace), ' ')
  }

  /** The URL part is a prefix of the trimmed entry. */
  lemma EntryUrlIsPrefix(rt: Runtime, entry: string)
    ensures StartsWith(Trim(entry, rt.isWhiteSpace), EntryUrl(rt, entry))
  {
  }

  /** An entry without a comma yields a URL part without a comma. */
  lemma EntryUrlWithoutComma(rt: Runtime, entry: string)
    requires ',' !in entry
    ensures ',' !in EntryUrl(rt, entry)
  {
    var t1 := TrimStartWhere(entry, rt.isWhiteSpace);
    var t2 := TrimEndWhere(t1, rt.isWhiteSpace);
    var u := EntryUrl(rt, entry);
    EntryUrlIsPrefix(rt, entry);
    forall i | 0 <= i < |u| ensures u[i] != ',' {
      assert u[i] == t2[i] == t1[i] == entry[|entry| - |t1| + i];
    }
  }

  /**
   * The URLs of the entries in order, one per entry whose URL part is not
   * empty. Defined from the last entry so that it follows the loop below.
   */
  function EntryUrls(rt: Runtime, entries: seq<string>): (urls: seq<string>)
    ensures |urls| <= |entries|
    ensures forall i :: 0 <= i < |urls| ==> urls[i] != "" && ' ' !in urls[i]
  {
    if entries == [] then []
    else
      var init := EntryUrls(rt, entries[..|entries| - 1]);
      var u := EntryUrl(rt, entries[|entries| - 1]);
      if u != "" then init + [u] else init
  }

  /** Entries without commas, as Split produces them, yield URLs without commas. */
  lemma {:induction false} EntryUrlsWithoutComma(rt: Runtime, entries: seq<string>)
    requires forall i :: 0 <= i < |entries| ==> ',' !in entries[i]
    ensures forall i :: 0 <= i < |EntryUrls(rt, entries)| ==> ',' !in EntryUrls(rt, entries)[i]
  {
    if entries != [] {
      var init := entries[..|entries| - 1];
      var last := entries[|entries| - 1];
      assert forall i :: 0 <= i < |init| ==> init[i] == entries[i];
      EntryUrlsWithoutComma(rt, init);
      EntryUrlWithoutComma(rt, last);
      var u := EntryUrl(rt, last);
      assert EntryUrls(rt, entries) == if u != "" then EntryUrls(rt, init) + [u] else EntryUrls(rt, init);
    }
  }

  /** Each entry with a non-empty URL part contributes exactly one URL. */
  lemma {:induction false} EntryUrlsCount(rt: Runtime, entries: seq<string>)
    requires forall i :: 0 <= i < |entries| ==> EntryUrl(rt, entries[i]) != ""
    ensures |EntryUrls(rt, entries)| == |entries|
    ensures forall i :: 0 <= i < |entries| ==> EntryUrls(rt, entries)[i] == EntryUrl(rt, entries[i])
  {
    if entries != [] {
      var init := entries[..|entries| - 1];
      assert forall i :: 0 <= i < |init| ==> init[i] == entries[i];
      EntryUrlsCount(rt, init);
      var prefix := EntryUrls(rt, init);
      var u := EntryUrl(rt, entries[|entries| - 1]);
      var r := EntryUrls(rt, entries);
      assert u != "";
      assert r == prefix + [u];
      forall i | 0 <= i < |entries|
        ensures r[i] == EntryUrl(rt, entries[i])
      {
        if i < |init| {
          assert r[i] == prefix[i] == EntryUrl(rt, init[i]);
          assert init[i] == entries[i];
        } else {
          assert i == |entries| - 1 && r[i] == u;
        }
      }
    }
  }

  /** Taking one more entry adds its URL part when that is not empty. */
  lemma EntryUrlsSnoc(rt: Runtime, entries: seq<string>, k: nat)
    requires k < |entries|
    ensures var u := EntryUrl(rt, entries[k]);
            EntryUrls(rt, entries[..k + 1]) ==
              if u != "" then EntryUrls(rt, entries[..k]) + [u] else EntryUrls(rt, entries[..k])
  {
    assert entries[..k + 1][..k] == entries[..k];
  }

  /** The loop of ParseSrcSet: the URL part of each entry, appended in order when it is not empty. */
  method CollectEntryUrls(rt: Runtime, entries: seq<string>) returns (urls: seq<string>)
    ensures urls == EntryUrls(rt, entries)
  {
    urls := [];
    var k := 0;
    while k < |entries|
      invariant 0 <= k <= |entries|
      invariant urls == EntryUrls(rt, entries[..k])
    {
      var url := EntryUrl(rt, entries[k]);
      if url != "" {
        urls := urls + [url];
      }
      EntryUrlsSnoc(rt, entries, k);
      k := k + 1;
    }
    assert entries[..k] == entries;
  }

  /** ParseSrcSet: the URL part of every comma-separated entry, in input order. */
  method ParseSrcSet(rt: Runtime, srcSet: string) returns (urls: seq<string>)
    ensures urls == EntryUrls(rt, Split(srcSet, ','))
    ensures forall i :: 0 <= i < |urls| ==> urls[i] != "" && ',' !in urls[i] && ' ' !in urls[i]
  {
    var entries := Split(srcSet, ',');
    urls := CollectEntryUrls(rt, entries);
    EntryUrlsWithoutComma(rt, entries);
  }
}

=== FILE: urlrules.dfy ===
/**
 * URL classification and resolution (getpics/ImageScraper.cs): the image
 * extension table, the two image predicates, the same-host test, resolution
 * of a reference against its page, and the normalisation applied to links.
 */
module UrlRules {
  import opened Common
  import opened Platform

  /** The default extension table: every image type except GIF. */
  const ImageExtensions: seq<string> := [".jpg", ".jpeg", ".png", ".webp", ".svg", ".bmp", ".ico"]

  /** The table used when animated GIFs are enabled. */
  const AllImageExtensions: seq<string> := [".jpg", ".jpeg", ".png", ".gif", ".webp", ".svg", ".bmp", ".ico"]

  function Extensions(includeGifs: bool): seq<string> {
    if includeGifs then AllImageExtensions else ImageExtensions
  }

  /**
   * `extensions.Any(ext => path.EndsWith(ext))`, compared character by
   * character. The source's EndsWith(string) is culture-sensitive: it skips
   * ignorable code points such as a soft hyphen, so a path like
   * ".jp\u00ADg" ends with ".jpg" there and not here.
   */
  predicate EndsWithAny(path: string, exts: seq<string>) {
    exists i :: 0 <= i < |exts| && EndsWith(path, exts[i])
  }

  /** `path.EndsWith(suffix, StringComparison.OrdinalIgnoreCase)`. */
  predicate EndsWithIgnoreCase(path: string, suffix: string) {
    |suffix| <= |path| && EqualsIgnoreCase(path[|path| - |suffix|..], suffix)
  }

  predicate EndsWithAnyIgnoreCase(path: string, exts: seq<string>) {
    exists i :: 0 <= i < |exts| && EndsWithIgnoreCase(path, exts[i])
  }

  /**
   * IsLikelyImageUrl: the lower-cased text before its first '?' ends with an
   * image extension.
   */
  predicate IsLikelyImageUrl(url: string, includeGifs: bool) {
    url != "" && EndsWithAny(Before(Lower(url), '?'), Extensions(includeGifs))
  }

  /**
   * IsValidImageUrl: an absolute URL must be http or https and its path must
   * end with an image extension; a relative reference must itself end with
   * one; text that is neither is rejected rather than raised.
   */
  predicate IsValidImageUrl(rt: Runtime, url: string, includeGifs: bool) {
    && url != ""
    && match rt.tryCreateAbsolute(url)
       case Some(u) => IsHttpScheme(u) && EndsWithAnyIgnoreCase(u.absolutePath, Extensions(includeGifs))
       case None => rt.isRelativeReference(url) && EndsWithAnyIgnoreCase(url, Extensions(includeGifs))
  }

  /** IsSameDomain: the URL parses as absolute and its host equals the start host, ignoring case. */
  predicate IsSameDomain(rt: Runtime, url: string, origin: Uri) {
    match rt.tryCreateAbsolute(url)
    case Some(u) => EqualsIgnoreCase(u.host, origin.host)
    case None => false
  }

  /**
   * ConvertToAbsoluteUrl: "" for an empty reference, an absolute reference
   * unchanged, otherwise the text of the reference resolved against the
   * page; "" when the page URL does not parse or resolution throws.
   */
  function ConvertToAbsoluteUrl(rt: Runtime, reference: string, pageUrl: string): (r: string)
    ensures reference == "" ==> r == ""
    ensures reference != "" && rt.tryCreateAbsolute(reference).Some? ==> r == reference
    ensures reference != "" && rt.tryCreateAbsolute(reference).None? && rt.tryCreateAbsolute(pageUrl).None? ==> r == ""
    ensures reference != "" && rt.tryCreateAbsolute(reference).None? && rt.tryCreateAbsolute(pageUrl).Some? ==>
              var resolved := rt.resolve(rt.tryCreateAbsolute(pageUrl).value, reference);
              && (resolved.None? ==> r == "")
              && (resolved.Some? ==> r == rt.render(resolved.value))
    ensures UrisReparse(rt) ==> r == "" || rt.tryCreateAbsolute(r).Some?
  {
    if reference == "" then ""
    else if rt.tryCreateAbsolute(reference).Some? then reference
    else match rt.tryCreateAbsolute(pageUrl)
      case None => ""
      case Some(pageUri) =>
        match rt.resolve(pageUri, reference)
        case None => ""
        case Some(u) => rt.render(u)
  }

  /** Resolving is idempotent: a resolved URL resolves to itself. */
  lemma ConvertToAbsoluteUrlIdempotent(rt: Runtime, reference: string, pageUrl: string)
    requires UrisReparse(rt)
    ensures var once := ConvertToAbsoluteUrl(rt, reference, pageUrl);
            ConvertToAbsoluteUrl(rt, once, pageUrl) == once
  {
  }

  /** The link form: scheme, host, path and query; fragment, port and user information are dropped. */
  function NormalizeLink(u: Uri): (r: string)
    ensures StartsWith(r, u.scheme + "://" + u.host + u.absolutePath)
    ensures EndsWith(r, u.query)
    ensures |r| == |u.scheme| + 3 + |u.host| + |u.absolutePath| + |u.query|
  {
    u.scheme + "://" + u.host + u.absolutePath + (if u.query != "" then u.query else "")
  }

  /** Two URIs that differ only in fragment, port, user information or local path normalise alike. */
  lemma NormalizeLinkIgnoresFragmentPortUserInfo(u: Uri, fragment: string, port: int, userInfo: string, localPath: string)
    ensures NormalizeLink(u.(fragment := fragment, port := port, userInfo := userInfo, localPath := localPath)) == NormalizeLink(u)
  {
  }

  /**
   * What one anchor contributes to the page's links: its href resolved
   * against the page, kept when it is an absolute http(s) URL, normalised.
   */
  function LinkTarget(rt: Runtime, href: string, pageUrl: string): (r: Option<string>)
    ensures r.Some? ==> href != "" && (StartsWith(r.value, "http://") || StartsWith(r.value, "https://"))
    ensures href == "" ==> r.None?
    ensures var target := rt.tryCreateAbsolute(ConvertToAbsoluteUrl(rt, href, pageUrl));
            && (r.Some? <==> href != "" && target.Some? && IsHttpScheme(target.value))
            && (r.Some? ==> r.value == NormalizeLink(target.value))
    ensures href != "" && rt.tryCreateAbsolute(href).Some? && IsHttpScheme(rt.tryCreateAbsolute(href).value) ==>
              r == Some(NormalizeLink(rt.tryCreateAbsolute(href).value))
  {
    if href == "" then None
    else
      var absoluteUrl := ConvertToAbsoluteUrl(rt, href, pageUrl);
      match rt.tryCreateAbsolute(absoluteUrl)
      case Some(u) => if IsHttpScheme(u) then Some(NormalizeLink(u)) else None
      case None => None
  }

  // ---------------------------------------------------------------------
  // Properties of the image predicates
  // ---------------------------------------------------------------------

  /** Both predicates reject the empty string. */
  lemma EmptyIsNotAnImage(rt: Runtime, includeGifs: bool)
    ensures !IsLikelyImageUrl("", includeGifs) && !IsValidImageUrl(rt, "", includeGifs)
  {
  }

  /**
   * Enabling GIFs only adds: whatever is accepted without them is accepted
   * with them, and what is accepted only with them ends in ".gif".
   */
  lemma GifsOnlyWhenEnabled(url: string)
    ensures IsLikelyImageUrl(url, false) ==> IsLikelyImageUrl(url, true)
    ensures IsLikelyImageUrl(url, true) && !IsLikelyImageUrl(url, false) ==>
              EndsWith(Before(Lower(url), '?'), ".gif")
  {
    var p := Before(Lower(url), '?');
    if IsLikelyImageUrl(url, false) {
      var i :| 0 <= i < |ImageExtensions| && EndsWith(p, ImageExtensions[i]);
      var j := if i < 3 then i else i + 1;
      assert AllImageExtensions[j] == ImageExtensions[i];
    }
    if IsLikelyImageUrl(url, true) && !EndsWith(p, ".gif") {
      var i :| 0 <= i < |AllImageExtensions| && EndsWith(p, AllImageExtensions[i]);
      assert i != 3;
      var j := if i < 3 then i else i - 1;
      assert ImageExtensions[j] == AllImageExtensions[i];
    }
  }

  /**
   * The other direction: a URL whose text before '?' ends with ".gif" is
   * rejected by the pre-filter unless GIFs are enabled, and accepted when
   * they are.
   */
  lemma GifRejectedUnlessEnabled(url: string)
    requires EndsWith(Before(Lower(url), '?'), ".gif")
    ensures !IsLikelyImageUrl(url, false) && IsLikelyImageUrl(url, true)
  {
    var p := Before(Lower(url), '?');
    assert p[|p| - 1] == 'f';
    forall i | 0 <= i < |ImageExtensions| ensures !EndsWith(p, ImageExtensions[i]) {
      var e := ImageExtensions[i];
      assert e[|e| - 1] != 'f';
    }
    assert AllImageExtensions[3] == ".gif";
    assert |Lower(url)| >= |p| > 0;
  }

  /** The text IsValidImageUrl checks the extension of: the path of an absolute URL, else the reference itself. */
  function CheckedPath(rt: Runtime, url: string): string {
    match rt.tryCreateAbsolute(url)
    case Some(u) => u.absolutePath
    case None => url
  }

  /**
   * The same rule for the final validity filter: enabling GIFs only adds
   * URLs whose checked path ends with ".gif" in any letter case.
   */
  lemma ValidGifsOnlyWhenEnabled(rt: Runtime, url: string)
    ensures IsValidImageUrl(rt, url, false) ==> IsValidImageUrl(rt, url, true)
    ensures IsValidImageUrl(rt, url, true) && !IsValidImageUrl(rt, url, false) ==>
              EndsWithIgnoreCase(CheckedPath(rt, url), ".gif")
  {
    var path := CheckedPath(rt, url);
    if IsValidImageUrl(rt, url, false) {
      var i :| 0 <= i < |ImageExtensions| && EndsWithIgnoreCase(path, ImageExtensions[i]);
      var j := if i < 3 then i else i + 1;
      assert AllImageExtensions[j] == ImageExtensions[i];
    }
    if IsValidImageUrl(rt, url, true) && !EndsWithIgnoreCase(path, ".gif") {
      var i :| 0 <= i < |AllImageExtensions| && EndsWithIgnoreCase(path, AllImageExtensions[i]);
      assert i != 3;
      var j := if i < 3 then i else i - 1;
      assert ImageExtensions[j] == AllImageExtensions[i];
    }
  }

  /**
   * A URL whose checked path ends with ".gif" in any letter case is never
   * valid while GIFs are disabled; with them enabled it is valid exactly
   * when the scheme (or relative form) check passes.
   */
  lemma ValidGifRejectedUnlessEnabled(rt: Runtime, url: string)
    requires EndsWithIgnoreCase(CheckedPath(rt, url), ".gif")
    ensures !IsValidImageUrl(rt, url, false)
    ensures IsValidImageUrl(rt, url, true) <==>
              url != "" &&
              match rt.tryCreateAbsolute(url)
              case Some(u) => IsHttpScheme(u)
              case None => rt.isRelativeReference(url)
  {
    var path := CheckedPath(rt, url);
    assert LowerChar(path[|path| - 1]) == 'f' by {
      assert path[|path| - 4..][3] == path[|path| - 1];
    }
    forall i | 0 <= i < |ImageExtensions| ensures !EndsWithIgnoreCase(path, ImageExtensions[i]) {
      var e := ImageExtensions[i];
      assert LowerChar(e[|e| - 1]) != 'f';
    }
    assert AllImageExtensions[3] == ".gif";
  }

  /** Everything from the first '?' on is ignored. */
  lemma LikelyIgnoresQuery(path: string, query: string, includeGifs: bool)
    requires '?' !in path && path != ""
    ensures IsLikelyImageUrl(path + "?" + query, includeGifs) == IsLikelyImageUrl(path, includeGifs)
  {
    var s := path + "?" + query;
    var ls := Lower(s);
    assert ls == Lower(path) + "?" + Lower(query);
    assert '?' !in Lower(path) by {
      forall i | 0 <= i < |path| ensures Lower(path)[i] != '?' {
        assert path[i] != '?';
      }
    }
    assert ls[|path|] == '?';
    assert ls[..|path|] == Lower(path);
    var b := Before(ls, '?');
    assert b == Lower(path);
  }

  /** Case does not matter to the pre-filter. */
  lemma LikelyIgnoresCase(url: string, includeGifs: bool)
    ensures IsLikelyImageUrl(Lower(url), includeGifs) == IsLikelyImageUrl(url, includeGifs)
  {
    assert Lower(Lower(url)) == Lower(url);
  }
}
